=== FILE: README.md ===
# Callisto: a verified model of the program-to-link core

Callisto is a TV-style programme guide. Channels carry movies, episodes and
shows. For the program on screen, the guide finds a directly playable video URL:

1. It looks up the program's TMDB metadata.
2. It builds a search query and asks an indexer for torrents.
3. It sends the deduplicated, seeder-ordered info hashes to StremThru, which
   reports which of them are cached at Real-Debrid.
4. It picks the cached item with the largest video file.
5. It has the server route `magnetToLink` turn that magnet into a Real-Debrid
   download URL. The route adds the magnet, polls for files, selects the video
   file, polls for links and unrestricts the first link. It throttles and
   retries on 429 along the way.
6. It stores the link in the program's metadata record, so the next request
   for the program short-circuits.

The model has one Dafny module per source file:

| Module | Source file | What it covers |
|---|---|---|
| `EpgContext` | `EPGContext.tsx` | query building, hash list, cached filter, best pick, link persistence, movie metadata fetch with its `"FAILED"` sentinel, season and episode choice |
| `MagnetToLink` | `magnetToLink/route.ts` | `extOf`, `pickByExt`, `getHashFromMagnet`, the rate gate, the 429 retry loop, the five-stage POST handler, the in-flight map |
| `VideoPane` | `VideoPane.tsx` | `guessMime` |
| `TmdbRoute` | `api/tmdb/route.ts` | the TMDB proxy |
| `StremThruRoute` | `api/stremthru/route.ts` | the StremThru proxy, including `encodeURIComponent` |
| `TraktStart` | `api/auth/trakt/start/route.ts` | the PKCE verifier and challenge (RFC 7636) with `b64URL`, which is base64url of section 5 of RFC 4648 |
| `SessionStore` | `lib/sessionStore.ts` | the Redis session store, as a map |
| `ChannelGuide` | `ChannelGuide.tsx` | channel and scroll keys |
| `TimeMarkers` | `TimeMarkers.tsx` | the half-hour time ruler |

Three shared modules support them:
- `Wrappers`: `Option`.
- `Text`: the JavaScript string operations used. These are `trim` with the full
  JavaScript white-space set, ASCII case folding as the `/i` regular expressions
  without the `u` flag apply it to these ASCII patterns, `split`, `join`,
  `padStart` and the truncating `%`.
- `Seqs`: filtering, and the first maximal element. The first maximal element
  is what a stable descending sort followed by `[0]` yields.

Every network answer, clock reading, random draw and digest is an input to the
model. A polling loop that runs until a deadline is modelled as the finite
sequence of answers received before the deadline.

`VIDEO_RE` (`magnetToLink/route.ts:10`) has no `mkv`, and `pickByExt` applies
it before the allow and deny lists. So the `disallowExts = ["mkv"]` defaults
(`magnetToLink/route.ts:74` and `:111`) never remove a file that `VIDEO_RE` has
not already removed. Even `allowedExts: ["mkv"]` picks no Matroska file: it
picks nothing. `MagnetToLink.MkvNeverPicked` proves that no options make
`pickByExt` return a `.mkv` file.

## Model

| member | source | states |
|---|---|---|
| EpgContext.Persist | src/app/epg/context/EPGContext.tsx:521-545 | A movie's link is written into the movie map only, under its `tmdb`. Any other program's link is written into the episode map only, under its `episodeTMDB`. When that key is absent or 0, both maps stay as they were. |
| EpgContext.PersistKeepsFields | src/app/epg/context/EPGContext.tsx:521-545 | Writing a link puts it in the program's own record (movies by `tmdb`, others by a truthy `episodeTMDB`) and keeps every other field of that record. A program with no record gets one holding only the link. Every other record in both maps is unchanged. A non-movie whose `episodeTMDB` is absent or 0 leaves both maps unchanged. |
| EpgContext.YearPartOfDate | src/app/epg/context/EPGContext.tsx:438-439 | The year part of a release date is its text before the first '-'. It is the whole date when the date has no '-', and "" when the date is absent. |
| EpgContext.MovieQueryYear | src/app/epg/context/EPGContext.tsx:436-440 | A movie without a release date is searched by its trimmed title. A movie dated `year-…` is searched by the trimmed "title year". |
| EpgContext.MovieQueryExact | src/app/epg/context/EPGContext.tsx:436-440 | If the title has no white space at either end and the year is non-empty, the query is exactly title, space, year (for example "Dune 2021"). |
| EpgContext.EpisodeNumberPadding | src/app/epg/context/EPGContext.tsx:441-445 | Season and episode numbers below 10 get one leading zero. Numbers from 10 to 99 print in two characters. Numbers of 100 and more are neither padded nor cut. |
| EpgContext.WireQuery | src/app/epg/context/EPGContext.tsx:441-445 | Season 2, episode 5 of "The Wire" is searched as "The Wire S02E05". |
| EpgContext.SortBySeeders | src/app/epg/context/EPGContext.tsx:459 | The sorted results are a permutation of the input, in non-increasing seeder order. |
| EpgContext.DedupSpec | src/app/epg/context/EPGContext.tsx:455-461 | `Array.from(new Set(xs))` holds every distinct element exactly once, in order of first occurrence. |
| EpgContext.TopSeedersIsMax | src/app/epg/context/EPGContext.tsx:455-462 | The reference "best seeder count of a hash" is absent exactly when no result carries the hash. Otherwise it is a count some carrying result reaches and none exceeds. |
| EpgContext.HashListByContents | src/app/epg/context/EPGContext.tsx:455-462 | For any key function, the hash list holds exactly the keys of the results with a truthy `infoHash`, each once. |
| EpgContext.HashListBySeederOrder | src/app/epg/context/EPGContext.tsx:455-462 | For any key function, listed hashes come in non-increasing order of their best seeder count. |
| EpgContext.HashListContents | src/app/epg/context/EPGContext.tsx:455-462 | The guide's hash list holds exactly the trimmed truthy `infoHash` values of the search results, with no duplicates. |
| EpgContext.HashListSeederOrder | src/app/epg/context/EPGContext.tsx:455-462 | The guide's hash list is ordered by each hash's best seeder count, highest first. |
| EpgContext.CachedOnly | src/app/epg/context/EPGContext.tsx:474-478 | Only items whose status is exactly "cached" are kept, and every such item is kept. Nothing is kept exactly when no item is cached. |
| EpgContext.ScoreIsLargestQualifying | src/app/epg/context/EPGContext.tsx:481-491 | An item's score is the size of its largest file that ends in .mkv/.mp4/.m4v/.mov/.avi (any case) and is over 100 MiB. The score is 0 exactly when no file qualifies. |
| EpgContext.PickBest | src/app/epg/context/EPGContext.tsx:482-493 | The pick has a score no other item beats, and every earlier item scores strictly less. There is no pick only for an empty item list. |
| EpgContext.PickBestWithoutCandidates | src/app/epg/context/EPGContext.tsx:482-493 | When no cached item has a qualifying file, the first cached item is still picked. |
| EpgContext.StepsOf | src/app/epg/context/EPGContext.tsx:474-495 | There is a pick exactly when at least one item is cached. |
| EpgContext.BestCachedIsBest | src/app/epg/context/EPGContext.tsx:474-493 | The best cached item is one of the answer's items and is cached. No cached item scores higher. There is one exactly when some item is cached. |
| EpgContext.StepsPickIsBestCached | src/app/epg/context/EPGContext.tsx:465-493 | The pipeline's pick is a cached item of a successful check answer that no cached item outscores. There is a pick exactly when the check succeeded with some cached item. |
| EpgContext.RunSteps | src/app/epg/context/EPGContext.tsx:447-547 | A link comes back exactly when every stage passes: a non-empty query, a 2xx search with some hash, a 2xx check with a cached pick whose `magnet` is truthy, a truthy token, and a 2xx resolve answer with a truthy `download`. The link is then that `download`, persisted, after exactly the search, check and resolve calls. Without a link the caches are unchanged. |
| EpgContext.RunStepsProvenance | src/app/epg/context/EPGContext.tsx:447-547 | The calls made are a prefix of search, availability check, resolve. A non-empty query is always searched. The caches change only when a link is found. A link is found exactly when every stage passes. It comes only from the truthy `download` of a 2xx resolve answer, after all three calls, and is then persisted. |
| EpgContext.RunStepsExits | src/app/epg/context/EPGContext.tsx:447-519 | Each `return null` happens exactly when its stage is the first to fail. No call is made for an empty query. Only the search is made for a failed search or no hash. Search and check are made for a failed check, no cached item, a pick without magnet, or no token. All three calls are made for a non-2xx resolve answer or a falsy `download`. |
| EpgContext.ShortCircuit | src/app/epg/context/EPGContext.tsx:426-434 | Absent metadata gives no link, and a stored link is returned as it is. In both cases the pipeline makes no call and the snapshot of the caches comes back unchanged. The metadata fetch that precedes the lookup is stated by `EpgContext.FetchMovieLink`. |
| EpgContext.FetchProgramLink | src/app/epg/context/EPGContext.tsx:426-547 | Without metadata in the snapshot there is no link, the pipeline makes no call and the snapshot comes back unchanged. A link comes back exactly when the record's stored link is truthy or every stage passes. For a record without a stored link, passing stages give the resolve answer's `download`, persisted, after three calls. |
| EpgContext.LinkProvenance | src/app/epg/context/EPGContext.tsx:422-547 | A link is either the stored one, returned without calls, or a fresh one found by the pipeline for a record without a link and persisted. When the record has no stored link and every stage passes, the fresh link is the resolve answer's `download`, persisted. |
| EpgContext.LinkAfterPersist | src/app/epg/context/EPGContext.tsx:426-545 | Once a link is persisted for a program, the next call returns it with no network call. |
| EpgContext.NextCallAfter | src/app/epg/context/EPGContext.tsx:426-545 | For a movie, or a program whose `episodeTMDB` is not 0: whichever way a first call produced its link, the caches it left make the next call return that link with no pipeline call. |
| EpgContext.SecondCallShortCircuits | src/app/epg/context/EPGContext.tsx:426-547 | Idempotence, for a movie or a program whose `episodeTMDB` is not 0: after a call that returned a link, the next call returns the same link, with no pipeline call and no cache change, whatever the network would answer. |
| EpgContext.GetProgramMeta | src/app/epg/context/EPGContext.tsx:321-342 | A movie finds its record exactly when its `tmdb` is a key of the movie cache. An episode or show finds its record exactly when it has an `episodeTMDB` that is a key of the episode cache. The record found is the one stored under that key. |
| EpgContext.EnsureMovieMeta | src/app/epg/context/EPGContext.tsx:354-399 | A movie with metadata changes nothing. A movie without metadata, with a truthy id and no TMDB cache entry, is fetched. A 2xx answer stores the record in the TMDB cache. When the record has genres, its `MovieMetaOf` goes into the movie cache. A record without genres makes `fetchMovieMeta` throw at line 366, the error is swallowed at line 413, and the movie cache does not change. A non-2xx stores the "FAILED" sentinel and no metadata. A throw, or no fetch, leaves the TMDB cache as it was. The episode cache never changes. |
| EpgContext.FetchMovieLink | src/app/epg/context/EPGContext.tsx:422-547 | A movie's `fetchProgramLink` with its `ensureProgramMeta` call. A link needs metadata already in the render snapshot, and the link and pipeline calls do not depend on the TMDB answer. TMDB is asked exactly when the movie has no metadata, a truthy id and no TMDB cache entry. What it answers is written to the caches as `EnsureMovieMeta` states. Only a 2xx record with genres adds metadata. |
| EpgContext.MovieLinkOnSecondCall | src/app/epg/context/EPGContext.tsx:392-433 | A movie first met without metadata gets no link and no pipeline call from the first call, which fetches its record. The second call does not ask TMDB again. When the record has genres, the second call returns the resolve answer's `download` exactly when every stage passes. When it has none, the second call returns nothing and changes nothing. |
| EpgContext.FetchMovieTmdb | src/app/epg/context/EPGContext.tsx:268-319 | A falsy id, or any cache entry including real data, returns nothing and fetches nothing. Otherwise the movie is fetched. A 2xx answer is returned and cached. A non-2xx answer caches the "FAILED" sentinel. A thrown error leaves the cache as it was. |
| EpgContext.MovieMetaOf | src/app/epg/context/EPGContext.tsx:364-371 | The movie record has no link, and it carries the TMDB genres. It is built only from a record that has genres. Its release date falls back to the first air date when the release date is empty or absent. |
| EpgContext.FailedMovieStaysUnresolved | src/app/epg/context/EPGContext.tsx:277-294 | After one failed fetch the sentinel stays. Every later metadata attempt changes nothing, whatever the server answers, so the movie never gets a link. |
| EpgContext.FetchedMovieIsSearched | src/app/epg/context/EPGContext.tsx:354-385 | A movie fetched successfully, with genres, gets a record without a link, so the next link lookup searches for its query. |
| EpgContext.ChooseSeason | src/app/epg/context/EPGContext.tsx:138-143 | The chosen season number is positive. It is one of the listed seasons, or 1 when no season is numbered above 0. |
| EpgContext.EverySeasonReachable | src/app/epg/context/EPGContext.tsx:138-143 | Every season numbered above 0 is chosen by some random draw. |
| EpgContext.ChooseEpisode | src/app/epg/context/EPGContext.tsx:154-164 | The choice is a released episode when one exists, and otherwise the season's first episode. There is no choice only for a season without episodes. |
| EpgContext.EveryReleasedEpisodeReachable | src/app/epg/context/EPGContext.tsx:155-164 | Every released episode is chosen by some random draw. |
| MagnetToLink.ExtOf | src/app/api/rd/magnetToLink/route.ts:66-69 | No '.' gives "". Otherwise the result is the lower-cased text after the last '.', and that text contains no '.'. |
| MagnetToLink.ExtOfCiSuffix | src/app/api/rd/magnetToLink/route.ts:66-69 | A path ending, in any case, with '.' and a lower-case alphanumeric extension has exactly that extension. |
| MagnetToLink.PickByExt | src/app/api/rd/magnetToLink/route.ts:71-91 | Nothing is picked exactly when no file passes the video, sample and extension filters. Otherwise the pick passes them, is as large as every file that does, and is the first such file of that size. |
| MagnetToLink.VideoPathExtension | src/app/api/rd/magnetToLink/route.ts:10 | Every path `VIDEO_RE` accepts has one of the six extensions mp4, m4v, mov, webm, avi, ts. |
| MagnetToLink.VideoPathIsNotMkv | src/app/api/rd/magnetToLink/route.ts:10 | No path `VIDEO_RE` accepts is a Matroska file. |
| MagnetToLink.MkvNeverPicked | src/app/api/rd/magnetToLink/route.ts:79-90 | Whatever the options, even `allowedExts: ["mkv"]`, a `.mkv` file is never picked. |
| MagnetToLink.Capture | src/app/api/rd/magnetToLink/route.ts:59-62 | The regular expression finds no match exactly when no prefix is followed by a letter or digit. Otherwise the capture is the greedy alphanumeric run after the leftmost match. |
| MagnetToLink.GetHashFromMagnetSpec | src/app/api/rd/magnetToLink/route.ts:56-64 | The hash is the lower-cased capture after the leftmost `xt=urn:btih:`. Failing that, it is the capture after the leftmost `btih:`. Failing both, it is the input itself. |
| MagnetToLink.HashAfterHead | src/app/api/rd/magnetToLink/route.ts:56-64 | A magnet whose first 'x' starts `xt=urn:btih:` followed by an alphanumeric hash gives back that hash, lower-cased. |
| MagnetToLink.HashIsLowerAlnum | src/app/api/rd/magnetToLink/route.ts:56-64 | A magnet with `btih:` followed by a letter or digit yields a non-empty run of lower-case letters and digits. |
| MagnetToLink.RateLimitGate | src/app/api/rd/magnetToLink/route.ts:14-19 | The gate exits no earlier than the call and no earlier than 1200 ms after the previous exit. It exits at once when the gap has already passed. |
| MagnetToLink.GateExits | src/app/api/rd/magnetToLink/route.ts:14-19 | Successive passes through the gate exit at least 1200 ms apart. |
| MagnetToLink.RetryAfterMs | src/app/api/rd/magnetToLink/route.ts:44-45 | A missing `Retry-After` counts as 0 ms. A non-negative one counts as its seconds times 1000. |
| MagnetToLink.BackoffSchedule | src/app/api/rd/magnetToLink/route.ts:46-49 | The backoff never undercuts `Retry-After` and is at least 800 ms. It doubles from 800 ms to the 8000 ms cap, which applies from the fifth retry on. It stays below 8250 ms unless the server asks for more. |
| MagnetToLink.RetryFrom | src/app/api/rd/magnetToLink/route.ts:28-53 | From any attempt on, the loop returns the first non-429 answer or stops after the last allowed POST. The loop sleeps the backoff of each retry in turn. |
| MagnetToLink.AddMagnetWithRetry | src/app/api/rd/magnetToLink/route.ts:21-54 | At most 7 POSTs are made, and every answer before the last is a 429. The loop returns the first answer that is not a 429 (a throw included), or the seventh 429. It sleeps `Backoff(k, …)` before retry k. |
| MagnetToLink.RetryGivesUpOnlyAfterAll429 | src/app/api/rd/magnetToLink/route.ts:39-42 | The loop ends with a 429 exactly when all seven answers were 429s. |
| MagnetToLink.PollUntil | src/app/api/rd/magnetToLink/route.ts:146-155 | A poll stops at the first answer meeting its condition, throws at the first failed fetch, or ends with the last answer before the deadline. |
| MagnetToLink.AfterFilePoll | src/app/api/rd/magnetToLink/route.ts:157-224 | Listed files of which none survives the filters give 409. A non-2xx `selectFiles` gives its own status, and a thrown one throws. Once the select stage passes, a thrown link poll throws. A link poll ending without links gives 504. A non-2xx unrestrict gives 502. A thrown unrestrict, or one whose body is not JSON, throws. A 2xx JSON unrestrict gives success with the add stage's id, the first link, and the `download`, `host` and `filesize`. These stages never fail as the add stage. |
| MagnetToLink.RunPipeline | src/app/api/rd/magnetToLink/route.ts:127-224 | A thrown add throws the run. A non-2xx add gives 429 when the loop gave up on 429s, and 502 otherwise. A 2xx add without `id` gives 502. After an accepted add, a thrown file poll throws, and otherwise the later stages decide. An add-stage failure means the add was not accepted. |
| MagnetToLink.OptionsOf | src/app/api/rd/magnetToLink/route.ts:105-113 | A supplied `allowedExts`, `disallowExts` or `excludeSamples` reaches `pickByExt` as given. An absent one takes its default: the deny list is ["mkv"], samples are excluded, and there is no allow list. |
| MagnetToLink.RunRateLimitedIffAll429 | src/app/api/rd/magnetToLink/route.ts:129-136 | The add stage fails with 429 exactly when all seven `addMagnet` answers were 429s. |
| MagnetToLink.RunNoSupportedVideo | src/app/api/rd/magnetToLink/route.ts:158-181 | The select stage answers 409 exactly when the add was accepted, the file poll ended on listed files, and either none survives the filters or `selectFiles` answered 409. Those files came from one of the polls. |
| MagnetToLink.RunSuccessEvidence | src/app/api/rd/magnetToLink/route.ts:127-224 | The run succeeds exactly when every stage passes. It then answers with the accepted id, the first link of the ready torrent and the unrestrict answer's `download`. That id is the `id` of a 2xx `addMagnet` answer, and the link was listed by a link poll. |
| MagnetToLink.RunNoLinksByDeadline | src/app/api/rd/magnetToLink/route.ts:184-196 | The link stage answers 504 exactly when the add and select passed and the link poll ended, by the deadline, without links. Then no poll saw a downloaded torrent with links, and the last poll saw no links at all. |
| MagnetToLink.Post | src/app/api/rd/magnetToLink/route.ts:103-234 | A body that is not JSON gives 500, and a missing token or magnet gives 400. Both leave the map unchanged. A settled key in flight answers from the map. Otherwise a finished run's reply is the answer, and a thrown run gives 500 and leaves its info hash in the map. |
| MagnetToLink.PostAnswersDownload | src/app/api/rd/magnetToLink/route.ts:103-230 | An admitted request whose hash is not in flight and whose every stage passes gets 200 with the unrestrict `download`, and the map is unchanged. |
| MagnetToLink.PostInflightDiscipline | src/app/api/rd/magnetToLink/route.ts:119-233 | As written, a request never removes a key. It adds its info hash exactly when that hash was not in flight and its run throws, and it then answers 500. |
| MagnetToLink.StaleKeyBlocksLaterRequests | src/app/api/rd/magnetToLink/route.ts:122-233 | As written, once a run for an info hash has thrown, every later request for that hash gets a 500 without reaching the provider. |
| MagnetToLink.PostFixed | src/app/api/rd/magnetToLink/route.ts:103-234 | With the delete in `finally`: the same 500 and 400 answers, and a finished run's reply for a hash not in flight. A thrown run gives 500 and leaves the map as it was. |
| MagnetToLink.PostFixedReleasesKey | src/app/api/rd/magnetToLink/route.ts:227-230 | With the delete in `finally`, a request leaves the in-flight map as it found it. |
| MagnetToLink.PostFixedRetriesAfterFailure | src/app/api/rd/magnetToLink/route.ts:227-230 | With the delete in `finally`, a request after a failed one runs the pipeline afresh and gets that run's reply. |
| MagnetToLink.StaleKeyExample | src/app/api/rd/magnetToLink/route.ts:227-233 | A concrete pair of requests: the first request's info poll fails. On a provider that now works, the second request still gets 500 as written, and gets the download link with the fix. |
| VideoPane.Scan | src/app/epg/components/VideoPane.tsx:6-8 | The scan reports a match exactly when some '.' followed by the extension, in any case, ends the URL or is followed by '?'. |
| VideoPane.GuessMime | src/app/epg/components/VideoPane.tsx:4-10 | A null or empty URL gets no type. Otherwise the result is mp4/m4v → video/mp4, else mov → video/quicktime, else mkv → video/x-matroska, else no type. Each extension counts only before '?' or the end. |
| VideoPane.SuffixMatches | src/app/epg/components/VideoPane.tsx:6-8 | A URL whose path ends in `.ext`, with or without a query string, matches that extension. |
| VideoPane.Mp4Wins | src/app/epg/components/VideoPane.tsx:6 | A `.mp4` or `.m4v` URL plays as MP4, even when `.mov` or `.mkv` also appears in it. |
| VideoPane.SlashAfterExtensionGivesNothing | src/app/epg/components/VideoPane.tsx:6-9 | An extension followed by '/' does not count, so such a URL with no other '.' gets no type. |
| TmdbRoute.Get | src/app/api/tmdb/route.ts:3-70 | A missing id or type gives 400, and a type other than movie/tv gives another 400. Otherwise the fetched URL is the path plus the API key. A non-2xx answer passes its status on with the error text. A 2xx answer passes its JSON on with `public, max-age=3600`. A network or JSON failure gives 500. |
| TmdbRoute.SegmentsJoin | src/app/api/tmdb/route.ts:25-33 | The path is the API base followed by its segments joined with '/'. |
| TmdbRoute.PathSegments | src/app/api/tmdb/route.ts:25-33 | The path read back after the API base is type and id, then "season" and the season only when a season is given, then "episode" and the episode only when both are given. |
| StremThruRoute.MagnetsOf | src/app/api/stremthru/route.ts:11-12 | There is one magnet per hash, in input order: `magnet:?xt=urn:btih:` followed by the trimmed hash. |
| StremThruRoute.MagnetHasNoComma | src/app/api/stremthru/route.ts:12 | A magnet built from a comma-free hash contains no comma. |
| StremThruRoute.MagnetListEntries | src/app/api/stremthru/route.ts:11-13 | For comma-free hashes, the list split on ',' gives back exactly one magnet per hash, in order. |
| StremThruRoute.HashSurvivesMagnet | src/app/api/stremthru/route.ts:12 | For an alphanumeric hash, the magnet-to-link route recovers the lower-cased hash from the magnet built here. |
| StremThruRoute.EncodeUriComponent | src/app/api/stremthru/route.ts:15-17 | The encoding holds only unreserved characters and '%'. |
| StremThruRoute.EncodeDecodeAscii | src/app/api/stremthru/route.ts:15-17 | Decoding the encoding of an ASCII string gives the string back. |
| StremThruRoute.SeparatorsEscaped | src/app/api/stremthru/route.ts:15-17 | ',', ':', '?', '=' and '&' are percent-encoded, so the list travels as a single query value. |
| StremThruRoute.Post | src/app/api/stremthru/route.ts:3-45 | A body that is not JSON, or has no `hashes`, gives 500. An empty list, and only an empty list, gives 400. Otherwise the encoded magnet list is fetched. A non-2xx answer gives 502 with its text. A 2xx JSON answer is passed on. A network or JSON failure gives 500. |
| TraktStart.Sextets | src/app/api/auth/trakt/start/route.ts:6-7 | Base64 turns n bytes into ceil(4n/3) six-bit values. |
| TraktStart.ReplaceAll | src/app/api/auth/trakt/start/route.ts:8-9 | A global one-character replace changes exactly the occurrences of that character. |
| TraktStart.StripTrailing | src/app/api/auth/trakt/start/route.ts:10 | `/=+$/` removal yields a prefix that does not end in '='. Everything removed was '='. |
| TraktStart.StripPadding | src/app/api/auth/trakt/start/route.ts:10 | Removing trailing '=' from a text followed by padding gives the text back. |
| TraktStart.B64UrlIsUnpadded | src/app/api/auth/trakt/start/route.ts:5-11 | `b64URL` equals base64url without padding, written directly in the alphabet of section 5 of RFC 4648. |
| TraktStart.B64UrlShape | src/app/api/auth/trakt/start/route.ts:5-11 | The output has ceil(4n/3) characters, all from the alphabet of section 5 of RFC 4648, so it contains no '+', '/' or '='. |
| TraktStart.B64UrlRoundTrip | src/app/api/auth/trakt/start/route.ts:5-11 | Decoding the `b64URL` output of any bytes gives the bytes back. |
| TraktStart.VerifierShape | src/app/api/auth/trakt/start/route.ts:15 | The verifier from 32 random bytes is 43 unreserved characters. That is within the 43–128 range of section 4.1 of RFC 7636. |
| TraktStart.Utf8Bytes | src/app/api/auth/trakt/start/route.ts:18 | An ASCII text encodes to one byte per character, each equal to its code. |
| TraktStart.Params | src/app/api/auth/trakt/start/route.ts:24-30 | The five parameters come in the listed order. The challenge method is S256, the response type is "code", and an unset variable is the text "undefined". |
| TraktStart.FormEncodeUrlChars | src/app/api/auth/trakt/start/route.ts:24-33 | Form encoding leaves base64url text unchanged, so the challenge reaches the URL as it is. |
| TraktStart.Start | src/app/api/auth/trakt/start/route.ts:13-34 | The session gets the verifier made from the random bytes and the current time, and keeps its Trakt and Real-Debrid tokens. The parameters are exactly `Params` of the client id, the verifier's S256 challenge and the redirect URI: `client_id`, `code_challenge`, `code_challenge_method=S256`, `redirect_uri` and `response_type=code`. The URL is the authorize base followed by those five serialized parameters. |
| TraktStart.StartPairsVerifierAndChallenge | src/app/api/auth/trakt/start/route.ts:13-34 | The session holds a 43-character verifier that decodes to the 32 random bytes. The URL's `code_challenge` decodes to the SHA-256 of that verifier (section 4.2 of RFC 7636). |
| TraktStart.StartTouchesOnlyItsSession | src/app/api/auth/trakt/start/route.ts:22 | Starting the flow leaves every other session as it was. |
| SessionStore.KeyInjective | src/app/lib/sessionStore.ts:20-35 | Different session ids never share a store key. |
| SessionStore.GetSession | src/app/lib/sessionStore.ts:22-24 | A read gives the stored session, or nothing when the key is absent. |
| SessionStore.SetSession | src/app/lib/sessionStore.ts:25-39 | A write stores the session under its key and leaves every other key as it was. |
| SessionStore.DelSession | src/app/lib/sessionStore.ts:19-21 | A delete removes exactly the session's key. |
| SessionStore.GetAbsent | src/app/lib/sessionStore.ts:22-24 | An absent session reads as null. |
| SessionStore.SetThenGet | src/app/lib/sessionStore.ts:30-36 | After `set`, each field the patch carries has its new value. Every other field keeps its stored value, or is absent for a new session. `updated_at` is the time of the write even when the patch carried one. |
| SessionStore.DelThenGet | src/app/lib/sessionStore.ts:19-24 | After `del`, the session reads as null. |
| SessionStore.SessionsIsolated | src/app/lib/sessionStore.ts:19-39 | Writing or deleting one session never changes how another reads. |
| SessionStore.SetIdempotent | src/app/lib/sessionStore.ts:25-39 | Repeating a write at the same time changes nothing further. |
| ChannelGuide.Up | src/app/epg/components/ChannelGuide.tsx:59-63 | ArrowUp goes one channel back, from the first channel to the last. |
| ChannelGuide.Down | src/app/epg/components/ChannelGuide.tsx:65-69 | ArrowDown is undefined (NaN) exactly when there are no channels. |
| ChannelGuide.DownWraps | src/app/epg/components/ChannelGuide.tsx:65-69 | From a valid index, ArrowDown goes to the next channel, from the last channel to the first. |
| ChannelGuide.MovesStayInRange | src/app/epg/components/ChannelGuide.tsx:59-69 | Both moves keep a valid index valid. |
| ChannelGuide.UpDownInverse | src/app/epg/components/ChannelGuide.tsx:59-69 | Up then Down, and Down then Up, return to the same channel. |
| ChannelGuide.DownTimesIsModular | src/app/epg/components/ChannelGuide.tsx:65-69 | Pressing Down k times lands on channel (i + k) mod n. |
| ChannelGuide.Visible | src/app/epg/components/ChannelGuide.tsx:117-124 | The three rows are the previous channel (with wrap), the current one and the next one (with wrap). |
| ChannelGuide.MovesShiftVisible | src/app/epg/components/ChannelGuide.tsx:117-124 | After Down the rows shift up by one. After Up they shift down by one. |
| ChannelGuide.SingleChannelFillsAllRows | src/app/epg/components/ChannelGuide.tsx:117-124 | With one channel, all three rows show it. |
| ChannelGuide.ScrollTarget | src/app/epg/components/ChannelGuide.tsx:37-51 | A scroll moves a quarter of the width right or left and never goes below 0. |
| ChannelGuide.RightThenLeft | src/app/epg/components/ChannelGuide.tsx:43-50 | Scrolling right then left returns to the start. |
| ChannelGuide.LeftClampsAtEdge | src/app/epg/components/ChannelGuide.tsx:43-50 | A left scroll that would pass the edge stops at 0, so right does not undo it. |
| ChannelGuide.ScrollRows | src/app/epg/components/ChannelGuide.tsx:40-53 | Every mounted row scrolls to its own target. Unmounted rows stay unmounted. |
| ChannelGuide.HandleKey | src/app/epg/components/ChannelGuide.tsx:57-82 | Up and Down change only the index. Left and Right change only the scroll offsets. Other keys change nothing. Only Down with no channels fails. |
| ChannelGuide.KeysKeepIndexInRange | src/app/epg/components/ChannelGuide.tsx:57-82 | Any sequence of keys keeps a valid channel index valid. |
| TimeMarkers.FloorToMinute | src/app/epg/components/TimeMarkers.tsx:5-7 | The floor is a multiple of 60000 and lies in (t − 60000, t]. |
| TimeMarkers.FloorIsUniqueBoundary | src/app/epg/components/TimeMarkers.tsx:5-7 | The floor is the only minute boundary in that window, so flooring twice changes nothing. |
| TimeMarkers.MsUntilNextMinute | src/app/epg/components/TimeMarkers.tsx:39 | After the epoch the delay is in [1, 60000] ms. Before it, JavaScript's `%` makes it [60000, 120000). |
| TimeMarkers.NextMinuteBoundary | src/app/epg/components/TimeMarkers.tsx:37-45 | The first sync lands on a minute boundary: the next one after the epoch, and one later before the epoch. |
| TimeMarkers.MinuteOfHour | src/app/epg/components/TimeMarkers.tsx:62 | The local minute of the hour is in [0, 60). |
| TimeMarkers.MinutesToNext30 | src/app/epg/components/TimeMarkers.tsx:63 | The gap to the next :00 or :30 is in [1, 30], and minute plus gap is 30 or 60. |
| TimeMarkers.Markers | src/app/epg/components/TimeMarkers.tsx:60-100 | There are exactly index + 4 markers, strictly increasing: now, the next half hour, then every half hour after it. |
| TimeMarkers.MarkersOnHalfHours | src/app/epg/components/TimeMarkers.tsx:63-97 | Every marker after the first falls on :00 or :30 of local time. |
| TimeMarkers.Window | src/app/epg/components/TimeMarkers.tsx:105-106 | The visible slice is four markers starting at the index. |
| TimeMarkers.VisibleMarkers | src/app/epg/components/TimeMarkers.tsx:60-110 | The window always has four markers with distinct, increasing keys. After the first marker they are 30 minutes apart. |
| TimeMarkers.MoveIndex | src/app/epg/components/TimeMarkers.tsx:17-28 | Left steps back but not below 0. Right steps forward. Other keys change nothing. |
| TimeMarkers.IndexNeverNegative | src/app/epg/components/TimeMarkers.tsx:19-24 | No sequence of keys makes the index negative. |
| TimeMarkers.LeftRightInverse | src/app/epg/components/TimeMarkers.tsx:19-24 | Right then Left is the identity. Left then Right is also the identity, except at index 0. |

## Left out

- **Network calls.** TMDB, Prowlarr, StremThru, Real-Debrid and Trakt are not called. Their answers, as the code sees them, are inputs.
- **Redis.** It is modelled as a map.
- **Local storage.** The stored token is an input.
- **Concurrency in the in-flight map.** Two overlapping requests sharing one promise, and `reused.clone()`, are not modelled. The model is sequential. Only the map discipline is modelled: what stays in the map after a request.
- **Clock, timers and deadlines.**
  - A poll loop is the sequence of answers received before the deadline.
  - `pollMS` and `timeoutMS` matter only through the length of that sequence.
  - The clock readings of `rateLimitGate` are inputs.
  - The gate's separate `sleep`, and the gate call inside the retry loop, are not modelled. `GateExits` covers any sequence of gate passes.
- **Randomness.** The jitter, the season and episode draws and `crypto.getRandomValues` are inputs.
- **SHA-256.** It is a function parameter.
- **Server-side ids.** The session id from the cookie and the environment variables are inputs.
- **Thrown add calls.** A throw of the `addMagnet` fetch, or of reading its text, is modelled as an answer that ends the retry loop and throws the run. Which of the two threw is not distinguished.
- **Response bodies other than status.** Error texts and `details`, the bodies of stage failures (`step`, `body`, `id`) and the thrown error's message are not modelled. Only the status, the failing stage and the success fields are.
- **The `selectFiles` request body.** The `files` field (the picked id) is not modelled. Only the provider's status answer is.
- **`Retry-After` values that are not numbers.** `Number(ra)` giving NaN is not modelled: `RetryAfterMs` takes a whole number of seconds.
- **Explicit JSON `null`.** A JSON `null` for `disallowExts` or `excludeSamples` is treated like an absent field. A destructuring default applies only to `undefined`. Non-boolean `excludeSamples` values are not modelled.
- **`extOf` case folding.** `toLowerCase` is modelled for ASCII letters only. Non-ASCII extensions are not lower-cased.
- **Show metadata.**
  - In `fetchEpisodeTMDB`, only the season and episode choice is modelled.
  - The episode-by-number fetch, `fetchShowTMDB`, `fetchEpisodeMeta` and the show and episode branches of `ensureProgramMeta` are not modelled. They are fetch-and-cache code of the same shape as the movie branch. The movie branch is modelled by `EnsureMovieMeta` and composed with the lookup and the pipeline by `FetchMovieLink`.
  - A missing `air_date`, or one that does not parse, is an absent date, which is never "released". A JSON `null` one is the date 0, because `new Date(null)` is the epoch, so it counts as released.
- **Preloading.** `preloadVisibleChannels` is a React effect with async interleaving, and is not modelled.
- **Spread of an explicit `undefined`.** In `set`, a patch key explicitly set to `undefined` would overwrite a stored field. The model treats it like an absent key.
- **Session store clock and TTL.** `set` uses one clock reading where the code reads `Date.now()` twice. The Redis TTL is not modelled.
- **Channel guide details.**
  - With no channels, ArrowDown's NaN index is `None`, and ArrowUp gives −1 as in the code.
  - Scroll offsets and widths are exact reals. Smooth scrolling, container measurement and the rendering of rows are not modelled.
- **Time markers.**
  - The local time-zone offset is a constant parameter. A daylight-saving change inside the window is not modelled.
  - The `toLocaleTimeString` labels are not modelled, and neither is the repeating one-minute interval after the first sync.
- **`encodeURIComponent` decoding.** `DecodeAscii`, the partner used to read back `encodeURIComponent`, covers only single-byte escapes. A lone surrogate, for which `encodeURIComponent` throws, is not modelled.
- **The base64url decoder.** `DecodeUrl` is a partner of the encoder, not part of the program. It accepts non-zero leftover bits.
- StremThruRoute.HashSurvivesMagnet: stated only for non-empty alphanumeric hashes, which `trim` leaves unchanged. Hashes with surrounding spaces or other characters are not covered.
- StremThruRoute.Post: a `hashes` value that is not an array is not modelled.
- EpgContext.FetchMovieTmdb: a falsy id is modelled as 0. A NaN id is not modelled.
- EpgContext.FetchProgramLink: starts at the metadata lookup. The `await ensureProgramMeta(program)` before it (EPGContext.tsx:424) is composed in only for movies, by `FetchMovieLink`. For episodes and shows the metadata fetch is not modelled. Because the lookup reads the render snapshot, that fetch never changes the link of the same call.
- EpgContext.ShortCircuit: "no call" means no pipeline call. A movie without metadata still gets the TMDB fetch of `ensureProgramMeta`, which `FetchMovieLink` states.
- EpgContext.FetchProgramLink: a thrown or rejected step is folded into "no link, caches unchanged". `LinkEnv` has no thrown variant. The steps that can throw are a failed `fetch` at EPGContext.tsx:451/466/502, a body that is not JSON at 454/473/517, a search result that is not an array at 457-461, and a stored `rd_auth` that is not JSON at 351. In the code these reject the promise, and do not return `null`. There are two callers. VideoPane.tsx:71 maps a rejection to `null` with `.catch(() => null)`, so the player sees the same outcome. The preload loop at EPGContext.tsx:636 calls it with no `.catch`, so a rejection there is not handled. The preload loop itself is not modelled. No cache write happens before any of these throws.
- EpgContext.SecondCallShortCircuits: stated only for a movie, or for a program whose `episodeTMDB` is not 0. For an episode or show whose `episodeTMDB` is 0, the lookup finds the record under key 0, but the `if (key)` at EPGContext.tsx:537 skips the write. The next call then runs the pipeline again.
- EpgContext.NextCallAfter: the same condition as `SecondCallShortCircuits`, for the same reason.

## Findings

| source | as written | input that shows it | evidently intended | confidence | as-written member | corrected member |
|---|---|---|---|---|---|---|
| src/app/api/rd/magnetToLink/route.ts:227-233 | `inflight.delete(key)` runs only when the promise resolves. When the pipeline throws, control jumps to the `catch` and the rejected promise stays in the map under the info hash. | A first request whose torrent-info poll gets a non-2xx (so `fetchInfo` throws), then a second request for the same magnet while the provider works. The second request awaits the stale rejected promise and answers 500 without reaching the provider, as does every later request for that hash. | Delete the key in a `finally`, so a failed run does not block later requests for the same hash. | high; not executed | MagnetToLink.StaleKeyExample | MagnetToLink.PostFixedRetriesAfterFailure |

=== FILE: channel_guide.dfy ===
/** The channel guide's keyboard handling: ArrowUp and ArrowDown move the
    current channel cyclically, ArrowLeft and ArrowRight scroll the three
    visible rows by a quarter of the container width, never past the left
    edge. Scroll positions are reals; the browser's smooth scrolling is not
    modelled. */
module ChannelGuide {
  import opened Wrappers
  import opened Text

  /** ArrowUp: one channel up, wrapping from the first to the last. */
  function Up(prev: int, n: int): (r: int)
    ensures prev - 1 >= 0 ==> r == prev - 1
    ensures prev - 1 < 0 ==> r == n - 1
  {
    if prev - 1 < 0 then n - 1 else prev - 1
  }

  /** ArrowDown: `(prev + 1) % n` with JavaScript's remainder; with no
      channels the remainder is NaN, here `None`. */
  function Down(prev: int, n: int): (r: Option<int>)
    ensures r.None? <==> n == 0
  {
    if n == 0 then None else Some(JsRem(prev + 1, n))
  }

  predicate InRange(i: int, n: int) {
    0 <= i < n
  }

  /** From a valid index, Down moves to the next channel and wraps from the
      last to the first. */
  lemma DownWraps(i: int, n: int)
    requires InRange(i, n)
    ensures Down(i, n) == Some(if i == n - 1 then 0 else i + 1)
  {
    if i + 1 < n {
      ModUnique(i + 1, 0, i + 1, n);
    } else {
      ModUnique(n, 1, 0, n);
    }
  }

  /** Both moves keep a valid index valid. */
  lemma MovesStayInRange(i: int, n: int)
    requires InRange(i, n)
    ensures InRange(Up(i, n), n)
    ensures Down(i, n).Some? && InRange(Down(i, n).value, n)
  {
    DownWraps(i, n);
  }

  /** Down then Up, and Up then Down, come back to the same channel. */
  lemma UpDownInverse(i: int, n: int)
    requires InRange(i, n)
    ensures Up(Down(i, n).value, n) == i
    ensures Down(Up(i, n), n) == Some(i)
  {
    DownWraps(i, n);
    DownWraps(Up(i, n), n);
  }

  /** Down applied `k` times. */
  function DownTimes(i: int, n: int, k: nat): int
    requires InRange(i, n)
    decreases k
  {
    if k == 0 then i else DownTimes(Down(i, n).value, n, k - 1)
  }

  /** Pressing Down `k` times lands on channel `(i + k) mod n`: a full round
      of `n` presses returns to the start. */
  lemma {:induction false} DownTimesIsModular(i: int, n: int, k: nat)
    requires InRange(i, n)
    ensures InRange(DownTimes(i, n, k), n)
    ensures DownTimes(i, n, k) == (i + k) % n
    decreases k
  {
    if k > 0 {
      var j := Down(i, n).value;
      assert j == (i + 1) % n;
      DownTimesIsModular(j, n, k - 1);
      ModAddOne(i, k - 1, n);
    }
  }

  lemma ModAddOne(i: int, k: nat, n: int)
    requires 0 <= i < n
    ensures ((i + 1) % n + k) % n == (i + 1 + k) % n
  {
    if i + 1 == n {
      ModUnique(n + k, k / n + 1, k % n, n);
    }
  }

  /** The three rows on screen: the previous channel, the current one and the
      next, cyclically. */
  function Visible<T>(channels: seq<T>, i: int): (r: seq<T>)
    requires InRange(i, |channels|)
    ensures |r| == 3
    ensures r[1] == channels[i]
    ensures r[0] == channels[if i == 0 then |channels| - 1 else i - 1]
    ensures r[2] == channels[if i == |channels| - 1 then 0 else i + 1]
  {
    DownWraps(i, |channels|);
    [channels[Up(i, |channels|)], channels[i], channels[Down(i, |channels|).value]]
  }

  /** After Down the rows shift up by one: the old current row is now on top
      and the old next row is now current; Up is the mirror image. */
  lemma MovesShiftVisible<T>(channels: seq<T>, i: int)
    requires InRange(i, |channels|)
    ensures var d := Down(i, |channels|).value;
      InRange(d, |channels|)
      && Visible(channels, d)[0] == Visible(channels, i)[1]
      && Visible(channels, d)[1] == Visible(channels, i)[2]
    ensures var u := Up(i, |channels|);
      InRange(u, |channels|)
      && Visible(channels, u)[2] == Visible(channels, i)[1]
      && Visible(channels, u)[1] == Visible(channels, i)[0]
  {
    var n := |channels|;
    DownWraps(i, n);
    var d := Down(i, n).value;
    var u := Up(i, n);
    assert u == if i == 0 then n - 1 else i - 1;
  }

  /** With a single channel all three rows show it. */
  lemma SingleChannelFillsAllRows<T>(channels: seq<T>)
    requires |channels| == 1
    ensures Visible(channels, 0) == [channels[0], channels[0], channels[0]]
  {
  }

  // ===========================================================================
  // Horizontal scrolling
  // ===========================================================================

  datatype Direction = ScrollLeft | ScrollRight

  /** The new left offset of one row: a quarter of the container width to the
      left or right, and never below zero. */
  function ScrollTarget(current: real, width: real, dir: Direction): (r: real)
    ensures r >= 0.0
    ensures dir == ScrollRight && current + width / 4.0 >= 0.0 ==> r == current + width / 4.0
    ensures dir == ScrollLeft && current - width / 4.0 >= 0.0 ==> r == current - width / 4.0
    ensures dir == ScrollLeft && current - width / 4.0 < 0.0 ==> r == 0.0
  {
    var amount := width / 4.0;
    var target := if dir == ScrollRight then current + amount else current - amount;
    if target >= 0.0 then target else 0.0
  }

  /** Scrolling right then left from a valid offset returns to it. */
  lemma RightThenLeft(current: real, width: real)
    requires current >= 0.0 && width >= 0.0
    ensures ScrollTarget(ScrollTarget(current, width, ScrollRight), width, ScrollLeft) == current
  {
  }

  /** Scrolling left from closer than a quarter width to the edge stops at
      the edge, so a following right scroll does not return to the start. */
  lemma LeftClampsAtEdge(current: real, width: real)
    requires 0.0 <= current < width / 4.0
    ensures ScrollTarget(current, width, ScrollLeft) == 0.0
    ensures ScrollTarget(ScrollTarget(current, width, ScrollLeft), width, ScrollRight) != current
  {
  }

  /** Scrolls every mounted row (`None` is an unmounted ref) by the same
      amount. */
  function ScrollRows(rows: seq<Option<real>>, width: real, dir: Direction): (r: seq<Option<real>>)
    ensures |r| == |rows|
    ensures forall k :: 0 <= k < |rows| ==> (r[k].Some? <==> rows[k].Some?)
    ensures forall k :: 0 <= k < |rows| && rows[k].Some? ==>
      r[k].value == ScrollTarget(rows[k].value, width, dir)
  {
    seq(|rows|, k requires 0 <= k < |rows| =>
      if rows[k].Some? then Some(ScrollTarget(rows[k].value, width, dir)) else None)
  }

  // ===========================================================================
  // The key handler
  // ===========================================================================

  datatype Key = ArrowUp | ArrowDown | ArrowLeft | ArrowRight | OtherKey

  datatype Guide = Guide(index: int, rows: seq<Option<real>>)

  /** `handleKeyDown`: Up and Down move the channel (an index that becomes
      NaN with no channels is `None`), Left and Right scroll, other keys do
      nothing. */
  function HandleKey(g: Guide, key: Key, n: int, width: real): (r: Option<Guide>)
    ensures key == OtherKey ==> r == Some(g)
    ensures key == ArrowLeft || key == ArrowRight ==>
      r.Some? && r.value.index == g.index && |r.value.rows| == |g.rows|
    ensures key == ArrowUp || key == ArrowDown ==>
      (r.Some? ==> r.value.rows == g.rows)
    ensures r.None? <==> key == ArrowDown && n == 0
  {
    match key
    case ArrowUp => Some(g.(index := Up(g.index, n)))
    case ArrowDown =>
      var d :- Down(g.index, n);
      Some(g.(index := d))
    case ArrowLeft => Some(g.(rows := ScrollRows(g.rows, width, ScrollLeft)))
    case ArrowRight => Some(g.(rows := ScrollRows(g.rows, width, ScrollRight)))
    case OtherKey => Some(g)
  }

  /** Any sequence of keys keeps a valid channel index valid. */
  function HandleKeys(g: Guide, keys: seq<Key>, n: int, width: real): Option<Guide>
    decreases |keys|
  {
    if |keys| == 0 then Some(g)
    else
      var g' :- HandleKey(g, keys[0], n, width);
      HandleKeys(g', keys[1..], n, width)
  }

  lemma {:induction false} KeysKeepIndexInRange(g: Guide, keys: seq<Key>, n: int, width: real)
    requires InRange(g.index, n)
    ensures HandleKeys(g, keys, n, width).Some?
    ensures InRange(HandleKeys(g, keys, n, width).value.index, n)
    decreases |keys|
  {
    if |keys| > 0 {
      MovesStayInRange(g.index, n);
      var g' := HandleKey(g, keys[0], n, width).value;
      KeysKeepIndexInRange(g', keys[1..], n, width);
    }
  }
}

=== FILE: epg_context.dfy ===
/** The guide's client-side program-to-link pipeline: metadata lookup by the
    right key, the search query, the seeder-ordered hash list, the "cached"
    availability filter, the pick of the item with the largest qualifying
    video file, and persisting the link into a copy-on-write metadata map.
    Also the show path's season/episode choice and the movie metadata fetch
    with its cache-hit and "FAILED" sentinel behaviour.

    Network answers, the local access token, the clock and the random picks
    are inputs; the calls the pipeline would make are returned as a trace. */
module EpgContext {
  import opened Wrappers
  import opened Text
  import opened Seqs
  import MagnetToLink

  // ===========================================================================
  // Programs, metadata and the caches
  // ===========================================================================

  /** `kind` as the guide uses it: "movie", "episode", or "tv" for a show. */
  datatype Kind = Movie | Episode | Show

  /** A program as the guide reads it; `episodeTmdb` is absent for a show
      whose episode has not been chosen yet. */
  datatype Program = Program(kind: Kind, title: string, tmdb: int, episodeTmdb: Option<int>)

  /** A cached metadata record: the fields of a movie record and of an
      episode record, each possibly absent, plus the resolved `link`. */
  datatype Meta = Meta(
    genres: Option<seq<string>>,
    overview: Option<string>,
    releaseDate: Option<string>,
    runtime: Option<int>,
    episodeTitle: Option<string>,
    season: Option<int>,
    episodeNumber: Option<int>,
    link: Option<string>)

  const EmptyMeta := Meta(None, None, None, None, None, None, None, None)

  /** The movie metadata map (keyed by the movie's TMDB id) and the episode
      metadata map (keyed by the episode's TMDB id). */
  datatype Caches = Caches(movieMeta: map<int, Meta>, episodeMeta: map<int, Meta>)

  predicate Truthy(s: Option<string>) {
    s.Some? && s.value != ""
  }

  /** `getProgramMeta`: movies by `tmdb`, episodes and shows by
      `episodeTMDB`. */
  function GetProgramMeta(c: Caches, p: Program): (r: Option<Meta>)
    ensures p.kind == Movie ==> (r.Some? <==> p.tmdb in c.movieMeta)
    ensures p.kind == Movie && r.Some? ==> r.value == c.movieMeta[p.tmdb]
    ensures p.kind != Movie ==> (r.Some? <==> p.episodeTmdb.Some? && p.episodeTmdb.value in c.episodeMeta)
    ensures p.kind != Movie && r.Some? ==> r.value == c.episodeMeta[p.episodeTmdb.value]
  {
    match p.kind
    case Movie => Get(c.movieMeta, p.tmdb)
    case _ => if p.episodeTmdb.Some? then Get(c.episodeMeta, p.episodeTmdb.value) else None
  }

  /** `{...(old ?? {}), link}`. */
  function WithLink(prev: Option<Meta>, link: string): Meta {
    prev.GetOr(EmptyMeta).(link := Some(link))
  }

  /** The program carries a truthy `episodeTMDB`. */
  predicate HasEpisodeKey(p: Program) {
    p.episodeTmdb.Some? && p.episodeTmdb.value != 0
  }

  /** Step 4 of `fetchProgramLink`: write the link into the map the program's
      metadata lives in. A non-movie whose `episodeTMDB` is falsy (absent or
      0) changes nothing. */
  function Persist(c: Caches, p: Program, link: string): (r: Caches)
    ensures p.kind == Movie ==> r.episodeMeta == c.episodeMeta && r.movieMeta.Keys == c.movieMeta.Keys + {p.tmdb}
    ensures p.kind != Movie ==> r.movieMeta == c.movieMeta
    ensures p.kind != Movie && !HasEpisodeKey(p) ==> r == c
    ensures p.kind != Movie && HasEpisodeKey(p) ==> r.episodeMeta.Keys == c.episodeMeta.Keys + {p.episodeTmdb.value}
  {
    if p.kind == Movie then
      c.(movieMeta := c.movieMeta[p.tmdb := WithLink(Get(c.movieMeta, p.tmdb), link)])
    else if HasEpisodeKey(p) then
      var key := p.episodeTmdb.value;
      c.(episodeMeta := c.episodeMeta[key := WithLink(Get(c.episodeMeta, key), link)])
    else c
  }

  /** After persisting, the program's record carries the link and every other
      field it had; a program with no record gets one holding only the link.
      Records under other keys do not change. A non-movie without a truthy
      `episodeTMDB` leaves both maps as they were. */
  lemma PersistKeepsFields(c: Caches, p: Program, link: string)
    ensures p.kind != Movie && !HasEpisodeKey(p) ==> Persist(c, p, link) == c
    ensures p.kind == Movie || HasEpisodeKey(p) ==>
      var m := GetProgramMeta(Persist(c, p, link), p);
      && m.Some? && m.value.link == Some(link)
      && (GetProgramMeta(c, p).Some? ==> m.value == GetProgramMeta(c, p).value.(link := Some(link)))
      && (GetProgramMeta(c, p).None? ==> m.value == EmptyMeta.(link := Some(link)))
    ensures p.kind == Movie ==>
      && Persist(c, p, link).episodeMeta == c.episodeMeta
      && forall k :: k != p.tmdb && k in c.movieMeta ==>
           (k in Persist(c, p, link).movieMeta && Persist(c, p, link).movieMeta[k] == c.movieMeta[k])
    ensures p.kind != Movie && HasEpisodeKey(p) ==>
      && Persist(c, p, link).movieMeta == c.movieMeta
      && forall k :: k != p.episodeTmdb.value && k in c.episodeMeta ==>
           (k in Persist(c, p, link).episodeMeta && Persist(c, p, link).episodeMeta[k] == c.episodeMeta[k])
  {
  }

  // ===========================================================================
  // The search query
  // ===========================================================================

  /** `releaseDate?.split("-")[0] ?? ""`. */
  function YearPart(releaseDate: Option<string>): string {
    match releaseDate
    case None => ""
    case Some(d) => Split(d, '-')[0]
  }

  /** `String(n)`, where an absent number prints as "undefined". */
  function NumberText(n: Option<int>): string {
    match n
    case None => "undefined"
    case Some(v) => IntToString(v)
  }

  /** The movie query: `"${title} ${year}".trim()`. */
  function MovieQuery(title: string, releaseDate: Option<string>): string {
    Trim(title + " " + YearPart(releaseDate))
  }

  /** The episode and show query: `"${title} S${ss}E${ee}"` with both numbers
      padded to two characters. */
  function EpisodeQuery(title: string, season: Option<int>, episode: Option<int>): string {
    title + " S" + PadStart2(NumberText(season)) + "E" + PadStart2(NumberText(episode))
  }

  function BuildQuery(p: Program, meta: Meta): string {
    if p.kind == Movie then MovieQuery(p.title, meta.releaseDate)
    else EpisodeQuery(p.title, meta.season, meta.episodeNumber)
  }

  /** The year part of a release date is the text before its first '-'
      (all of it when there is none), and empty when the date is absent. */
  lemma YearPartOfDate(year: string, rest: string)
    requires '-' !in year
    ensures YearPart(Some(year + "-" + rest)) == year
    ensures YearPart(Some(year)) == year
    ensures YearPart(None) == ""
  {
    var d := year + "-" + rest;
    assert d[|year|] == '-';
    assert d[..|year|] == year;
    assert IndexOf(d, '-') == |year|;
    SplitHead(d, '-');
    SplitHead(year, '-');
  }

  /** A movie without a release date is searched by its trimmed title; one
      whose date starts with a '-'-free year and a '-' is searched by the
      trimmed "title year". */
  lemma MovieQueryYear(title: string, year: string, rest: string)
    requires '-' !in year
    ensures MovieQuery(title, None) == Trim(title)
    ensures MovieQuery(title, Some(year + "-" + rest)) == Trim(title + " " + year)
  {
    YearPartOfDate(year, rest);
    assert title + " " + "" == title + " ";
    TrimTrailingSpace(title);
  }

  /** `Trim(title + " ")` is `Trim(title)`: the extra space is trimmed away. */
  lemma TrimTrailingSpace(title: string)
    ensures Trim(title + " ") == Trim(title)
  {
    var s := title + " ";
    assert TrimEnd(s) == TrimEnd(title) by {
      assert s[..|s| - 1] == title;
    }
    TrimStartAppendSpace(title);
    TrimEndAfterStart(title);
  }

  lemma {:induction false} TrimStartAppendSpace(t: string)
    ensures TrimStart(t + " ") == (if TrimStart(t) == "" then "" else TrimStart(t) + " ")
    decreases |t|
  {
    if |t| == 0 {
      assert TrimStart(" ") == TrimStart(" "[1..]);
    } else if IsSpace(t[0]) {
      assert (t + " ")[1..] == t[1..] + " ";
      TrimStartAppendSpace(t[1..]);
    }
  }

  lemma TrimEndAfterStart(t: string)
    ensures TrimEnd(if TrimStart(t) == "" then "" else TrimStart(t) + " ") == TrimEnd(TrimStart(t))
  {
    var a := TrimStart(t);
    if a != "" {
      assert (a + " ")[..|a + " "| - 1] == a;
    }
  }

  /** For a title without surrounding white space and a date whose year part
      is non-empty and ends in a non-space, the query is exactly the title, a
      space and the year (so "Dune" released "2021-10-22" is searched as
      "Dune 2021"). */
  lemma MovieQueryExact(title: string, year: string, rest: string)
    requires |title| > 0 && !IsSpace(title[0]) && !IsSpace(title[|title| - 1])
    requires |year| > 0 && '-' !in year && !IsSpace(year[|year| - 1])
    ensures MovieQuery(title, Some(year + "-" + rest)) == title + " " + year
  {
    MovieQueryYear(title, year, rest);
    var t := title + " " + year;
    assert t[0] == title[0] && t[|t| - 1] == year[|year| - 1];
    TrimOfTrimmed(t);
  }

  /** Season and episode numbers below 10 get one leading zero, those from 10
      to 99 print as they are in two characters, and those of 100 and more are
      not padded or cut. */
  lemma EpisodeNumberPadding(v: nat)
    ensures v < 10 ==> PadStart2(NumberText(Some(v))) == "0" + NatToString(v)
    ensures v >= 10 ==> PadStart2(NumberText(Some(v))) == NatToString(v)
    ensures v < 100 ==> |PadStart2(NumberText(Some(v)))| == 2
    ensures v >= 100 ==> |PadStart2(NumberText(Some(v)))| >= 3
  {
    NatToStringLength(v);
    if v < 10 {
      assert seq(1, _ => '0') == "0";
    }
  }

  /** Season 2, episode 5 of "The Wire" is searched as "The Wire S02E05". */
  lemma WireQuery()
    ensures EpisodeQuery("The Wire", Some(2), Some(5)) == "The Wire S02E05"
  {
    EpisodeNumberPadding(2);
    EpisodeNumberPadding(5);
    assert NatToString(2) == "2" && NatToString(5) == "5";
  }

  // ===========================================================================
  // The hash list
  // ===========================================================================

  datatype SearchResult = SearchResult(infoHash: Option<string>, seeders: int)

  /** `x.infoHash` is truthy. */
  predicate HasHash(r: SearchResult) {
    Truthy(r.infoHash)
  }

  /** `String(x.infoHash).trim()`: the key a result is listed under. */
  function HashKey(r: SearchResult): string {
    Trim(r.infoHash.GetOr(""))
  }

  /** The result has a truthy hash whose key is `h`. */
  predicate Carries(r: SearchResult, key: SearchResult -> string, h: string) {
    HasHash(r) && key(r) == h
  }

  predicate SortedBySeeders(xs: seq<SearchResult>) {
    forall i, j :: 0 <= i < j < |xs| ==> xs[i].seeders >= xs[j].seeders
  }

  /** Places `x` after every element with at least as many seeders, which
      keeps equal elements in arrival order. */
  function Insert(x: SearchResult, sorted: seq<SearchResult>): (r: seq<SearchResult>)
    requires SortedBySeeders(sorted)
    ensures SortedBySeeders(r)
    ensures multiset(r) == multiset(sorted) + multiset{x}
    ensures r[0] == x || r[0] == sorted[0]
  {
    if |sorted| == 0 then [x]
    else if sorted[0].seeders >= x.seeders then
      var rest := Insert(x, sorted[1..]);
      assert sorted == [sorted[0]] + sorted[1..];
      SortedCons(sorted[0], rest);
      [sorted[0]] + rest
    else
      SortedCons(x, sorted);
      [x] + sorted
  }

  lemma SortedCons(a: SearchResult, rest: seq<SearchResult>)
    requires SortedBySeeders(rest)
    requires |rest| == 0 || rest[0].seeders <= a.seeders
    ensures SortedBySeeders([a] + rest)
  {
    var s := [a] + rest;
    forall i, j | 0 <= i < j < |s| ensures s[i].seeders >= s[j].seeders {
      if i > 0 {
        assert s[i] == rest[i - 1] && s[j] == rest[j - 1];
      } else {
        assert s[j] == rest[j - 1];
        assert rest[0].seeders >= rest[j - 1].seeders;
      }
    }
  }

  /** `xs.sort((a, b) => b.seeders - a.seeders)`, a stable sort: a
      permutation of `xs` in non-increasing seeder order. */
  function SortBySeeders(xs: seq<SearchResult>): (r: seq<SearchResult>)
    ensures SortedBySeeders(r)
    ensures multiset(r) == multiset(xs)
  {
    if |xs| == 0 then []
    else
      assert xs == xs[..|xs| - 1] + [xs[|xs| - 1]];
      Insert(xs[|xs| - 1], SortBySeeders(xs[..|xs| - 1]))
  }

  /** `.map(key)`. */
  function KeysOf(xs: seq<SearchResult>, key: SearchResult -> string): (r: seq<string>)
    ensures |r| == |xs|
    ensures forall k :: 0 <= k < |xs| ==> r[k] == key(xs[k])
  {
    if |xs| == 0 then [] else [key(xs[0])] + KeysOf(xs[1..], key)
  }

  predicate NoDuplicates(xs: seq<string>) {
    forall i, j :: 0 <= i < j < |xs| ==> xs[i] != xs[j]
  }

  /** Index of the first occurrence of `x` in `xs`. */
  function FirstIndex(xs: seq<string>, x: string): (k: nat)
    requires x in xs
    ensures k < |xs| && xs[k] == x && x !in xs[..k]
  {
    if xs[0] == x then 0
    else
      var k := 1 + FirstIndex(xs[1..], x);
      assert xs[..k] == [xs[0]] + xs[1..][..k - 1];
      k
  }

  /** `Array.from(new Set(xs))`. */
  function Dedup(xs: seq<string>): seq<string> {
    if |xs| == 0 then []
    else
      var d := Dedup(xs[..|xs| - 1]);
      if xs[|xs| - 1] in d then d else d + [xs[|xs| - 1]]
  }

  /** `Dedup` keeps the distinct elements, once each, in order of first
      occurrence. */
  lemma {:induction false} DedupSpec(xs: seq<string>)
    ensures NoDuplicates(Dedup(xs))
    ensures forall x :: x in Dedup(xs) <==> x in xs
    ensures forall i, j :: 0 <= i < j < |Dedup(xs)| ==> FirstIndex(xs, Dedup(xs)[i]) < FirstIndex(xs, Dedup(xs)[j])
  {
    if |xs| > 0 {
      var init := xs[..|xs| - 1];
      var x := xs[|xs| - 1];
      DedupSpec(init);
      assert xs == init + [x];
      forall y | y in init ensures FirstIndex(xs, y) == FirstIndex(init, y) {
        FirstIndexPrefix(init, [x], y);
      }
      if x !in Dedup(init) {
        assert x !in init;
        assert FirstIndex(xs, x) == |xs| - 1;
      }
    }
  }

  lemma {:induction false} FirstIndexPrefix(xs: seq<string>, ys: seq<string>, y: string)
    requires y in xs
    ensures FirstIndex(xs + ys, y) == FirstIndex(xs, y)
  {
    var k := FirstIndex(xs, y);
    var s := xs + ys;
    assert s[k] == y;
    assert s[..k] == xs[..k];
    var j := FirstIndex(s, y);
    assert s[..j] == xs[..j] by {
      if j <= k {
        assert s[..j] == s[..k][..j];
      }
    }
  }

  /** Truthy-hash results, ordered by seeders (stable), mapped to their
      key, deduplicated with the first occurrence winning. The lemmas below
      hold for any key; the guide uses `HashKey`. */
  function HashListBy(results: seq<SearchResult>, key: SearchResult -> string): seq<string> {
    Dedup(KeysOf(SortBySeeders(Filter(results, HasHash)), key))
  }

  /** The hash list sent to the availability check. */
  function HashList(results: seq<SearchResult>): seq<string> {
    HashListBy(results, HashKey)
  }

  /** The largest seeder count among results carrying hash `h`, or nothing
      when none does; a definition independent of the sort. */
  function TopSeeders(rs: seq<SearchResult>, key: SearchResult -> string, h: string): Option<int> {
    if |rs| == 0 then None
    else
      var t := TopSeeders(rs[..|rs| - 1], key, h);
      var x := rs[|rs| - 1];
      if Carries(x, key, h) then Some(if t.Some? then Max(t.value, x.seeders) else x.seeders)
      else t
  }

  /** `TopSeeders` is the maximum: absent exactly when no result carries the
      hash, otherwise an upper bound reached by some result carrying it. */
  lemma {:induction false} TopSeedersIsMax(rs: seq<SearchResult>, key: SearchResult -> string, h: string)
    ensures TopSeeders(rs, key, h).None? <==> forall k :: 0 <= k < |rs| ==> !Carries(rs[k], key, h)
    ensures TopSeeders(rs, key, h).Some? ==>
      forall k :: 0 <= k < |rs| && Carries(rs[k], key, h) ==> rs[k].seeders <= TopSeeders(rs, key, h).value
    ensures TopSeeders(rs, key, h).Some? ==>
      exists k :: 0 <= k < |rs| && Carries(rs[k], key, h) && rs[k].seeders == TopSeeders(rs, key, h).value
  {
    if |rs| > 0 {
      var init := rs[..|rs| - 1];
      var x := rs[|rs| - 1];
      TopSeedersIsMax(init, key, h);
      assert forall k :: 0 <= k < |init| ==> init[k] == rs[k];
      var t := TopSeeders(init, key, h);
      var r := TopSeeders(rs, key, h);
      if r.Some? {
        if Carries(x, key, h) && (t.None? || x.seeders >= t.value) {
          assert rs[|rs| - 1].seeders == r.value;
        } else {
          var k :| 0 <= k < |init| && Carries(init[k], key, h) && init[k].seeders == t.value;
          assert rs[k].seeders == r.value;
        }
      }
    }
  }

  /** The list holds exactly the keys of the truthy-hash results, each once. */
  lemma HashListByContents(results: seq<SearchResult>, key: SearchResult -> string)
    ensures NoDuplicates(HashListBy(results, key))
    ensures forall h :: h in HashListBy(results, key) <==>
      exists k :: 0 <= k < |results| && Carries(results[k], key, h)
  {
    var f := Filter(results, HasHash);
    var s := SortBySeeders(f);
    var t := KeysOf(s, key);
    DedupSpec(t);
    forall h | h in HashListBy(results, key)
      ensures exists k :: 0 <= k < |results| && Carries(results[k], key, h)
    {
      var i :| 0 <= i < |t| && t[i] == h;
      assert s[i] in multiset(f);
      assert s[i] in f;
      var k :| 0 <= k < |results| && results[k] == s[i];
      assert Carries(results[k], key, h);
    }
    forall h | exists k :: 0 <= k < |results| && Carries(results[k], key, h)
      ensures h in HashListBy(results, key)
    {
      var k :| 0 <= k < |results| && Carries(results[k], key, h);
      assert results[k] in f;
      assert results[k] in multiset(s);
      var i :| 0 <= i < |s| && s[i] == results[k];
      assert t[i] == h;
    }
  }

  /** Sorting keeps exactly the same elements. */
  lemma SortedMembers(xs: seq<SearchResult>)
    ensures forall x :: x in SortBySeeders(xs) <==> x in xs
  {
    var s := SortBySeeders(xs);
    forall x ensures x in s <==> x in xs {
      assert x in s <==> x in multiset(s);
      assert x in xs <==> x in multiset(xs);
    }
  }

  /** In a seeder-sorted sequence holding exactly the truthy-hash results,
      the first result keyed `h` has the top seeder count for `h`. */
  lemma TopAtFirstOccurrence(results: seq<SearchResult>, s: seq<SearchResult>, key: SearchResult -> string,
                             h: string, p: nat)
    requires forall x :: x in s <==> x in results && HasHash(x)
    requires SortedBySeeders(s)
    requires p < |s| && key(s[p]) == h
    requires forall q :: 0 <= q < p ==> key(s[q]) != h
    ensures TopSeeders(results, key, h) == Some(s[p].seeders)
  {
    TopSeedersIsMax(results, key, h);
    var top := TopSeeders(results, key, h);
    assert s[p] in results;
    var kp :| 0 <= kp < |results| && results[kp] == s[p];
    assert Carries(results[kp], key, h);
    var k :| 0 <= k < |results| && Carries(results[k], key, h) && results[k].seeders == top.value;
    assert results[k] in s;
    var q :| 0 <= q < |s| && s[q] == results[k];
    assert q >= p;
  }

  /** For a listed hash, the result at its first occurrence in the sorted
      sequence holds the top seeder count for that hash. */
  lemma FirstOccurrenceIsTop(results: seq<SearchResult>, key: SearchResult -> string, h: string)
    requires h in KeysOf(SortBySeeders(Filter(results, HasHash)), key)
    ensures var s := SortBySeeders(Filter(results, HasHash));
      TopSeeders(results, key, h) == Some(s[FirstIndex(KeysOf(s, key), h)].seeders)
  {
    var f := Filter(results, HasHash);
    var s := SortBySeeders(f);
    var t := KeysOf(s, key);
    var p := FirstIndex(t, h);
    SortedMembers(f);
    assert forall x :: x in s <==> x in results && HasHash(x);
    forall q | 0 <= q < p ensures key(s[q]) != h {
      assert t[..p][q] == t[q];
    }
    TopAtFirstOccurrence(results, s, key, h, p);
  }

  /** Each hash of `hs` has a top seeder count, and the counts do not
      increase along `hs`. */
  predicate SeederOrdered(results: seq<SearchResult>, key: SearchResult -> string, hs: seq<string>) {
    (forall i :: 0 <= i < |hs| ==> TopSeeders(results, key, hs[i]).Some?)
    && forall i, j :: 0 <= i < j < |hs| ==>
         TopSeeders(results, key, hs[i]).value >= TopSeeders(results, key, hs[j]).value
  }

  /** Listed hashes appear in non-increasing order of their top seeder
      count. */
  lemma HashListBySeederOrder(results: seq<SearchResult>, key: SearchResult -> string)
    ensures SeederOrdered(results, key, HashListBy(results, key))
  {
    var t := KeysOf(SortBySeeders(Filter(results, HasHash)), key);
    var out := HashListBy(results, key);
    DedupSpec(t);
    forall i | 0 <= i < |out| ensures TopSeeders(results, key, out[i]).Some? {
      FirstOccurrenceIsTop(results, key, out[i]);
    }
    forall i, j | 0 <= i < j < |out|
      ensures TopSeeders(results, key, out[i]).value >= TopSeeders(results, key, out[j]).value
    {
      FirstOccurrenceIsTop(results, key, out[i]);
      FirstOccurrenceIsTop(results, key, out[j]);
      assert FirstIndex(t, out[i]) < FirstIndex(t, out[j]);
    }
  }

  /** The guide's hash list holds exactly the trimmed truthy hashes of the
      search results, each once. */
  lemma HashListContents(results: seq<SearchResult>)
    ensures NoDuplicates(HashList(results))
    ensures forall h :: h in HashList(results) <==>
      exists k :: 0 <= k < |results| && Carries(results[k], HashKey, h)
  {
    HashListByContents(results, HashKey);
  }

  /** The guide's hash list is ordered by each hash's best seeder count. */
  lemma HashListSeederOrder(results: seq<SearchResult>)
    ensures SeederOrdered(results, HashKey, HashList(results))
  {
    HashListBySeederOrder(results, HashKey);
  }

  // ===========================================================================
  // Availability filter and best pick
  // ===========================================================================

  datatype AvailFile = AvailFile(name: string, size: int)

  datatype AvailItem = AvailItem(status: Option<string>, magnet: Option<string>, files: Option<seq<AvailFile>>)

  predicate IsCached(i: AvailItem) {
    i.status == Some("cached")
  }

  /** Keeps the items whose status is exactly "cached", in order. */
  function CachedOnly(items: seq<AvailItem>): (r: seq<AvailItem>)
    ensures forall k :: 0 <= k < |r| ==> IsCached(r[k]) && r[k] in items
    ensures forall k :: 0 <= k < |items| && IsCached(items[k]) ==> items[k] in r
    ensures |r| == 0 <==> forall k :: 0 <= k < |items| ==> !IsCached(items[k])
  {
    var r := Filter(items, IsCached);
    assert |r| > 0 ==> r[0] in items;
    r
  }

  /** 100 MiB: the size a candidate video file must exceed. */
  const MinCandidateBytes := 100 * 1024 * 1024

  /** `/\.(mkv|mp4|m4v|mov|avi)$/i`. */
  predicate IsCandidateName(n: string) {
    CiEndsWith(n, ".mkv") || CiEndsWith(n, ".mp4") || CiEndsWith(n, ".m4v")
    || CiEndsWith(n, ".mov") || CiEndsWith(n, ".avi")
  }

  predicate Qualifies(f: AvailFile) {
    IsCandidateName(f.name) && f.size > MinCandidateBytes
  }

  /** `best?.size ?? 0` where `best` is the first largest qualifying file. */
  function Score(item: AvailItem): int {
    var q := Filter(item.files.GetOr([]), Qualifies);
    if |q| == 0 then 0 else q[ArgMaxFirst(q, (f: AvailFile) => f.size)].size
  }

  /** An item's score is the size of its largest qualifying file, or 0 when
      no file qualifies (qualifying sizes are positive, so 0 is unambiguous). */
  lemma ScoreIsLargestQualifying(item: AvailItem)
    ensures var files := item.files.GetOr([]);
      && (Score(item) == 0 <==> forall k :: 0 <= k < |files| ==> !Qualifies(files[k]))
      && (Score(item) != 0 ==>
            && Score(item) > MinCandidateBytes
            && (exists k :: 0 <= k < |files| && Qualifies(files[k]) && files[k].size == Score(item))
            && forall k :: 0 <= k < |files| && Qualifies(files[k]) ==> files[k].size <= Score(item))
  {
    var files := item.files.GetOr([]);
    var q := Filter(files, Qualifies);
    if |q| > 0 {
      var best := q[ArgMaxFirst(q, (f: AvailFile) => f.size)];
      assert best in files;
    }
  }

  /** The first item of maximal score: the head of the stable sort by score. */
  function PickBest(items: seq<AvailItem>): (r: Option<AvailItem>)
    ensures r.None? <==> |items| == 0
    ensures r.Some? ==> exists k :: (0 <= k < |items| && items[k] == r.value
      && (forall j :: 0 <= j < |items| ==> Score(items[j]) <= Score(r.value))
      && (forall j :: 0 <= j < k ==> Score(items[j]) < Score(r.value)))
  {
    if |items| == 0 then None else Some(items[ArgMaxFirst(items, Score)])
  }

  /** With no qualifying file anywhere, the first cached item is still
      picked. */
  lemma PickBestWithoutCandidates(items: seq<AvailItem>)
    requires |items| > 0
    requires forall k :: 0 <= k < |items| ==> Score(items[k]) == 0
    ensures PickBest(items) == Some(items[0])
  {
    var r := PickBest(items);
    var k :| 0 <= k < |items| && items[k] == r.value
      && (forall j :: 0 <= j < k ==> Score(items[j]) < Score(r.value));
  }

  // ===========================================================================
  // fetchProgramLink
  // ===========================================================================

  datatype SearchAnswer = SearchFailed | SearchOk(results: seq<SearchResult>)

  /** The availability check: non-2xx, or a body whose `data.items` may be
      missing. */
  datatype CheckAnswer = CheckFailed | CheckOk(items: Option<seq<AvailItem>>)

  /** What the outside world answers during one call. */
  datatype LinkEnv = LinkEnv(
    search: SearchAnswer,
    check: CheckAnswer,
    accessToken: Option<string>,
    rd: MagnetToLink.Reply)

  /** The network calls the pipeline makes, in order. */
  datatype Call = SearchCall(query: string) | CheckCall(hashes: seq<string>) | ResolveCall(magnet: string)

  datatype LinkResult = LinkResult(link: Option<string>, caches: Caches, calls: seq<Call>)

  /** `rd?.download ?? null` for a 2xx magnet-to-link answer. */
  function DownloadOf(r: MagnetToLink.Reply): Option<string> {
    if r.Success? then r.download else None
  }

  /** What each step of the pipeline computes from its inputs: the query,
      the hash list of the search results, the cached items of the check
      answer, and the pick among them. */
  datatype Steps = Steps(query: string, hashes: seq<string>, cached: seq<AvailItem>, pick: Option<AvailItem>)

  function StepsOf(p: Program, meta: Meta, env: LinkEnv): (s: Steps)
    ensures s.pick.None? <==> |s.cached| == 0
  {
    var cached := if env.check.CheckOk? then CachedOnly(env.check.items.GetOr([])) else [];
    Steps(
      BuildQuery(p, meta),
      if env.search.SearchOk? then HashList(env.search.results) else [],
      cached,
      PickBest(cached))
  }

  /** The best cached item is one of the items, is cached, and no cached
      item outscores it; there is one exactly when some item is cached. */
  lemma BestCachedIsBest(items: seq<AvailItem>)
    ensures var pick := PickBest(CachedOnly(items));
      && (pick.Some? <==> exists k :: 0 <= k < |items| && IsCached(items[k]))
      && (pick.Some? ==>
            && pick.value in items && IsCached(pick.value)
            && forall k :: 0 <= k < |items| && IsCached(items[k]) ==> Score(items[k]) <= Score(pick.value))
  {
    var cached := CachedOnly(items);
    var pick := PickBest(cached);
    if pick.Some? {
      var m :| 0 <= m < |cached| && cached[m] == pick.value
        && forall j :: 0 <= j < |cached| ==> Score(cached[j]) <= Score(pick.value);
      forall k | 0 <= k < |items| && IsCached(items[k])
        ensures Score(items[k]) <= Score(pick.value)
      {
        var j :| 0 <= j < |cached| && cached[j] == items[k];
      }
    }
  }

  /** The pipeline's pick is the best cached item of the check answer, and
      there is one exactly when the check succeeded with some cached item. */
  lemma StepsPickIsBestCached(p: Program, meta: Meta, env: LinkEnv)
    ensures var s := StepsOf(p, meta, env);
      var items := if env.check.CheckOk? then env.check.items.GetOr([]) else [];
      && (s.pick.Some? <==> exists k :: 0 <= k < |items| && IsCached(items[k]))
      && (s.pick.Some? ==>
            && s.pick.value in items && IsCached(s.pick.value)
            && forall k :: 0 <= k < |items| && IsCached(items[k]) ==> Score(items[k]) <= Score(s.pick.value))
  {
    var items := if env.check.CheckOk? then env.check.items.GetOr([]) else [];
    assert StepsOf(p, meta, env).pick == PickBest(CachedOnly(items));
    BestCachedIsBest(items);
  }

  /** Every stage after the metadata checks passes: a non-empty query, a
      2xx search with some hash, a 2xx check with some cached item (then
      there is a pick) whose `magnet` is truthy, a truthy access token, and a
      2xx resolve answer with a truthy `download`. */
  predicate StagesOk(s: Steps, env: LinkEnv) {
    && s.query != "" && env.search.SearchOk? && |s.hashes| > 0
    && env.check.CheckOk? && s.pick.Some? && Truthy(s.pick.value.magnet)
    && Truthy(env.accessToken)
    && MagnetToLink.IsOk(env.rd.Status()) && Truthy(DownloadOf(env.rd))
  }

  /** The control flow of `fetchProgramLink` after the metadata checks: stop
      on an empty query, a failed search, an empty hash list, a failed check,
      no cached item, a pick without magnet, a missing access token, a non-2xx
      resolve answer or a falsy `download`; otherwise persist and return the
      link. So a link comes back exactly when every stage passes, and it is
      the resolve answer's `download`, written into the caches. */
  function RunSteps(c: Caches, p: Program, s: Steps, env: LinkEnv): (r: LinkResult)
    requires s.pick.None? <==> |s.cached| == 0
    ensures r.link.Some? <==> StagesOk(s, env)
    ensures StagesOk(s, env) ==>
      && r.link == DownloadOf(env.rd)
      && r.caches == Persist(c, p, r.link.value)
      && r.calls == [SearchCall(s.query), CheckCall(s.hashes), ResolveCall(s.pick.value.magnet.value)]
    ensures r.link.None? ==> r.caches == c
  {
    if s.query == "" then LinkResult(None, c, [])
    else if env.search.SearchFailed? then LinkResult(None, c, [SearchCall(s.query)])
    else if |s.hashes| == 0 then LinkResult(None, c, [SearchCall(s.query)])
    else
      var calls := [SearchCall(s.query), CheckCall(s.hashes)];
      if env.check.CheckFailed? || |s.cached| == 0 then LinkResult(None, c, calls)
      else
        var pick := s.pick.value;
        if !Truthy(pick.magnet) || !Truthy(env.accessToken) then LinkResult(None, c, calls)
        else
          var calls := calls + [ResolveCall(pick.magnet.value)];
          if !MagnetToLink.IsOk(env.rd.Status()) then LinkResult(None, c, calls)
          else
            var link := DownloadOf(env.rd);
            if !Truthy(link) then LinkResult(None, c, calls)
            else LinkResult(link, Persist(c, p, link.value), calls)
  }

  /** `fetchProgramLink` over the caches `c` as the calling render saw them:
      the lookup reads that snapshot, and the link is written into the same
      caches (writes by other calls in between are not modelled). The
      `ensureProgramMeta` call before the lookup is composed in for movies by
      `FetchMovieLink`. Without metadata there is no link; a stored truthy link comes back as is;
      otherwise a link comes back exactly when every stage passes. */
  function FetchProgramLink(c: Caches, p: Program, env: LinkEnv): (r: LinkResult)
    ensures r.link.None? ==> r.caches == c
    ensures GetProgramMeta(c, p).None? ==> r == LinkResult(None, c, [])
    ensures r.link.Some? <==>
      GetProgramMeta(c, p).Some?
      && (Truthy(GetProgramMeta(c, p).value.link) || StagesOk(StepsOf(p, GetProgramMeta(c, p).value, env), env))
    ensures GetProgramMeta(c, p).Some? && !Truthy(GetProgramMeta(c, p).value.link)
            && StagesOk(StepsOf(p, GetProgramMeta(c, p).value, env), env) ==>
      && r.link == DownloadOf(env.rd)
      && r.caches == Persist(c, p, r.link.value)
      && |r.calls| == 3
  {
    match GetProgramMeta(c, p)
    case None => LinkResult(None, c, [])
    case Some(meta) =>
      if Truthy(meta.link) then LinkResult(meta.link, c, [])
      else RunSteps(c, p, StepsOf(p, meta, env), env)
  }

  /** The calls made are a prefix of search, check, resolve; a query that is
      not empty is always searched for; the caches change only when a link is
      found, and a link is found exactly when every stage passes: only from a
      2xx answer's truthy `download`, after all three calls, for the pick
      among a non-empty set of cached items of a successful check of a
      non-empty hash list. */
  lemma RunStepsProvenance(c: Caches, p: Program, s: Steps, env: LinkEnv)
    requires s.pick.None? <==> |s.cached| == 0
    ensures var r := RunSteps(c, p, s, env);
      && (s.query == "" <==> |r.calls| == 0)
      && (|r.calls| >= 1 ==> r.calls[0] == SearchCall(s.query))
      && (|r.calls| >= 2 ==> env.search.SearchOk? && |s.hashes| > 0 && r.calls[1] == CheckCall(s.hashes))
      && (|r.calls| >= 3 ==>
            && env.check.CheckOk? && |s.cached| > 0 && Truthy(env.accessToken)
            && r.calls[2] == ResolveCall(s.pick.value.magnet.value))
      && |r.calls| <= 3
      && (r.link.None? ==> r.caches == c)
      && (r.link.Some? <==> StagesOk(s, env))
      && (r.link.Some? ==>
            && |r.calls| == 3
            && MagnetToLink.IsOk(env.rd.Status()) && r.link == DownloadOf(env.rd) && r.link.value != ""
            && r.caches == Persist(c, p, r.link.value))
  {
  }

  /** Each `return null` of the pipeline happens exactly when its stage is
      the first to fail, and the calls made so far tell the stages apart: no
      call for an empty query; only the search for a failed search or no
      hash; search and check for a failed check, no cached item, a pick
      without magnet or no access token; all three for a non-2xx resolve
      answer or a falsy `download`. */
  lemma RunStepsExits(c: Caches, p: Program, s: Steps, env: LinkEnv)
    requires s.pick.None? <==> |s.cached| == 0
    ensures var r := RunSteps(c, p, s, env);
      && (r.link.None? && |r.calls| == 0 <==> s.query == "")
      && (r.link.None? && |r.calls| == 1 <==>
            s.query != "" && (env.search.SearchFailed? || |s.hashes| == 0))
      && (r.link.None? && |r.calls| == 2 <==>
            && s.query != "" && env.search.SearchOk? && |s.hashes| > 0
            && (env.check.CheckFailed? || |s.cached| == 0 || !Truthy(s.pick.value.magnet) || !Truthy(env.accessToken)))
      && (r.link.None? && |r.calls| == 3 <==>
            && s.query != "" && env.search.SearchOk? && |s.hashes| > 0
            && env.check.CheckOk? && |s.cached| > 0 && Truthy(s.pick.value.magnet) && Truthy(env.accessToken)
            && (!MagnetToLink.IsOk(env.rd.Status()) || !Truthy(DownloadOf(env.rd))))
  {
  }

  /** Absent metadata gives no link; a stored link is returned as is. Either
      way the pipeline makes no call and leaves the snapshot as it was (the
      metadata fetch before the lookup is `FetchMovieLink`'s). */
  lemma ShortCircuit(c: Caches, p: Program, env: LinkEnv)
    ensures GetProgramMeta(c, p).None? ==> FetchProgramLink(c, p, env) == LinkResult(None, c, [])
    ensures GetProgramMeta(c, p).Some? && Truthy(GetProgramMeta(c, p).value.link) ==>
      FetchProgramLink(c, p, env) == LinkResult(GetProgramMeta(c, p).value.link, c, [])
  {
  }

  /** A link is either the stored one, returned with no call, or a fresh one
      that follows the provenance above for the program's query; and when the
      program has metadata without a stored link and every stage passes, the
      fresh link is the resolve answer's `download`, persisted. */
  lemma LinkProvenance(c: Caches, p: Program, env: LinkEnv)
    ensures var r := FetchProgramLink(c, p, env);
      && (r.link.None? ==> r.caches == c)
      && (r.link.Some? && |r.calls| == 0 ==> r.caches == c && r.link == GetProgramMeta(c, p).value.link)
      && (|r.calls| > 0 ==>
            && GetProgramMeta(c, p).Some? && !Truthy(GetProgramMeta(c, p).value.link)
            && r == RunSteps(c, p, StepsOf(p, GetProgramMeta(c, p).value, env), env))
      && (r.link.Some? && |r.calls| > 0 ==>
            && |r.calls| == 3
            && MagnetToLink.IsOk(env.rd.Status()) && r.link == DownloadOf(env.rd) && r.link.value != ""
            && r.caches == Persist(c, p, r.link.value))
      && (GetProgramMeta(c, p).Some? && !Truthy(GetProgramMeta(c, p).value.link)
          && StagesOk(StepsOf(p, GetProgramMeta(c, p).value, env), env) ==>
            && r.link == DownloadOf(env.rd) && |r.calls| == 3
            && r.caches == Persist(c, p, r.link.value))
  {
    match GetProgramMeta(c, p)
    case None =>
    case Some(meta) =>
      if !Truthy(meta.link) {
        RunStepsProvenance(c, p, StepsOf(p, meta, env), env);
      }
  }

  /** Once a link is persisted for a program, the next call returns it with
      no network call and no cache change. */
  lemma LinkAfterPersist(c: Caches, p: Program, link: string, env: LinkEnv)
    requires p.kind == Movie || (p.episodeTmdb.Some? && p.episodeTmdb.value != 0)
    requires link != ""
    ensures FetchProgramLink(Persist(c, p, link), p, env) == LinkResult(Some(link), Persist(c, p, link), [])
  {
    PersistKeepsFields(c, p, link);
    ShortCircuit(Persist(c, p, link), p, env);
  }

  /** Whatever the first call returned with a link, the caches it left make
      the next call return that link with no network call. */
  lemma NextCallAfter(c: Caches, p: Program, first: LinkResult, env2: LinkEnv)
    requires p.kind == Movie || p.episodeTmdb != Some(0)
    requires first.link.Some?
    requires
      || (first.caches == c && GetProgramMeta(c, p).Some? && first.link == GetProgramMeta(c, p).value.link
          && Truthy(first.link))
      || (first.link.value != "" && first.caches == Persist(c, p, first.link.value)
          && GetProgramMeta(c, p).Some?)
    ensures FetchProgramLink(first.caches, p, env2) == LinkResult(first.link, first.caches, [])
  {
    if first.caches == c && GetProgramMeta(c, p).Some? && first.link == GetProgramMeta(c, p).value.link
      && Truthy(first.link) {
      ShortCircuit(c, p, env2);
    } else {
      LinkAfterPersist(c, p, first.link.value, env2);
    }
  }

  /** Idempotence: once a call has returned a link, the next call returns the
      same link with no network call and no cache change. (A non-movie whose
      `episodeTMDB` is 0 is found by the lookup but skipped by the write.) */
  lemma SecondCallShortCircuits(c: Caches, p: Program, env: LinkEnv, env2: LinkEnv)
    requires p.kind == Movie || p.episodeTmdb != Some(0)
    ensures var first := FetchProgramLink(c, p, env);
      first.link.Some? ==> FetchProgramLink(first.caches, p, env2) == LinkResult(first.link, first.caches, [])
  {
    if FetchProgramLink(c, p, env).link.Some? {
      LinkProvenance(c, p, env);
      NextCallAfter(c, p, FetchProgramLink(c, p, env), env2);
    }
  }

  // ===========================================================================
  // Movie metadata: fetchMovieTMDB and the movie branch of ensureProgramMeta
  // ===========================================================================

  /** The TMDB movie record fields the guide reads. `genres` is `None` when
      the body has no such field or a JSON `null` there. */
  datatype MovieData = MovieData(
    genres: Option<seq<string>>,
    overview: Option<string>,
    releaseDate: Option<string>,
    firstAirDate: Option<string>,
    runtime: Option<int>)

  /** An entry of the movie TMDB cache: the record or the "FAILED" sentinel. */
  datatype TmdbEntry = Data(data: MovieData) | FailedSentinel

  /** The `/api/tmdb` answer: 2xx with a record, non-2xx, or a thrown error
      (network failure or a body that is not JSON). */
  datatype TmdbAnswer = TmdbOk(data: MovieData) | TmdbNotOk | TmdbThrew

  /** What `fetchMovieTMDB` returns, the cache after it, and whether it
      fetched. */
  datatype MovieFetch = MovieFetch(result: Option<MovieData>, cache: map<int, TmdbEntry>, fetched: bool)

  /** `fetchMovieTMDB`. A falsy id or any cache entry (even real data)
      returns nothing without fetching; a non-2xx stores the sentinel. */
  function FetchMovieTmdb(cache: map<int, TmdbEntry>, tmdb: int, answer: TmdbAnswer): (r: MovieFetch)
    ensures tmdb in cache || tmdb == 0 ==> r == MovieFetch(None, cache, false)
    ensures tmdb !in cache && tmdb != 0 ==> r.fetched
    ensures r.result.Some? <==> tmdb !in cache && tmdb != 0 && answer.TmdbOk?
    ensures r.result.Some? ==> r.cache == cache[tmdb := Data(r.result.value)] && r.result.value == answer.data
    ensures tmdb !in cache && tmdb != 0 && answer.TmdbNotOk? ==> r.cache == cache[tmdb := FailedSentinel]
    ensures answer.TmdbThrew? ==> r.cache == cache
  {
    if tmdb == 0 || tmdb in cache then MovieFetch(None, cache, false)
    else
      match answer
      case TmdbOk(d) => MovieFetch(Some(d), cache[tmdb := Data(d)], true)
      case TmdbNotOk => MovieFetch(None, cache[tmdb := FailedSentinel], true)
      case TmdbThrew => MovieFetch(None, cache, true)
  }

  /** The record `fetchMovieMeta` builds; the release date falls back to the
      first air date when empty or absent. A record without genres makes
      `tmdbData.genres.map` throw instead, which `Builds` tells apart. */
  function MovieMetaOf(d: MovieData): (m: Meta)
    requires d.genres.Some?
    ensures m.link.None? && m.genres == d.genres
    ensures Truthy(d.releaseDate) ==> m.releaseDate == d.releaseDate
    ensures !Truthy(d.releaseDate) ==> m.releaseDate == d.firstAirDate
  {
    Meta(d.genres, d.overview, if Truthy(d.releaseDate) then d.releaseDate else d.firstAirDate,
         d.runtime, None, None, None, None)
  }

  /** The movie branch of `ensureProgramMeta` asks TMDB: the movie has no
      metadata, a truthy id, and no entry (record or sentinel) in the TMDB
      cache. */
  predicate Fetches(tmdbCache: map<int, TmdbEntry>, c: Caches, p: Program) {
    p.tmdb !in c.movieMeta && p.tmdb != 0 && p.tmdb !in tmdbCache
  }

  /** A TMDB answer `fetchMovieMeta` turns into metadata: a 2xx record with
      genres. A 2xx record without them is cached by `fetchMovieTMDB`, but
      `fetchMovieMeta` throws on it and `ensureProgramMeta` swallows the
      error. */
  predicate Builds(answer: TmdbAnswer) {
    answer.TmdbOk? && answer.data.genres.Some?
  }

  datatype Ensured = Ensured(tmdbCache: map<int, TmdbEntry>, caches: Caches)

  /** The movie branch of `ensureProgramMeta`: fetch and cache the metadata
      when the movie has none. */
  function EnsureMovieMeta(tmdbCache: map<int, TmdbEntry>, c: Caches, p: Program, answer: TmdbAnswer): (r: Ensured)
    requires p.kind == Movie
    ensures p.tmdb in c.movieMeta ==> r == Ensured(tmdbCache, c)
    ensures r.caches.episodeMeta == c.episodeMeta
    ensures Fetches(tmdbCache, c, p) && answer.TmdbOk? ==> r.tmdbCache == tmdbCache[p.tmdb := Data(answer.data)]
    ensures Fetches(tmdbCache, c, p) && Builds(answer) ==>
      r.caches.movieMeta == c.movieMeta[p.tmdb := MovieMetaOf(answer.data)]
    ensures !(Fetches(tmdbCache, c, p) && Builds(answer)) ==> r.caches == c
    ensures Fetches(tmdbCache, c, p) && answer.TmdbNotOk? ==> r.tmdbCache == tmdbCache[p.tmdb := FailedSentinel]
    ensures !Fetches(tmdbCache, c, p) || answer.TmdbThrew? ==> r.tmdbCache == tmdbCache
  {
    if p.tmdb in c.movieMeta then Ensured(tmdbCache, c)
    else
      var f := FetchMovieTmdb(tmdbCache, p.tmdb, answer);
      match f.result
      case Some(d) =>
        if d.genres.Some? then Ensured(f.cache, c.(movieMeta := c.movieMeta[p.tmdb := MovieMetaOf(d)]))
        else Ensured(f.cache, c)
      case None => Ensured(f.cache, c)
  }

  /** What `fetchProgramLink` of a movie leaves: the link, the TMDB cache and
      the metadata caches after both its `ensureProgramMeta` call and its
      pipeline, the pipeline calls made, and whether TMDB was asked. */
  datatype MovieLink = MovieLink(
    link: Option<string>,
    tmdbCache: map<int, TmdbEntry>,
    caches: Caches,
    calls: seq<Call>,
    askedTmdb: bool)

  /** `fetchProgramLink` of a movie, its `ensureProgramMeta` call included.
      The metadata fetch runs first, but the lookup after it reads the render
      snapshot `c`: metadata fetched by this call is seen only by a later
      one. So a link needs metadata already in the snapshot, the TMDB answer
      never changes this call's link, and a movie with metadata is not
      looked up on TMDB again. */
  function FetchMovieLink(tmdbCache: map<int, TmdbEntry>, c: Caches, p: Program, answer: TmdbAnswer, env: LinkEnv): (r: MovieLink)
    requires p.kind == Movie
    ensures r.link.Some? ==> p.tmdb in c.movieMeta
    ensures r.link == FetchProgramLink(c, p, env).link && r.calls == FetchProgramLink(c, p, env).calls
    ensures r.askedTmdb <==> Fetches(tmdbCache, c, p)
    ensures p.tmdb in c.movieMeta ==> r.tmdbCache == tmdbCache && r.caches == FetchProgramLink(c, p, env).caches
    ensures p.tmdb !in c.movieMeta ==> r.link.None? && r.calls == [] && r.caches.episodeMeta == c.episodeMeta
    ensures r.askedTmdb && answer.TmdbOk? ==> r.tmdbCache == tmdbCache[p.tmdb := Data(answer.data)]
    ensures r.askedTmdb && Builds(answer) ==> r.caches.movieMeta == c.movieMeta[p.tmdb := MovieMetaOf(answer.data)]
    ensures r.askedTmdb && !Builds(answer) ==> r.caches == c
    ensures r.askedTmdb && answer.TmdbNotOk? ==> r.tmdbCache == tmdbCache[p.tmdb := FailedSentinel]
    ensures p.tmdb !in c.movieMeta && !r.askedTmdb ==> r.caches == c && r.tmdbCache == tmdbCache
  {
    if p.tmdb in c.movieMeta then
      var l := FetchProgramLink(c, p, env);
      MovieLink(l.link, tmdbCache, l.caches, l.calls, false)
    else
      var e := EnsureMovieMeta(tmdbCache, c, p, answer);
      MovieLink(None, e.tmdbCache, e.caches, [], FetchMovieTmdb(tmdbCache, p.tmdb, answer).fetched)
  }

  /** A movie first met without metadata gets its link on the second call:
      the first call fetches the record and returns nothing, and the second,
      seeing the record, asks TMDB nothing more and runs the pipeline, whose
      passing stages give the resolve answer's `download`. A record without
      genres is cached but gives no metadata, so the second call, and every
      later one, returns nothing without asking TMDB. */
  lemma MovieLinkOnSecondCall(tmdbCache: map<int, TmdbEntry>, c: Caches, p: Program, d: MovieData,
                              env: LinkEnv, answer2: TmdbAnswer, env2: LinkEnv)
    requires p.kind == Movie && Fetches(tmdbCache, c, p)
    ensures var first := FetchMovieLink(tmdbCache, c, p, TmdbOk(d), env);
      && first.link.None? && first.calls == [] && first.askedTmdb
      && var second := FetchMovieLink(first.tmdbCache, first.caches, p, answer2, env2);
      && !second.askedTmdb
      && (d.genres.Some? ==>
            && (second.link.Some? <==> StagesOk(StepsOf(p, MovieMetaOf(d), env2), env2))
            && (StagesOk(StepsOf(p, MovieMetaOf(d), env2), env2) ==> second.link == DownloadOf(env2.rd)))
      && (d.genres.None? ==> second == MovieLink(None, first.tmdbCache, first.caches, [], false))
  {
  }

  /** A movie whose metadata fetch failed once stays without metadata, and so
      without a link, whatever the server answers later: the sentinel makes
      every later fetch a cache hit that returns nothing. */
  lemma FailedMovieStaysUnresolved(tmdbCache: map<int, TmdbEntry>, c: Caches, p: Program, answer: TmdbAnswer, env: LinkEnv)
    requires p.kind == Movie && p.tmdb != 0
    requires p.tmdb !in c.movieMeta && p.tmdb !in tmdbCache
    ensures var first := EnsureMovieMeta(tmdbCache, c, p, TmdbNotOk);
      && first.tmdbCache[p.tmdb] == FailedSentinel
      && var again := EnsureMovieMeta(first.tmdbCache, first.caches, p, answer);
      && again == first
      && FetchProgramLink(again.caches, p, env) == LinkResult(None, again.caches, [])
      && var later := FetchMovieLink(first.tmdbCache, first.caches, p, answer, env);
      && later.link.None? && !later.askedTmdb && later.tmdbCache == first.tmdbCache
  {
  }

  /** A movie fetched successfully, with genres, gets a record without a
      link, so the next `fetchProgramLink` searches for it. */
  lemma FetchedMovieIsSearched(tmdbCache: map<int, TmdbEntry>, c: Caches, p: Program, d: MovieData, env: LinkEnv)
    requires p.kind == Movie && p.tmdb != 0
    requires p.tmdb !in c.movieMeta && p.tmdb !in tmdbCache
    ensures var e := EnsureMovieMeta(tmdbCache, c, p, TmdbOk(d));
      d.genres.Some? ==>
      && GetProgramMeta(e.caches, p) == Some(MovieMetaOf(d))
      && var q := MovieQuery(p.title, MovieMetaOf(d).releaseDate);
      && var calls := FetchProgramLink(e.caches, p, env).calls;
      && (q != "" ==> |calls| >= 1 && calls[0] == SearchCall(q))
  {
    if d.genres.None? {
      return;
    }
    var e := EnsureMovieMeta(tmdbCache, c, p, TmdbOk(d));
    assert GetProgramMeta(e.caches, p) == Some(MovieMetaOf(d));
    var s := StepsOf(p, MovieMetaOf(d), env);
    assert FetchProgramLink(e.caches, p, env) == RunSteps(e.caches, p, s, env);
    RunStepsProvenance(e.caches, p, s, env);
  }

  // ===========================================================================
  // The show path of fetchEpisodeTMDB: season and episode choice
  // ===========================================================================

  /** `seasons.filter(s => s.season_number > 0)`. */
  function PositiveSeasons(seasons: seq<int>): seq<int> {
    Filter(seasons, (n: int) => n > 0)
  }

  /** `seasons[Math.floor(Math.random() * seasons.length)]?.season_number || 1`
      with the random index as the input `pick`. */
  function ChooseSeason(seasons: seq<int>, pick: nat): (s: int)
    requires |PositiveSeasons(seasons)| == 0 || pick < |PositiveSeasons(seasons)|
    ensures s > 0
    ensures |PositiveSeasons(seasons)| == 0 ==> s == 1
    ensures |PositiveSeasons(seasons)| > 0 ==> s in seasons
  {
    var pos := PositiveSeasons(seasons);
    if |pos| == 0 then 1 else pos[pick]
  }

  /** Every season numbered above 0 can be chosen. */
  lemma EverySeasonReachable(seasons: seq<int>, s: int)
    requires s in seasons && s > 0
    ensures exists pick: nat :: pick < |PositiveSeasons(seasons)| && ChooseSeason(seasons, pick) == s
  {
    var pos := PositiveSeasons(seasons);
    var k :| 0 <= k < |seasons| && seasons[k] == s;
    assert s in pos;
    var i :| 0 <= i < |pos| && pos[i] == s;
    assert ChooseSeason(seasons, i) == s;
  }

  /** An episode of a season listing; `airDate` is absent when the date is
      missing or does not parse (an invalid date compares false with now). A
      JSON `null` date is `Some(0)`: `new Date(null)` is the epoch. */
  datatype EpisodeEntry = EpisodeEntry(id: int, episodeNumber: int, airDate: Option<int>)

  predicate IsReleased(e: EpisodeEntry, now: int) {
    e.airDate.Some? && e.airDate.value <= now
  }

  function ReleasedEpisodes(episodes: seq<EpisodeEntry>, now: int): seq<EpisodeEntry> {
    Filter(episodes, (e: EpisodeEntry) => IsReleased(e, now))
  }

  /** A random released episode, else the season's first; nothing for a
      season without episodes. */
  function ChooseEpisode(episodes: seq<EpisodeEntry>, now: int, pick: nat): (r: Option<EpisodeEntry>)
    requires |ReleasedEpisodes(episodes, now)| == 0 || pick < |ReleasedEpisodes(episodes, now)|
    ensures r.None? <==> |episodes| == 0
    ensures r.Some? && (exists k :: 0 <= k < |episodes| && IsReleased(episodes[k], now)) ==>
      r.value in episodes && IsReleased(r.value, now)
    ensures r.Some? && (forall k :: 0 <= k < |episodes| ==> !IsReleased(episodes[k], now)) ==>
      r.value == episodes[0]
  {
    if |episodes| == 0 then None
    else
      var released := ReleasedEpisodes(episodes, now);
      if |released| > 0 then Some(released[pick]) else Some(episodes[0])
  }

  /** Every released episode can be chosen. */
  lemma EveryReleasedEpisodeReachable(episodes: seq<EpisodeEntry>, now: int, e: EpisodeEntry)
    requires e in episodes && IsReleased(e, now)
    ensures exists pick: nat :: pick < |ReleasedEpisodes(episodes, now)| && ChooseEpisode(episodes, now, pick) == Some(e)
  {
    var released := ReleasedEpisodes(episodes, now);
    var k :| 0 <= k < |episodes| && episodes[k] == e;
    assert e in released;
    var i :| 0 <= i < |released| && released[i] == e;
    assert ChooseEpisode(episodes, now, i) == Some(e);
  }
}

=== FILE: magnet_to_link.dfy ===
/** The server route that turns a magnet URI into a direct download URL on
    the debrid provider: a pure file selector, magnet hash extraction, a
    minimum-gap rate gate, a bounded 429 retry loop with capped exponential
    backoff, the staged pipeline (add magnet, poll for files, select files,
    poll for links, unrestrict), and the in-flight map that coalesces calls
    per info hash.

    Every answer of the provider, every clock-driven loop exit and every
    random jitter is an input: a sequence of responses the model consumes in
    order. */
module MagnetToLink {
  import opened Wrappers
  import opened Text
  import opened Seqs

  // ===========================================================================
  // File selection
  // ===========================================================================

  datatype RdFile = RdFile(id: int, bytes: int, path: string)

  /** `VIDEO_RE`: the path ends with one of the six video extensions, ignoring
      ASCII case. Matroska is not among them. */
  predicate IsVideoPath(p: string) {
    CiEndsWith(p, ".mp4") || CiEndsWith(p, ".m4v") || CiEndsWith(p, ".mov")
    || CiEndsWith(p, ".webm") || CiEndsWith(p, ".avi") || CiEndsWith(p, ".ts")
  }

  /** `BAD_NAME_RE`: the path mentions a sample, trailer or extra(s). */
  predicate IsSampleName(p: string) {
    CiContains(p, "sample") || CiContains(p, "trailer") || CiContains(p, "extra")
  }

  /** `extOf`: the lower-cased text after the last '.', or "" when there is no
      '.'. */
  function ExtOf(path: string): (r: string)
    ensures '.' !in path ==> r == ""
    ensures '.' in path ==> ('.' !in r && |r| < |path| && path[|path| - |r| - 1] == '.'
                             && r == Lower(path[|path| - |r|..]))
  {
    var i := LastIndexOf(path, '.');
    if i == -1 then "" else Lower(path[i + 1..])
  }

  /** The options of `pickByExt` after defaults: an absent allow list and an
      empty one behave alike, so both are the empty sequence here. */
  datatype PickOptions = PickOptions(allowedExts: seq<string>, disallowExts: seq<string>, excludeSamples: bool)

  const DefaultDisallow: seq<string> := ["mkv"]

  function LowerSet(xs: seq<string>): set<string> {
    set e | e in xs :: Lower(e)
  }

  /** The extension rule of `pickByExt`: a non-empty allow list wins and the
      deny list is then ignored. */
  predicate ExtensionAllowed(path: string, opts: PickOptions) {
    if |opts.allowedExts| > 0 then ExtOf(path) in LowerSet(opts.allowedExts)
    else if |opts.disallowExts| > 0 then ExtOf(path) !in LowerSet(opts.disallowExts)
    else true
  }

  /** A file passes the video filter, the sample filter (when samples are
      excluded) and the extension rule. */
  predicate Survives(f: RdFile, opts: PickOptions) {
    IsVideoPath(f.path) && (opts.excludeSamples ==> !IsSampleName(f.path)) && ExtensionAllowed(f.path, opts)
  }

  /** The surviving files in input order. The source filters in three passes;
      each pass keeps order, so one pass with the conjunction keeps the same
      files in the same order. */
  function Survivors(files: seq<RdFile>, opts: PickOptions): seq<RdFile> {
    Filter(files, SurvivesUnder(opts))
  }

  function SurvivesUnder(opts: PickOptions): RdFile -> bool {
    (f: RdFile) => Survives(f, opts)
  }

  function Bytes(f: RdFile): int {
    f.bytes
  }

  /** `pickByExt`: the first surviving file of maximal size, or nothing exactly
      when no file survives. */
  function PickByExt(files: seq<RdFile>, opts: PickOptions): (r: Option<RdFile>)
    ensures r.None? <==> forall k :: 0 <= k < |files| ==> !Survives(files[k], opts)
    ensures r.Some? ==> r.value in files && Survives(r.value, opts)
    ensures r.Some? ==> forall k :: 0 <= k < |files| && Survives(files[k], opts) ==> files[k].bytes <= r.value.bytes
    ensures r.Some? ==> IsFirstMax(Survivors(files, opts), Bytes, r.value)
  {
    FirstMax(files, SurvivesUnder(opts), Bytes)
  }

  predicate IsLowerAlnumOrEmpty(e: string) {
    forall k :: 0 <= k < |e| ==> ('a' <= e[k] <= 'z') || ('0' <= e[k] <= '9')
  }

  /** A path ending, in any ASCII case, with '.' and a lower-case alphanumeric
      extension has exactly that extension. */
  lemma {:induction false} ExtOfCiSuffix(p: string, e: string)
    requires IsLowerAlnumOrEmpty(e)
    requires CiEndsWith(p, "." + e)
    ensures ExtOf(p) == e
  {
    var d := "." + e;
    var i := |p| - |d|;
    assert CiEq(p[i], d[0]);
    assert p[i] == '.';
    var t := p[i + 1..];
    assert |t| == |e|;
    forall k | 0 <= k < |t|
      ensures t[k] != '.' && AsciiLower(t[k]) == e[k]
    {
      assert t[k] == p[i + 1 + k];
      assert CiEq(p[i + 1 + k], d[k + 1]);
      assert d[k + 1] == e[k];
    }
    assert '.' !in t;
    assert LastIndexOf(p, '.') == i;
    assert Lower(t) == e;
  }


  /** The extension of any path accepted by `VIDEO_RE` is one of the six
      lower-case video extensions. */
  lemma VideoPathExtension(p: string)
    requires IsVideoPath(p)
    ensures ExtOf(p) in {"mp4", "m4v", "mov", "webm", "avi", "ts"}
  {
    if CiEndsWith(p, ".mp4") {
      assert "." + "mp4" == ".mp4";
      ExtOfCiSuffix(p, "mp4");
    }
    else if CiEndsWith(p, ".m4v") {
      assert "." + "m4v" == ".m4v";
      ExtOfCiSuffix(p, "m4v");
    }
    else if CiEndsWith(p, ".mov") {
      assert "." + "mov" == ".mov";
      ExtOfCiSuffix(p, "mov");
    }
    else if CiEndsWith(p, ".webm") {
      assert "." + "webm" == ".webm";
      ExtOfCiSuffix(p, "webm");
    }
    else if CiEndsWith(p, ".avi") {
      assert "." + "avi" == ".avi";
      ExtOfCiSuffix(p, "avi");
    }
    else {
      assert "." + "ts" == ".ts";
      ExtOfCiSuffix(p, "ts");
    }
  }

  /** No path accepted by `VIDEO_RE` is a Matroska file. */
  lemma VideoPathIsNotMkv(p: string)
    requires IsVideoPath(p)
    ensures ExtOf(p) != "mkv" && !CiEndsWith(p, ".mkv")
  {
    VideoPathExtension(p);
    NotMkvExtension(ExtOf(p));
    if CiEndsWith(p, ".mkv") {
      MkvSuffixExtension(p);
    }
  }

  lemma NotMkvExtension(x: string)
    requires x in {"mp4", "m4v", "mov", "webm", "avi", "ts"}
    ensures x != "mkv"
  {
    assert "mkv"[1] == 'k';
    assert "mp4"[1] != 'k' && "m4v"[1] != 'k' && "mov"[1] != 'k';
    assert "webm"[1] != 'k' && "avi"[1] != 'k' && "ts"[1] != 'k';
  }

  lemma MkvSuffixExtension(p: string)
    requires CiEndsWith(p, ".mkv")
    ensures ExtOf(p) == "mkv"
  {
    assert "." + "mkv" == ".mkv";
    ExtOfCiSuffix(p, "mkv");
  }

  /** Whatever the options, a Matroska file is never picked: even
      `allowedExts: ["mkv"]` leaves no `.mkv` survivor, because `VIDEO_RE`
      has no `mkv`. */
  lemma MkvNeverPicked(files: seq<RdFile>, opts: PickOptions)
    ensures PickByExt(files, opts).Some? ==>
      ExtOf(PickByExt(files, opts).value.path) != "mkv" && !CiEndsWith(PickByExt(files, opts).value.path, ".mkv")
  {
    var r := PickByExt(files, opts);
    if r.Some? {
      VideoPathIsNotMkv(r.value.path);
    }
  }

  // ===========================================================================
  // Magnet hash extraction
  // ===========================================================================

  const XtPrefix := "xt=urn:btih:"
  const BtihPrefix := "btih:"

  /** `/prefix([A-Za-z0-9]+)/i` matches at index `i` of `s`. */
  predicate MatchAt(s: string, i: int, prefix: string) {
    CiAt(s, i, prefix) && i + |prefix| < |s| && IsAsciiAlnum(s[i + |prefix|])
  }

  predicate HasMatch(s: string, prefix: string) {
    exists i :: 0 <= i < |s| && MatchAt(s, i, prefix)
  }

  /** `i` is the leftmost match, the one a regular expression search finds. */
  predicate LeftmostMatch(s: string, i: int, prefix: string) {
    MatchAt(s, i, prefix) && forall j :: 0 <= j < i ==> !MatchAt(s, j, prefix)
  }

  /** The greedy `[A-Za-z0-9]+` run starting at `j`: its length. */
  function AlnumRun(s: string, j: nat): (n: nat)
    requires j <= |s|
    ensures j + n <= |s|
    ensures forall k :: j <= k < j + n ==> IsAsciiAlnum(s[k])
    ensures j + n == |s| || !IsAsciiAlnum(s[j + n])
    decreases |s| - j
  {
    if j < |s| && IsAsciiAlnum(s[j]) then 1 + AlnumRun(s, j + 1) else 0
  }

  /** The leftmost match at or after `from`. */
  function FirstMatchFrom(s: string, prefix: string, from: nat): (r: Option<nat>)
    ensures r.Some? ==> (from <= r.value < |s| && MatchAt(s, r.value, prefix)
                         && forall j :: from <= j < r.value ==> !MatchAt(s, j, prefix))
    ensures r.None? ==> forall j :: from <= j < |s| ==> !MatchAt(s, j, prefix)
    decreases |s| - from
  {
    if from >= |s| then None
    else if MatchAt(s, from, prefix) then Some(from)
    else FirstMatchFrom(s, prefix, from + 1)
  }

  /** `h` is capture group 1 of the leftmost match of
      `/prefix([A-Za-z0-9]+)/i` in `s`: the greedy alphanumeric run after the
      prefix. */
  ghost predicate IsCapture(s: string, prefix: string, h: string) {
    exists i :: 0 <= i < |s| && LeftmostMatch(s, i, prefix)
      && h == s[i + |prefix|..i + |prefix| + AlnumRun(s, i + |prefix|)]
  }

  /** Capture group 1 of `s.match(/prefix([A-Za-z0-9]+)/i)`. */
  function Capture(s: string, prefix: string): (r: Option<string>)
    ensures r.None? <==> !HasMatch(s, prefix)
    ensures r.Some? ==> IsCapture(s, prefix, r.value)
  {
    match FirstMatchFrom(s, prefix, 0)
    case None => None
    case Some(i) =>
      assert LeftmostMatch(s, i, prefix);
      Some(s[i + |prefix|..i + |prefix| + AlnumRun(s, i + |prefix|)])
  }

  /** The capture of a string whose leftmost match is at `i`. */
  lemma CaptureAtLeftmost(s: string, prefix: string, i: nat)
    requires LeftmostMatch(s, i, prefix)
    ensures i + |prefix| + AlnumRun(s, i + |prefix|) <= |s|
    ensures Capture(s, prefix) == Some(s[i + |prefix|..i + |prefix| + AlnumRun(s, i + |prefix|)])
  {
    var f := FirstMatchFrom(s, prefix, 0);
    assert f == Some(i);
  }

  /** On a tail of alphanumerics the run reaches the end. */
  lemma {:induction false} AlnumRunToEnd(s: string, j: nat)
    requires j <= |s|
    requires forall k :: j <= k < |s| ==> IsAsciiAlnum(s[k])
    ensures AlnumRun(s, j) == |s| - j
    decreases |s| - j
  {
    if j < |s| {
      AlnumRunToEnd(s, j + 1);
    }
  }

  /** After a head in which the prefix's first letter (in either case) never
      occurs, the prefix followed by an alphanumeric run is the leftmost
      match, and the capture is the whole run. */
  lemma CaptureAfterHead(head: string, prefix: string, run: string)
    requires |prefix| > 0
    requires forall j :: 0 <= j < |head| ==> !CiEq(head[j], prefix[0])
    requires IsAlnumWord(run)
    ensures Capture(head + prefix + run, prefix) == Some(run)
  {
    var s := head + prefix + run;
    var i := |head|;
    LeftmostAfterHead(head, prefix, run);
    assert s[i + |prefix|..] == run;
    CaptureRunToEnd(s, prefix, i);
  }

  lemma CaptureRunToEnd(s: string, prefix: string, i: nat)
    requires LeftmostMatch(s, i, prefix)
    requires forall k :: i + |prefix| <= k < |s| ==> IsAsciiAlnum(s[k])
    ensures Capture(s, prefix) == Some(s[i + |prefix|..])
  {
    var j := i + |prefix|;
    CaptureAtLeftmost(s, prefix, i);
    AlnumRunToEnd(s, j);
    assert s[j..j + AlnumRun(s, j)] == s[j..];
  }

  lemma LeftmostAfterHead(head: string, prefix: string, run: string)
    requires |prefix| > 0
    requires forall j :: 0 <= j < |head| ==> !CiEq(head[j], prefix[0])
    requires |run| > 0 && IsAsciiAlnum(run[0])
    ensures LeftmostMatch(head + prefix + run, |head|, prefix)
  {
    var s := head + prefix + run;
    var i := |head|;
    assert s[i..i + |prefix|] == prefix;
    assert CiAt(s, i, prefix);
    assert s[i + |prefix|] == run[0];
    forall j | 0 <= j < i ensures !MatchAt(s, j, prefix) {
      assert s[j] == head[j];
    }
  }

  /** A magnet whose `xt=urn:btih:` parameter comes first, after a head with
      no 'x' in either case, yields its alphanumeric hash lower-cased. */
  lemma HashAfterHead(head: string, hash: string)
    requires forall j :: 0 <= j < |head| ==> !CiEq(head[j], 'x')
    requires IsAlnumWord(hash)
    ensures GetHashFromMagnet(head + XtPrefix + hash) == Lower(hash)
  {
    assert XtPrefix[0] == 'x';
    CaptureAfterHead(head, XtPrefix, hash);
    HashOfXtCapture(head + XtPrefix + hash, hash);
  }

  lemma HashOfXtCapture(m: string, h: string)
    requires Capture(m, XtPrefix) == Some(h)
    ensures GetHashFromMagnet(m) == Lower(h)
  {
  }

  /** A capture is a non-empty run of ASCII letters and digits. */
  lemma CaptureIsAlnum(s: string, prefix: string, h: string)
    requires IsCapture(s, prefix, h)
    ensures |h| > 0 && forall k :: 0 <= k < |h| ==> IsAsciiAlnum(h[k])
  {
    var i :| 0 <= i < |s| && LeftmostMatch(s, i, prefix)
      && h == s[i + |prefix|..i + |prefix| + AlnumRun(s, i + |prefix|)];
    assert IsAsciiAlnum(s[i + |prefix|]);
  }

  /** `getHashFromMagnet`. */
  function GetHashFromMagnet(magnet: string): string {
    match Capture(magnet, XtPrefix)
    case Some(xt) => Lower(xt)
    case None =>
      match Capture(magnet, BtihPrefix)
      case Some(h) => Lower(h)
      case None => magnet
  }

  /** The hash is the lower-cased capture after the leftmost `xt=urn:btih:`,
      else after the leftmost `btih:`, else the input itself. */
  lemma GetHashFromMagnetSpec(magnet: string)
    ensures HasMatch(magnet, XtPrefix) ==>
      exists h :: IsCapture(magnet, XtPrefix, h) && GetHashFromMagnet(magnet) == Lower(h)
    ensures !HasMatch(magnet, XtPrefix) && HasMatch(magnet, BtihPrefix) ==>
      exists h :: IsCapture(magnet, BtihPrefix, h) && GetHashFromMagnet(magnet) == Lower(h)
    ensures !HasMatch(magnet, XtPrefix) && !HasMatch(magnet, BtihPrefix) ==> GetHashFromMagnet(magnet) == magnet
  {
    var xt := Capture(magnet, XtPrefix);
    var bt := Capture(magnet, BtihPrefix);
  }

  /** Lower-casing letters and digits gives lower-case letters and digits. */
  lemma LowerOfAlnum(h: string)
    requires forall k :: 0 <= k < |h| ==> IsAsciiAlnum(h[k])
    ensures |Lower(h)| == |h|
    ensures forall k :: 0 <= k < |h| ==> ('a' <= Lower(h)[k] <= 'z') || ('0' <= Lower(h)[k] <= '9')
  {
  }

  /** Any magnet with `btih:` followed by a letter or digit (so also any with
      `xt=urn:btih:` so followed) yields a non-empty run of lower-case letters
      and digits. */
  lemma HashIsLowerAlnum(magnet: string)
    requires HasMatch(magnet, BtihPrefix)
    ensures var h := GetHashFromMagnet(magnet);
      |h| > 0 && forall k :: 0 <= k < |h| ==> ('a' <= h[k] <= 'z') || ('0' <= h[k] <= '9')
  {
    if HasMatch(magnet, XtPrefix) {
      var c := Capture(magnet, XtPrefix).value;
      assert GetHashFromMagnet(magnet) == Lower(c);
      CaptureIsAlnum(magnet, XtPrefix, c);
      LowerOfAlnum(c);
    } else {
      var c := Capture(magnet, BtihPrefix).value;
      assert GetHashFromMagnet(magnet) == Lower(c);
      CaptureIsAlnum(magnet, BtihPrefix, c);
      LowerOfAlnum(c);
    }
  }

  // ===========================================================================
  // Rate gate and the 429 retry loop
  // ===========================================================================

  const MinGapMs := 1200
  const MaxRetries := 6
  const BackoffBaseMs := 800
  const BackoffCapMs := 8000
  const JitterSpanMs := 250

  /** `rateLimitGate`: waits `max(0, lastCallAt + gap - now)` and returns the
      clock reading after the wait, which becomes the new `lastCallAt`.
      `late` is how much later than requested the timer (or the clock read)
      came back; timers never fire early. */
  function RateLimitGate(lastCallAt: int, now: int, late: nat): (exit: int)
    ensures exit >= now
    ensures exit >= lastCallAt + MinGapMs
    ensures late == 0 && now >= lastCallAt + MinGapMs ==> exit == now
    ensures late == 0 && now < lastCallAt + MinGapMs ==> exit == lastCallAt + MinGapMs
  {
    var wait := Max(0, lastCallAt + MinGapMs - now);
    now + wait + late
  }

  /** Successive passes through the gate, each starting no earlier than the
      previous one left (the clock is monotone): the exit times. */
  function GateExits(lastCallAt: int, starts: seq<int>, lates: seq<nat>): (exits: seq<int>)
    requires |lates| == |starts|
    ensures |exits| == |starts|
    ensures |exits| > 0 ==> exits[0] >= lastCallAt + MinGapMs
    ensures forall k :: 0 <= k < |exits| ==> exits[k] >= starts[k]
    ensures forall k :: 0 < k < |exits| ==> exits[k] >= exits[k - 1] + MinGapMs
    decreases |starts|
  {
    if |starts| == 0 then []
    else
      var e := RateLimitGate(lastCallAt, starts[0], lates[0]);
      var rest := GateExits(e, starts[1..], lates[1..]);
      [e] + rest
  }

  function Pow2(n: nat): (r: nat)
    ensures r >= 1
  {
    if n == 0 then 1 else 2 * Pow2(n - 1)
  }

  /** The server's `Retry-After` in milliseconds: `max(0, seconds * 1000)`, or
      0 when the header is absent. */
  function RetryAfterMs(retryAfter: Option<int>): (ms: nat)
    ensures retryAfter.None? ==> ms == 0
    ensures retryAfter.Some? && retryAfter.value >= 0 ==> ms == retryAfter.value * 1000
  {
    match retryAfter
    case None => 0
    case Some(sec) => Max(0, sec * 1000)
  }

  /** The sleep before retry number `attempt` (counted from 1). */
  function Backoff(attempt: nat, retryAfterMs: int, jitter: int): int
    requires attempt >= 1
  {
    Max(retryAfterMs, Min(BackoffCapMs, BackoffBaseMs * Pow2(attempt - 1)) + jitter)
  }

  /** The backoff doubles from 800 ms and is capped at 8000 ms from the fifth
      retry on; it never undercuts the server's `Retry-After`, and with a
      jitter in [0, 250) it stays below 8250 ms unless the server asks for
      more. */
  lemma {:induction false} BackoffSchedule(attempt: nat, retryAfterMs: int, jitter: int)
    requires attempt >= 1
    requires 0 <= jitter < JitterSpanMs
    ensures Backoff(attempt, retryAfterMs, jitter) >= retryAfterMs
    ensures Backoff(attempt, retryAfterMs, jitter) >= BackoffBaseMs
    ensures attempt <= 4 ==> Backoff(attempt, 0, jitter) == BackoffBaseMs * Pow2(attempt - 1) + jitter
    ensures attempt >= 5 ==> Backoff(attempt, 0, jitter) == BackoffCapMs + jitter
    ensures Backoff(attempt, retryAfterMs, jitter) < Max(retryAfterMs + 1, BackoffCapMs + JitterSpanMs)
  {
    if attempt >= 5 {
      Pow2AtLeast(attempt - 1);
    }
  }

  lemma {:induction false} Pow2AtLeast(n: nat)
    requires n >= 4
    ensures Pow2(n) >= 16
  {
    if n > 4 {
      Pow2AtLeast(n - 1);
    }
  }

  /** One `addMagnet` answer: its status, its `Retry-After` header in seconds,
      and the `id` of its JSON body (absent when the body does not parse or has
      no truthy `id`); or a throw of the `fetch` itself or of reading the
      answer's text. */
  datatype AddResponse =
    | AddAnswer(status: int, retryAfter: Option<int>, id: Option<string>)
    | AddThrew

  /** An answer the loop retries. A throw is not retried: it leaves the loop. */
  predicate Is429(a: AddResponse) {
    a.AddAnswer? && a.status == 429
  }

  /** The `Retry-After` header of an answer; a throw has none. */
  function RetryAfterOf(a: AddResponse): Option<int> {
    if a.AddAnswer? then a.retryAfter else None
  }

  /** `posts` POSTs were made; the last answer is `response`; `sleeps` are the
      backoffs slept between them. */
  datatype RetryOutcome = RetryOutcome(response: AddResponse, posts: nat, sleeps: seq<int>)

  /** The retry loop from the POST numbered `attempt` (counted from 0) on. */
  function RetryFrom(responses: seq<AddResponse>, jitters: seq<int>, maxRetries: nat, attempt: nat): (o: RetryOutcome)
    requires attempt <= maxRetries < |responses|
    requires |jitters| >= maxRetries
    ensures attempt + 1 <= o.posts <= maxRetries + 1
    ensures o.response == responses[o.posts - 1]
    ensures forall k :: attempt <= k < o.posts - 1 ==> Is429(responses[k])
    ensures !Is429(o.response) || o.posts == maxRetries + 1
    ensures |o.sleeps| == o.posts - 1 - attempt
    ensures forall k :: 0 <= k < |o.sleeps| ==>
      o.sleeps[k] == Backoff(attempt + k + 1, RetryAfterMs(RetryAfterOf(responses[attempt + k])), jitters[attempt + k])
    decreases maxRetries - attempt
  {
    var res := responses[attempt];
    if !Is429(res) || attempt + 1 > maxRetries then RetryOutcome(res, attempt + 1, [])
    else
      var pause := Backoff(attempt + 1, RetryAfterMs(RetryAfterOf(res)), jitters[attempt]);
      var rest := RetryFrom(responses, jitters, maxRetries, attempt + 1);
      RetryOutcome(rest.response, rest.posts, [pause] + rest.sleeps)
  }

  /** `addMagnetWithRetry`: POSTs until an answer other than 429, at most
      `maxRetries + 1` times, and returns that answer (a throw included) or
      the last 429. Before retry k it sleeps `Backoff(k, …)` with the k-th
      jitter. */
  function AddMagnetWithRetry(responses: seq<AddResponse>, jitters: seq<int>, maxRetries: nat): (o: RetryOutcome)
    requires maxRetries < |responses|
    requires |jitters| >= maxRetries
    ensures 1 <= o.posts <= maxRetries + 1
    ensures o.response == responses[o.posts - 1]
    ensures forall k :: 0 <= k < o.posts - 1 ==> Is429(responses[k])
    ensures !Is429(o.response) || o.posts == maxRetries + 1
    ensures |o.sleeps| == o.posts - 1
    ensures forall k :: 0 <= k < |o.sleeps| ==>
      o.sleeps[k] == Backoff(k + 1, RetryAfterMs(RetryAfterOf(responses[k])), jitters[k])
  {
    RetryFrom(responses, jitters, maxRetries, 0)
  }

  /** The loop gives up with a 429 exactly when every one of the
      `maxRetries + 1` answers was a 429. */
  lemma RetryGivesUpOnlyAfterAll429(responses: seq<AddResponse>, jitters: seq<int>, maxRetries: nat)
    requires maxRetries < |responses|
    requires |jitters| >= maxRetries
    ensures Is429(AddMagnetWithRetry(responses, jitters, maxRetries).response)
      <==> forall k :: 0 <= k <= maxRetries ==> Is429(responses[k])
  {
    var o := AddMagnetWithRetry(responses, jitters, maxRetries);
    if Is429(o.response) {
      assert o.posts == maxRetries + 1;
    }
  }

  // ===========================================================================
  // The POST stage machine
  // ===========================================================================

  datatype RdInfo = RdInfo(status: Option<string>, filename: Option<string>, files: Option<seq<RdFile>>, links: Option<seq<string>>)

  const EmptyInfo := RdInfo(None, None, None, None)

  predicate HasFiles(info: RdInfo) {
    info.files.Some? && |info.files.value| > 0
  }

  predicate HasLinks(info: RdInfo) {
    info.links.Some? && |info.links.value| > 0
  }

  predicate IsDownloaded(info: RdInfo) {
    info.status == Some("downloaded")
  }

  /** The first poll stops once files are listed, or once links are ready on a
      downloaded torrent. */
  predicate FilesStop(info: RdInfo) {
    HasFiles(info) || (HasLinks(info) && IsDownloaded(info))
  }

  /** The second poll stops once the torrent is downloaded with links. */
  predicate LinksStop(info: RdInfo) {
    IsDownloaded(info) && HasLinks(info)
  }

  /** One `fetchInfo` call: the parsed info, or a thrown error (non-2xx). */
  datatype InfoFetch = Fetched(info: RdInfo) | FetchThrew

  datatype Poll = PollThrew | PollDone(info: RdInfo)

  /** A polling loop: `fetches` are the answers of the calls made before the
      deadline. It stops at the first answer satisfying `stop`, throws at the
      first failed call, and otherwise ends with the last answer seen
      (`last`, initially the empty info, when no call was made). */
  function PollUntil(fetches: seq<InfoFetch>, last: RdInfo, stop: RdInfo -> bool): (p: Poll)
    requires !stop(last)
    ensures p.PollDone? && stop(p.info) ==>
      exists k :: (0 <= k < |fetches| && fetches[k] == Fetched(p.info)
                   && forall j :: 0 <= j < k ==> fetches[j].Fetched? && !stop(fetches[j].info))
    ensures p.PollDone? && !stop(p.info) ==>
      (forall j :: 0 <= j < |fetches| ==> fetches[j].Fetched? && !stop(fetches[j].info))
      && p.info == (if |fetches| == 0 then last else fetches[|fetches| - 1].info)
    ensures p.PollThrew? <==>
      exists k :: (0 <= k < |fetches| && fetches[k].FetchThrew?
                   && forall j :: 0 <= j < k ==> fetches[j].Fetched? && !stop(fetches[j].info))
  {
    if |fetches| == 0 then PollDone(last)
    else match fetches[0]
      case FetchThrew => PollThrew
      case Fetched(info) =>
        if stop(info) then PollDone(info)
        else
          var p := PollUntil(fetches[1..], info, stop);
          assert forall j :: 1 <= j < |fetches| ==> fetches[1..][j - 1] == fetches[j];
          p
  }

  datatype UnrestrictBody = UnrestrictBody(download: Option<string>, host: Option<string>, filesize: Option<int>)

  /** The unrestrict call: thrown, or a status and its body (absent when the
      body is not JSON). */
  datatype UnrestrictAnswer = UnrestrictThrew | UnrestrictReply(status: int, body: Option<UnrestrictBody>)

  /** Everything the provider and the clock contribute to one run. */
  datatype RdEnv = RdEnv(
    adds: seq<AddResponse>,
    jitters: seq<int>,
    filePolls: seq<InfoFetch>,
    select: Option<int>,
    linkPolls: seq<InfoFetch>,
    unrestrict: UnrestrictAnswer)

  predicate ValidEnv(env: RdEnv) {
    |env.adds| > MaxRetries && |env.jitters| >= MaxRetries
  }

  datatype Stage = AddMagnetStage | SelectFilesStage | PollLinksStage | UnrestrictStage

  datatype Reply =
    | Success(id: string, filename: Option<string>, link: string, download: Option<string>, host: Option<string>, filesize: Option<int>)
    | StageFailure(stage: Stage, status: int)
    | BadRequest
    | ServerError
  {
    function Status(): int {
      match this
      case Success(_, _, _, _, _, _) => 200
      case StageFailure(_, s) => s
      case BadRequest => 400
      case ServerError => 500
    }
  }

  predicate IsOk(status: int) {
    200 <= status <= 299
  }

  predicate Truthy(s: Option<string>) {
    s.Some? && s.value != ""
  }

  /** How the inner pipeline ended: with a reply, or with a thrown error. */
  datatype Run = Finished(reply: Reply) | Threw

  /** The answer the add stage settles on. */
  function SettledAdd(env: RdEnv): AddResponse
    requires ValidEnv(env)
  {
    AddMagnetWithRetry(env.adds, env.jitters, MaxRetries).response
  }

  /** The add stage lets the run go on: a 2xx answer with a truthy `id`. */
  predicate AddAccepted(env: RdEnv)
    requires ValidEnv(env)
  {
    var add := SettledAdd(env);
    add.AddAnswer? && IsOk(add.status) && Truthy(add.id)
  }

  /** The poll for files (or ready links) after the add. */
  function FilePoll(env: RdEnv): Poll {
    PollUntil(env.filePolls, EmptyInfo, FilesStop)
  }

  /** The poll for links after the select. */
  function LinkPoll(env: RdEnv): Poll {
    PollUntil(env.linkPolls, EmptyInfo, LinksStop)
  }

  /** No listed file survives the selection filters. */
  predicate NoSurvivor(files: seq<RdFile>, opts: PickOptions) {
    forall k :: 0 <= k < |files| ==> !Survives(files[k], opts)
  }

  /** The select stage lets the run go on: no files were listed, or one of
      them survives the filters and `selectFiles` answered 2xx. */
  predicate SelectPasses(info: RdInfo, opts: PickOptions, env: RdEnv) {
    !HasFiles(info) || (!NoSurvivor(info.files.value, opts) && env.select.Some? && IsOk(env.select.value))
  }

  /** The link poll ended, without a throw, on an info that lists links. */
  predicate LinksReady(env: RdEnv) {
    LinkPoll(env).PollDone? && HasLinks(LinkPoll(env).info)
  }

  /** The unrestrict call answered 2xx with a JSON body. */
  predicate UnrestrictOk(env: RdEnv) {
    env.unrestrict.UnrestrictReply? && IsOk(env.unrestrict.status) && env.unrestrict.body.Some?
  }

  /** Stages 3 to 5: select the file (when files are listed), poll for links,
      unrestrict the first link. Each stage's failure gives its own answer:
      no surviving file 409, a non-2xx `selectFiles` its own status, no links
      by the deadline 504, a non-2xx unrestrict 502; a failed call or a body
      that is not JSON throws. */
  function AfterFilePoll(id: string, info: RdInfo, opts: PickOptions, env: RdEnv): (r: Run)
    ensures r.Finished? && r.reply.StageFailure? ==> r.reply.stage != AddMagnetStage
    ensures r.Finished? && r.reply.Success? ==> r.reply.id == id
    ensures HasFiles(info) && NoSurvivor(info.files.value, opts) ==>
      r == Finished(StageFailure(SelectFilesStage, 409))
    ensures HasFiles(info) && !NoSurvivor(info.files.value, opts) && env.select.None? ==> r == Threw
    ensures HasFiles(info) && !NoSurvivor(info.files.value, opts) && env.select.Some? && !IsOk(env.select.value) ==>
      r == Finished(StageFailure(SelectFilesStage, env.select.value))
    ensures SelectPasses(info, opts, env) && LinkPoll(env).PollThrew? ==> r == Threw
    ensures SelectPasses(info, opts, env) && LinkPoll(env).PollDone? && !HasLinks(LinkPoll(env).info) ==>
      r == Finished(StageFailure(PollLinksStage, 504))
    ensures SelectPasses(info, opts, env) && LinksReady(env) && env.unrestrict.UnrestrictThrew? ==> r == Threw
    ensures SelectPasses(info, opts, env) && LinksReady(env) && env.unrestrict.UnrestrictReply? ==>
      && (!IsOk(env.unrestrict.status) ==> r == Finished(StageFailure(UnrestrictStage, 502)))
      && (IsOk(env.unrestrict.status) && env.unrestrict.body.None? ==> r == Threw)
    ensures SelectPasses(info, opts, env) && LinksReady(env) && UnrestrictOk(env) ==>
      var linked := LinkPoll(env).info;
      var body := env.unrestrict.body.value;
      r == Finished(Success(id, linked.filename, linked.links.value[0], body.download, body.host, body.filesize))
  {
    if HasFiles(info) && PickByExt(info.files.value, opts).None? then
      Finished(StageFailure(SelectFilesStage, 409))
    else if HasFiles(info) && env.select.None? then Threw
    else if HasFiles(info) && !IsOk(env.select.value) then
      Finished(StageFailure(SelectFilesStage, env.select.value))
    else
      match LinkPoll(env)
      case PollThrew => Threw
      case PollDone(linked) =>
        if !HasLinks(linked) then Finished(StageFailure(PollLinksStage, 504))
        else
          match env.unrestrict
          case UnrestrictThrew => Threw
          case UnrestrictReply(status, body) =>
            if !IsOk(status) then Finished(StageFailure(UnrestrictStage, 502))
            else if body.None? then Threw
            else Finished(Success(id, linked.filename, linked.links.value[0],
                                  body.value.download, body.value.host, body.value.filesize))
  }

  /** The promise body of the POST handler. The add stage answers 429 when it
      gave up on 429s and 502 for any other non-2xx or a missing `id`; a
      throw while adding or polling for files throws the run; after the file
      poll the later stages decide. */
  function RunPipeline(opts: PickOptions, env: RdEnv): (r: Run)
    requires ValidEnv(env)
    ensures SettledAdd(env).AddThrew? ==> r == Threw
    ensures SettledAdd(env).AddAnswer? && !IsOk(SettledAdd(env).status) ==>
      r == Finished(StageFailure(AddMagnetStage, if Is429(SettledAdd(env)) then 429 else 502))
    ensures SettledAdd(env).AddAnswer? && IsOk(SettledAdd(env).status) && !Truthy(SettledAdd(env).id) ==>
      r == Finished(StageFailure(AddMagnetStage, 502))
    ensures AddAccepted(env) && FilePoll(env).PollThrew? ==> r == Threw
    ensures AddAccepted(env) && FilePoll(env).PollDone? ==>
      r == AfterFilePoll(SettledAdd(env).id.value, FilePoll(env).info, opts, env)
    ensures r.Finished? && r.reply.StageFailure? && r.reply.stage == AddMagnetStage ==> !AddAccepted(env)
  {
    var add := SettledAdd(env);
    if add.AddThrew? then Threw
    else if !IsOk(add.status) then
      Finished(StageFailure(AddMagnetStage, if add.status == 429 then 429 else 502))
    else if !Truthy(add.id) then
      Finished(StageFailure(AddMagnetStage, 502))
    else
      match FilePoll(env)
      case PollThrew => Threw
      case PollDone(info) => AfterFilePoll(add.id.value, info, opts, env)
  }

  /** The JSON body of the POST, with its defaults still to apply. */
  datatype Request = Request(
    accessToken: Option<string>,
    magnet: Option<string>,
    allowedExts: Option<seq<string>>,
    disallowExts: Option<seq<string>>,
    excludeSamples: Option<bool>)

  function OptionsOf(req: Request): (opts: PickOptions)
    ensures req.disallowExts.None? ==> opts.disallowExts == DefaultDisallow
    ensures req.excludeSamples.None? ==> opts.excludeSamples
    ensures req.allowedExts.None? ==> opts.allowedExts == []
    ensures req.allowedExts.Some? ==> opts.allowedExts == req.allowedExts.value
    ensures req.disallowExts.Some? ==> opts.disallowExts == req.disallowExts.value
    ensures req.excludeSamples.Some? ==> opts.excludeSamples == req.excludeSamples.value
  {
    PickOptions(req.allowedExts.GetOr([]), req.disallowExts.GetOr(DefaultDisallow), req.excludeSamples.GetOr(true))
  }

  /** A settled entry of the in-flight map. In a sequential run only promises
      that threw stay in the map: a completed run deletes its key. */
  datatype Settled = Resolved(reply: Reply) | Rejected

  datatype PostResult = PostResult(reply: Reply, inflight: map<string, Settled>)

  /** A well-formed request with info hash `key`: a settled entry answers
      from the map; otherwise the run's reply is the answer, and a run that
      throws answers 500 and, unless the key is released in `finally`,
      leaves the key behind as rejected. */
  function Dispatch(inflight: map<string, Settled>, key: string, run: Run, releaseOnThrow: bool): PostResult {
    if key in inflight then
      match inflight[key]
      case Resolved(reply) => PostResult(reply, inflight)
      case Rejected => PostResult(ServerError, inflight)
    else
      match run
      case Finished(reply) => PostResult(reply, inflight)
      case Threw => PostResult(ServerError, if releaseOnThrow then inflight else inflight[key := Rejected])
  }

  /** A request the handler acts on: a truthy access token and magnet. */
  predicate Admitted(req: Request) {
    Truthy(req.accessToken) && Truthy(req.magnet)
  }

  /** The in-flight key of an admitted request: its magnet's info hash. */
  function KeyOf(req: Request): string
    requires Admitted(req)
  {
    GetHashFromMagnet(req.magnet.value)
  }

  /** The POST handler as written: the key is deleted only after the promise
      completes normally, so a run that throws leaves its key behind. `body`
      is absent when the request body is not JSON. */
  function Post(inflight: map<string, Settled>, body: Option<Request>, env: RdEnv): (r: PostResult)
    requires ValidEnv(env)
    ensures body.None? ==> r == PostResult(ServerError, inflight)
    ensures body.Some? && !Admitted(body.value) ==> r == PostResult(BadRequest, inflight)
    ensures body.Some? && Admitted(body.value) && KeyOf(body.value) in inflight ==>
      r.inflight == inflight
      && r.reply == (if inflight[KeyOf(body.value)].Resolved? then inflight[KeyOf(body.value)].reply else ServerError)
    ensures body.Some? && Admitted(body.value) && KeyOf(body.value) !in inflight ==>
      var run := RunPipeline(OptionsOf(body.value), env);
      && (run.Finished? ==> r == PostResult(run.reply, inflight))
      && (run.Threw? ==> r == PostResult(ServerError, inflight[KeyOf(body.value) := Rejected]))
  {
    match body
    case None => PostResult(ServerError, inflight)
    case Some(req) =>
      if !Admitted(req) then PostResult(BadRequest, inflight)
      else Dispatch(inflight, KeyOf(req), RunPipeline(OptionsOf(req), env), false)
  }

  /** The POST handler with the deletion in a `finally` block: the key leaves
      the map however the run ends. */
  function PostFixed(inflight: map<string, Settled>, body: Option<Request>, env: RdEnv): (r: PostResult)
    requires ValidEnv(env)
    ensures body.None? ==> r == PostResult(ServerError, inflight)
    ensures body.Some? && !Admitted(body.value) ==> r == PostResult(BadRequest, inflight)
    ensures body.Some? && Admitted(body.value) && KeyOf(body.value) !in inflight ==>
      var run := RunPipeline(OptionsOf(body.value), env);
      && (run.Finished? ==> r == PostResult(run.reply, inflight))
      && (run.Threw? ==> r == PostResult(ServerError, inflight))
  {
    match body
    case None => PostResult(ServerError, inflight)
    case Some(req) =>
      if !Admitted(req) then PostResult(BadRequest, inflight)
      else Dispatch(inflight, KeyOf(req), RunPipeline(OptionsOf(req), env), true)
  }

  // ===========================================================================
  // What the stage machine answers
  // ===========================================================================

  /** The add stage fails with 429 exactly when all seven `addMagnet` answers
      were 429s. */
  lemma RunRateLimitedIffAll429(opts: PickOptions, env: RdEnv)
    requires ValidEnv(env)
    ensures RunPipeline(opts, env) == Finished(StageFailure(AddMagnetStage, 429))
      <==> forall k :: 0 <= k <= MaxRetries ==> Is429(env.adds[k])
  {
    RetryGivesUpOnlyAfterAll429(env.adds, env.jitters, MaxRetries);
  }

  /** The select stage answers 409 exactly when the add stage passed, the
      file poll ended on listed files, and either none of them survives the
      selection filters or the provider's `selectFiles` answered 409 (its
      status is passed through). The files were listed by one of the polls. */
  lemma RunNoSupportedVideo(opts: PickOptions, env: RdEnv)
    requires ValidEnv(env)
    ensures RunPipeline(opts, env) == Finished(StageFailure(SelectFilesStage, 409)) <==>
      && AddAccepted(env) && FilePoll(env).PollDone? && HasFiles(FilePoll(env).info)
      && (NoSurvivor(FilePoll(env).info.files.value, opts) || env.select == Some(409))
    ensures RunPipeline(opts, env) == Finished(StageFailure(SelectFilesStage, 409)) ==>
      Fetched(FilePoll(env).info) in env.filePolls
  {
    if RunPipeline(opts, env) == Finished(StageFailure(SelectFilesStage, 409)) {
      var info := FilePoll(env).info;
      assert FilesStop(info);
      var k :| 0 <= k < |env.filePolls| && env.filePolls[k] == Fetched(info);
    }
  }

  /** Every stage passes: the add is accepted, the file poll and the select
      let the run go on, links are ready, and unrestrict answers 2xx JSON. */
  predicate AllStagesOk(opts: PickOptions, env: RdEnv)
    requires ValidEnv(env)
  {
    AddAccepted(env) && FilePoll(env).PollDone? && SelectPasses(FilePoll(env).info, opts, env)
    && LinksReady(env) && UnrestrictOk(env)
  }

  /** The run succeeds exactly when every stage passes, and then it answers
      with the accepted id, the first link of the ready torrent and the
      unrestrict answer's download URL. That id is the `id` of a 2xx
      `addMagnet` answer, and the link was listed by one of the link polls. */
  lemma RunSuccessEvidence(opts: PickOptions, env: RdEnv)
    requires ValidEnv(env)
    ensures (RunPipeline(opts, env).Finished? && RunPipeline(opts, env).reply.Success?) <==> AllStagesOk(opts, env)
    ensures AllStagesOk(opts, env) ==>
      var linked := LinkPoll(env).info;
      var body := env.unrestrict.body.value;
      RunPipeline(opts, env)
        == Finished(Success(SettledAdd(env).id.value, linked.filename, linked.links.value[0],
                            body.download, body.host, body.filesize))
    ensures AllStagesOk(opts, env) ==>
      && (exists k :: 0 <= k <= MaxRetries && env.adds[k].AddAnswer? && IsOk(env.adds[k].status)
                      && env.adds[k].id == Some(RunPipeline(opts, env).reply.id))
      && Fetched(LinkPoll(env).info) in env.linkPolls
  {
    RunSucceedsIffAllStagesOk(opts, env);
    if AllStagesOk(opts, env) {
      SettledAddIsAnAnswer(env);
      ReadyLinksWerePolled(env);
    }
  }

  lemma RunSucceedsIffAllStagesOk(opts: PickOptions, env: RdEnv)
    requires ValidEnv(env)
    ensures (RunPipeline(opts, env).Finished? && RunPipeline(opts, env).reply.Success?) <==> AllStagesOk(opts, env)
    ensures AllStagesOk(opts, env) ==>
      var linked := LinkPoll(env).info;
      var body := env.unrestrict.body.value;
      RunPipeline(opts, env)
        == Finished(Success(SettledAdd(env).id.value, linked.filename, linked.links.value[0],
                            body.download, body.host, body.filesize))
  {
    if AddAccepted(env) && FilePoll(env).PollDone? {
      assert RunPipeline(opts, env) == AfterFilePoll(SettledAdd(env).id.value, FilePoll(env).info, opts, env);
    }
  }

  /** The settled add answer is one of the first seven answers. */
  lemma SettledAddIsAnAnswer(env: RdEnv)
    requires ValidEnv(env)
    ensures exists k :: 0 <= k <= MaxRetries && env.adds[k] == SettledAdd(env)
  {
    var o := AddMagnetWithRetry(env.adds, env.jitters, MaxRetries);
    assert env.adds[o.posts - 1] == SettledAdd(env);
  }

  /** Links that are ready were listed by one of the link polls. */
  lemma ReadyLinksWerePolled(env: RdEnv)
    requires LinksReady(env)
    ensures Fetched(LinkPoll(env).info) in env.linkPolls
  {
    var linked := LinkPoll(env).info;
    if LinksStop(linked) {
      var k :| 0 <= k < |env.linkPolls| && env.linkPolls[k] == Fetched(linked);
    } else {
      assert linked == env.linkPolls[|env.linkPolls| - 1].info;
    }
  }

  /** The link stage answers 504 exactly when the add, the file poll and the
      select passed and the link poll ended, by the deadline, on an info that
      lists no links. Then no poll made saw a downloaded torrent with links. */
  lemma RunNoLinksByDeadline(opts: PickOptions, env: RdEnv)
    requires ValidEnv(env)
    ensures RunPipeline(opts, env) == Finished(StageFailure(PollLinksStage, 504)) <==>
      && AddAccepted(env) && FilePoll(env).PollDone? && SelectPasses(FilePoll(env).info, opts, env)
      && LinkPoll(env).PollDone? && !HasLinks(LinkPoll(env).info)
    ensures RunPipeline(opts, env) == Finished(StageFailure(PollLinksStage, 504)) ==>
      && (forall k :: 0 <= k < |env.linkPolls| ==> env.linkPolls[k].Fetched? && !LinksStop(env.linkPolls[k].info))
      && (|env.linkPolls| > 0 ==> !HasLinks(env.linkPolls[|env.linkPolls| - 1].info))
  {
    if RunPipeline(opts, env) == Finished(StageFailure(PollLinksStage, 504)) {
      assert !LinksStop(LinkPoll(env).info);
    }
  }

  /** An admitted request whose hash is not in flight and whose every stage
      passes gets 200 with the download URL, and the map is unchanged. */
  lemma PostAnswersDownload(inflight: map<string, Settled>, req: Request, env: RdEnv)
    requires ValidEnv(env)
    ensures Admitted(req) && KeyOf(req) !in inflight && AllStagesOk(OptionsOf(req), env) ==>
      var r := Post(inflight, Some(req), env);
      && r.inflight == inflight
      && r.reply.Success? && r.reply.Status() == 200
      && r.reply.download == env.unrestrict.body.value.download
  {
    RunSuccessEvidence(OptionsOf(req), env);
  }


  // ===========================================================================
  // The in-flight map
  // ===========================================================================

  /** Only rejected promises are left in the map. */
  predicate OnlyRejected(inflight: map<string, Settled>) {
    forall k :: k in inflight ==> inflight[k] == Rejected
  }

  /** As written: a request never removes a key; it adds one, its info hash,
      exactly when that hash was not in flight and its run throws; and in a
      sequential run the map holds only rejected promises. */
  lemma PostInflightDiscipline(inflight: map<string, Settled>, body: Option<Request>, env: RdEnv)
    requires ValidEnv(env)
    requires OnlyRejected(inflight)
    ensures var r := Post(inflight, body, env);
      && inflight.Keys <= r.inflight.Keys
      && OnlyRejected(r.inflight)
      && (r.inflight.Keys != inflight.Keys ==>
            && r.reply == ServerError
            && body.Some? && Admitted(body.value) && KeyOf(body.value) !in inflight
            && RunPipeline(OptionsOf(body.value), env).Threw?
            && r.inflight.Keys == inflight.Keys + {KeyOf(body.value)})
      && (body.Some? && Admitted(body.value) && KeyOf(body.value) !in inflight
          && RunPipeline(OptionsOf(body.value), env).Threw? ==>
            r.inflight.Keys == inflight.Keys + {KeyOf(body.value)})
  {
    if body.Some? && Truthy(body.value.accessToken) && Truthy(body.value.magnet) {
      var key := GetHashFromMagnet(body.value.magnet.value);
      var run := RunPipeline(OptionsOf(body.value), env);
      assert Post(inflight, body, env) == Dispatch(inflight, key, run, false);
      DispatchKeepsOnlyRejected(inflight, key, run);
    }
  }

  lemma DispatchKeepsOnlyRejected(inflight: map<string, Settled>, key: string, run: Run)
    requires OnlyRejected(inflight)
    ensures var r := Dispatch(inflight, key, run, false);
      && inflight.Keys <= r.inflight.Keys
      && OnlyRejected(r.inflight)
      && (r.inflight.Keys != inflight.Keys ==> r.reply == ServerError && r.inflight.Keys == inflight.Keys + {key})
  {
  }

  /** As written: once a run for an info hash has thrown, every later request
      for that hash, whatever the provider would answer, gets a 500 without
      reaching the provider. */
  lemma StaleKeyBlocksLaterRequests(inflight: map<string, Settled>, body: Option<Request>, env: RdEnv, later: Request, env2: RdEnv)
    requires ValidEnv(env) && ValidEnv(env2)
    requires body.Some? && Truthy(body.value.accessToken) && Truthy(body.value.magnet)
    requires GetHashFromMagnet(body.value.magnet.value) !in inflight
    requires RunPipeline(OptionsOf(body.value), env).Threw?
    requires Truthy(later.accessToken) && Truthy(later.magnet)
    requires GetHashFromMagnet(later.magnet.value) == GetHashFromMagnet(body.value.magnet.value)
    ensures var first := Post(inflight, body, env);
      first.reply == ServerError
      && Post(first.inflight, Some(later), env2) == PostResult(ServerError, first.inflight)
  {
  }

  /** Corrected: with the deletion in `finally`, a request leaves the map as it
      found it, so in a sequential run the map stays empty. */
  lemma PostFixedReleasesKey(inflight: map<string, Settled>, body: Option<Request>, env: RdEnv)
    requires ValidEnv(env)
    ensures PostFixed(inflight, body, env).inflight == inflight
    ensures inflight == map[] ==> PostFixed(inflight, body, env).inflight == map[]
  {
    if body.Some? && Truthy(body.value.accessToken) && Truthy(body.value.magnet) {
      var key := GetHashFromMagnet(body.value.magnet.value);
      var run := RunPipeline(OptionsOf(body.value), env);
      assert PostFixed(inflight, body, env) == Dispatch(inflight, key, run, true);
      DispatchReleases(inflight, key, run);
    }
  }

  lemma DispatchReleases(inflight: map<string, Settled>, key: string, run: Run)
    ensures Dispatch(inflight, key, run, true).inflight == inflight
  {
  }

  /** Corrected: a request on an empty map runs the pipeline and answers with
      its reply, or 500 if it threw, and the next request for the same hash
      runs the pipeline afresh. */
  lemma PostFixedRetriesAfterFailure(body: Option<Request>, env: RdEnv, later: Request, env2: RdEnv)
    requires ValidEnv(env) && ValidEnv(env2)
    requires Truthy(later.accessToken) && Truthy(later.magnet)
    requires RunPipeline(OptionsOf(later), env2).Finished?
    ensures var first := PostFixed(map[], body, env);
      PostFixed(first.inflight, Some(later), env2).reply == RunPipeline(OptionsOf(later), env2).reply
  {
    PostFixedReleasesKey(map[], body, env);
  }

  /** A concrete run showing the stale key. The first request's torrent-info
      poll fails (a non-2xx from the provider), so its run throws; a second
      request for the same magnet, on a provider that would now succeed, still
      gets a 500 from the route as written, and the download link from the
      corrected route. */
  lemma StaleKeyExample()
    ensures var req := Request(Some("token"), Some("magnet:?xt=urn:btih:abc"), None, None, None);
      var added := AddAnswer(201, None, Some("T1"));
      var adds := seq(MaxRetries + 1, _ => added);
      var jitters := seq(MaxRetries, _ => 0);
      var ready := RdInfo(Some("downloaded"), Some("f.mp4"), None, Some(["https://rd/l"]));
      var failing := RdEnv(adds, jitters, [FetchThrew], Some(204), [], UnrestrictThrew);
      var working := RdEnv(adds, jitters, [Fetched(ready)], Some(204), [Fetched(ready)],
                           UnrestrictReply(200, Some(UnrestrictBody(Some("https://cdn/f.mp4"), None, None))));
      var asWritten := Post(Post(map[], Some(req), failing).inflight, Some(req), working);
      var corrected := PostFixed(PostFixed(map[], Some(req), failing).inflight, Some(req), working);
      asWritten.reply == ServerError
      && corrected.reply.Success? && corrected.reply.download == Some("https://cdn/f.mp4")
  {
    var req := Request(Some("token"), Some("magnet:?xt=urn:btih:abc"), None, None, None);
    var added := AddAnswer(201, None, Some("T1"));
    var adds := seq(MaxRetries + 1, _ => added);
    var jitters := seq(MaxRetries, _ => 0);
    var ready := RdInfo(Some("downloaded"), Some("f.mp4"), None, Some(["https://rd/l"]));
    var failing := RdEnv(adds, jitters, [FetchThrew], Some(204), [], UnrestrictThrew);
    var working := RdEnv(adds, jitters, [Fetched(ready)], Some(204), [Fetched(ready)],
                         UnrestrictReply(200, Some(UnrestrictBody(Some("https://cdn/f.mp4"), None, None))));
    assert AddMagnetWithRetry(adds, jitters, MaxRetries).response == added;
    assert PollUntil([FetchThrew], EmptyInfo, FilesStop) == PollThrew;
    assert RunPipeline(OptionsOf(req), failing) == Threw;
    assert FilesStop(ready) && LinksStop(ready) && !HasFiles(ready);
    assert PollUntil([Fetched(ready)], EmptyInfo, FilesStop) == PollDone(ready);
    assert PollUntil([Fetched(ready)], EmptyInfo, LinksStop) == PollDone(ready);
    assert RunPipeline(OptionsOf(req), working).Finished?;
    PostFixedRetriesAfterFailure(Some(req), failing, req, working);
  }
}

=== FILE: seqs.dfy ===
/** Sequence combinators standing in for `Array.prototype.filter` and for
    "the head of a stable sort by a descending key". */
module Seqs {
  import opened Wrappers

  /** `xs.filter(p)`: the elements satisfying `p`, in their original order. */
  function Filter<T>(xs: seq<T>, p: T -> bool): (r: seq<T>)
    ensures |r| <= |xs|
    ensures forall k :: 0 <= k < |r| ==> r[k] in xs && p(r[k])
    ensures forall k :: 0 <= k < |xs| && p(xs[k]) ==> xs[k] in r
  {
    if |xs| == 0 then [] else (if p(xs[0]) then [xs[0]] else []) + Filter(xs[1..], p)
  }

  /** Filtering distributes over concatenation, so the filter keeps order. */
  lemma {:induction false} FilterAppend<T>(xs: seq<T>, ys: seq<T>, p: T -> bool)
    ensures Filter(xs + ys, p) == Filter(xs, p) + Filter(ys, p)
    decreases |xs|
  {
    if |xs| > 0 {
      assert (xs + ys)[1..] == xs[1..] + ys;
      FilterAppend(xs[1..], ys, p);
    } else {
      assert xs + ys == ys;
    }
  }

  /** Index of the first element of maximal score: what
      `xs.sort((a, b) => score(b) - score(a))[0]` selects, since the sort is
      stable. */
  function ArgMaxFirst<T>(xs: seq<T>, score: T -> int): (k: nat)
    requires |xs| > 0
    ensures k < |xs|
    ensures forall j :: 0 <= j < |xs| ==> score(xs[j]) <= score(xs[k])
    ensures forall j :: 0 <= j < k ==> score(xs[j]) < score(xs[k])
  {
    if |xs| == 1 then 0
    else
      var k := ArgMaxFirst(xs[..|xs| - 1], score);
      assert forall j :: 0 <= j < |xs| - 1 ==> xs[..|xs| - 1][j] == xs[j];
      if score(xs[|xs| - 1]) > score(xs[k]) then |xs| - 1 else k
  }

  /** `x` occurs in `ys` at an index before which every element scores
      strictly less than `x`. */
  ghost predicate IsFirstMax<T>(ys: seq<T>, score: T -> int, x: T) {
    exists k :: 0 <= k < |ys| && ys[k] == x && forall j :: 0 <= j < k ==> score(ys[j]) < score(x)
  }

  /** The first element of maximal score among those satisfying `p`: the
      head of a stable descending sort of `xs.filter(p)`, or nothing exactly
      when no element satisfies `p`. */
  function FirstMax<T>(xs: seq<T>, p: T -> bool, score: T -> int): (r: Option<T>)
    ensures r.None? <==> forall k :: 0 <= k < |xs| ==> !p(xs[k])
    ensures r.Some? ==> r.value in xs && p(r.value)
    ensures r.Some? ==> forall k :: 0 <= k < |xs| && p(xs[k]) ==> score(xs[k]) <= score(r.value)
    ensures r.Some? ==> IsFirstMax(Filter(xs, p), score, r.value)
  {
    var ys := Filter(xs, p);
    if |ys| == 0 then None
    else
      var k := ArgMaxFirst(ys, score);
      assert forall j :: 0 <= j < |xs| && p(xs[j]) ==> xs[j] in ys;
      Some(ys[k])
  }
}

=== FILE: session_store.dfy ===
/** The session store: sessions kept in a key-value store under
    "session:<id>", read whole, written by shallow merge with a fresh
    `updated_at`, and deleted. The store is a map; the clock reading is a
    parameter. */
module SessionStore {
  import opened Wrappers

  datatype Tokens = Tokens(accessToken: string, refreshToken: string, expiresAt: int)

  datatype Session = Session(
    trakt: Option<Tokens>,
    rd: Option<Tokens>,
    pkceVerifier: Option<string>,
    updatedAt: int)

  /** `Partial<Session>`: a field is `None` when the key is absent. */
  datatype Patch = Patch(
    trakt: Option<Tokens>,
    rd: Option<Tokens>,
    pkceVerifier: Option<string>,
    updatedAt: Option<int>)

  type Store = map<string, Session>

  const KeyPrefix := "session:"

  function Key(id: string): string {
    KeyPrefix + id
  }

  /** Different session ids never share a key. */
  lemma KeyInjective(a: string, b: string)
    requires Key(a) == Key(b)
    ensures a == b
  {
    assert a == Key(a)[|KeyPrefix|..];
    assert b == Key(b)[|KeyPrefix|..];
  }

  /** `{updated_at: now}`. */
  function Fresh(now: int): Session {
    Session(None, None, None, now)
  }

  /** `{...current, ...data, updated_at: now}`. */
  function Merge(current: Session, data: Patch, now: int): Session {
    Session(
      if data.trakt.Some? then data.trakt else current.trakt,
      if data.rd.Some? then data.rd else current.rd,
      if data.pkceVerifier.Some? then data.pkceVerifier else current.pkceVerifier,
      now)
  }

  /** `sessionStore.get`. */
  function GetSession(store: Store, id: string): (r: Option<Session>)
    ensures r.None? <==> Key(id) !in store
    ensures r.Some? ==> r.value == store[Key(id)]
  {
    Get(store, Key(id))
  }

  /** `sessionStore.set`. */
  function SetSession(store: Store, id: string, data: Patch, now: int): (r: Store)
    ensures Key(id) in r
    ensures forall k :: k in r <==> k in store || k == Key(id)
    ensures forall k :: k in store && k != Key(id) ==> r[k] == store[k]
  {
    var current := if Key(id) in store then store[Key(id)] else Fresh(now);
    store[Key(id) := Merge(current, data, now)]
  }

  /** `sessionStore.del`. */
  function DelSession(store: Store, id: string): (r: Store)
    ensures Key(id) !in r
    ensures forall k :: k in r <==> k in store && k != Key(id)
    ensures forall k :: k in r ==> r[k] == store[k]
  {
    store - {Key(id)}
  }

  /** An absent session reads as nothing. */
  lemma GetAbsent(store: Store, id: string)
    requires Key(id) !in store
    ensures GetSession(store, id).None?
  {
  }

  /** After `set`, every field the patch carries has its new value, every
      other field keeps the stored one (or is absent for a new session), and
      `updated_at` is the time of the write even if the patch carried one. */
  lemma SetThenGet(store: Store, id: string, data: Patch, now: int)
    ensures var s := GetSession(SetSession(store, id, data, now), id);
      var prev := GetSession(store, id);
      && s.Some?
      && s.value.updatedAt == now
      && (data.trakt.Some? ==> s.value.trakt == data.trakt)
      && (data.rd.Some? ==> s.value.rd == data.rd)
      && (data.pkceVerifier.Some? ==> s.value.pkceVerifier == data.pkceVerifier)
      && (data.trakt.None? ==> s.value.trakt == (if prev.Some? then prev.value.trakt else None))
      && (data.rd.None? ==> s.value.rd == (if prev.Some? then prev.value.rd else None))
      && (data.pkceVerifier.None? ==> s.value.pkceVerifier == (if prev.Some? then prev.value.pkceVerifier else None))
  {
  }

  /** After `del`, the session reads as nothing. */
  lemma DelThenGet(store: Store, id: string)
    ensures GetSession(DelSession(store, id), id).None?
  {
  }

  /** Writing or deleting one session never changes how another reads. */
  lemma SessionsIsolated(store: Store, id: string, other: string, data: Patch, now: int)
    requires other != id
    ensures GetSession(SetSession(store, id, data, now), other) == GetSession(store, other)
    ensures GetSession(DelSession(store, id), other) == GetSession(store, other)
  {
    if Key(other) == Key(id) {
      KeyInjective(other, id);
    }
  }

  /** Repeating a write at the same time changes nothing more. */
  lemma SetIdempotent(store: Store, id: string, data: Patch, now: int)
    ensures SetSession(SetSession(store, id, data, now), id, data, now) == SetSession(store, id, data, now)
  {
  }
}

=== FILE: stremthru_route.dfy ===
/** The StremThru availability-check route: request validation, the
    comma-joined magnet list, its URI encoding into the check URL, and how
    the upstream answer is passed on. */
module StremThruRoute {
  import opened Wrappers
  import opened Text
  import MagnetToLink

  // ===========================================================================
  // The magnet list
  // ===========================================================================

  /** "magnet:?", followed by the same "xt=urn:btih:" that the
      magnet-to-link route looks for. */
  const MagnetHead := "magnet:?"

  /** `magnet:?xt=urn:btih:${h}` for an already trimmed hash `h`. */
  function MagnetFor(h: string): string {
    MagnetHead + MagnetToLink.XtPrefix + h
  }

  /** `hashes.map((h) => \`magnet:?xt=urn:btih:${h.trim()}\`)`: one magnet
      per hash, in input order. */
  function MagnetsOf(hashes: seq<string>): (r: seq<string>)
    ensures |r| == |hashes|
    ensures forall k :: 0 <= k < |hashes| ==> r[k] == MagnetFor(Trim(hashes[k]))
  {
    if |hashes| == 0 then [] else [MagnetFor(Trim(hashes[0]))] + MagnetsOf(hashes[1..])
  }

  /** `.join(",")`. */
  function MagnetList(hashes: seq<string>): string {
    Join(MagnetsOf(hashes), ",")
  }

  /** Trimming only drops characters, so it cannot introduce one. */
  lemma TrimKeepsAbsence(s: string, c: char)
    requires c !in s
    ensures c !in Trim(s)
  {
  }

  /** A magnet built from a comma-free hash has no comma. */
  lemma MagnetHasNoComma(hash: string)
    requires ',' !in hash
    ensures ',' !in MagnetFor(Trim(hash))
  {
    assert ',' !in MagnetHead + MagnetToLink.XtPrefix;
    TrimKeepsAbsence(hash, ',');
  }

  /** For comma-free hashes the list reads back, split on ',', as exactly one
      magnet per hash, in order; so it has `|hashes|` entries. */
  lemma MagnetListEntries(hashes: seq<string>)
    requires |hashes| > 0
    requires forall k :: 0 <= k < |hashes| ==> ',' !in hashes[k]
    ensures Split(MagnetList(hashes), ',') == MagnetsOf(hashes)
    ensures |Split(MagnetList(hashes), ',')| == |hashes|
  {
    var ms := MagnetsOf(hashes);
    forall k | 0 <= k < |ms| ensures ',' !in ms[k] {
      MagnetHasNoComma(hashes[k]);
    }
    SplitJoin(ms, ',');
  }

  /** The magnet-to-link route recovers the hash from a magnet built here:
      for a non-empty alphanumeric hash (which `trim` leaves as it is) it
      reads back the hash lower-cased. */
  lemma HashSurvivesMagnet(hash: string)
    requires IsAlnumWord(hash)
    ensures MagnetToLink.GetHashFromMagnet(MagnetFor(hash)) == Lower(hash)
  {
    HeadHasNoX();
    MagnetToLink.HashAfterHead(MagnetHead, hash);
  }

  lemma HeadHasNoX()
    ensures forall j :: 0 <= j < |MagnetHead| ==> !CiEq(MagnetHead[j], 'x')
  {
    forall j | 0 <= j < |MagnetHead| ensures !CiEq(MagnetHead[j], 'x') {
    }
  }

  // ===========================================================================
  // encodeURIComponent
  // ===========================================================================

  /** The characters `encodeURIComponent` leaves alone. */
  predicate IsUnreserved(c: char) {
    IsAsciiAlnum(c) || c == '-' || c == '_' || c == '.' || c == '!' || c == '~'
    || c == '*' || c == '\'' || c == '(' || c == ')'
  }

  predicate IsUpperHex(c: char) {
    ('0' <= c <= '9') || ('A' <= c <= 'F')
  }

  function HexDigit(d: nat): (c: char)
    requires d < 16
    ensures IsUpperHex(c)
  {
    if d < 10 then ('0' as int + d) as char else ('A' as int + d - 10) as char
  }

  /** `%XX` with upper-case hex digits. */
  function PercentByte(b: nat): (r: string)
    requires b < 256
    ensures |r| == 3 && r[0] == '%' && IsUpperHex(r[1]) && IsUpperHex(r[2])
  {
    ['%', HexDigit(b / 16), HexDigit(b % 16)]
  }

  /** The UTF-8 encoding of a Unicode scalar value. */
  function Utf8(cp: nat): (r: seq<nat>)
    requires cp < 0x11_0000
    ensures 1 <= |r| <= 4
    ensures forall k :: 0 <= k < |r| ==> r[k] < 256
    ensures cp < 0x80 <==> |r| == 1
    ensures cp < 0x80 ==> r == [cp]
  {
    if cp < 0x80 then [cp]
    else if cp < 0x800 then [0xC0 + cp / 0x40, 0x80 + cp % 0x40]
    else if cp < 0x1_0000 then [0xE0 + cp / 0x1000, 0x80 + (cp / 0x40) % 0x40, 0x80 + cp % 0x40]
    else [0xF0 + cp / 0x4_0000, 0x80 + (cp / 0x1000) % 0x40, 0x80 + (cp / 0x40) % 0x40, 0x80 + cp % 0x40]
  }

  function PercentBytes(bs: seq<nat>): (r: string)
    requires forall k :: 0 <= k < |bs| ==> bs[k] < 256
    ensures |r| == 3 * |bs|
    ensures forall k :: 0 <= k < |r| ==> r[k] == '%' || IsUpperHex(r[k])
  {
    if |bs| == 0 then "" else PercentByte(bs[0]) + PercentBytes(bs[1..])
  }

  function EncodeChar(c: char): (r: string)
    ensures IsUnreserved(c) ==> r == [c]
    ensures !IsUnreserved(c) ==> |r| >= 3 && r[0] == '%'
  {
    if IsUnreserved(c) then [c] else PercentBytes(Utf8(c as nat))
  }

  /** `encodeURIComponent`: unreserved characters as they are, every other
      character as its percent-encoded UTF-8 bytes. */
  function EncodeUriComponent(s: string): (r: string)
    ensures forall k :: 0 <= k < |r| ==> IsUnreserved(r[k]) || r[k] == '%'
  {
    if |s| == 0 then "" else EncodeChar(s[0]) + EncodeUriComponent(s[1..])
  }

  function HexValue(c: char): (d: nat)
    requires IsUpperHex(c)
    ensures d < 16
  {
    if c <= '9' then c as nat - '0' as nat else c as nat - 'A' as nat + 10
  }

  /** `decodeURIComponent` for text whose escapes are all single bytes below
      0x80, that is, the encoding of an ASCII string. */
  function DecodeAscii(s: string): Option<string>
    decreases |s|
  {
    if |s| == 0 then Some("")
    else if s[0] != '%' then
      var rest :- DecodeAscii(s[1..]);
      Some([s[0]] + rest)
    else if |s| < 3 || !IsUpperHex(s[1]) || !IsUpperHex(s[2]) then None
    else
      var b := 16 * HexValue(s[1]) + HexValue(s[2]);
      if b >= 0x80 then None
      else
        var rest :- DecodeAscii(s[3..]);
        Some([b as char] + rest)
  }

  predicate IsAscii(s: string) {
    forall k :: 0 <= k < |s| ==> s[k] as int < 0x80
  }

  lemma HexRoundTrip(b: nat)
    requires b < 256
    ensures 16 * HexValue(PercentByte(b)[1]) + HexValue(PercentByte(b)[2]) == b
  {
  }

  /** Decoding the encoding of an ASCII string gives it back. */
  lemma {:induction false} EncodeDecodeAscii(s: string)
    requires IsAscii(s)
    ensures DecodeAscii(EncodeUriComponent(s)) == Some(s)
    decreases |s|
  {
    if |s| > 0 {
      var tail := EncodeUriComponent(s[1..]);
      assert EncodeUriComponent(s) == EncodeChar(s[0]) + tail;
      EncodeDecodeAscii(s[1..]);
      DecodeCharThenRest(s[0], tail, s[1..]);
      assert s == [s[0]] + s[1..];
    }
  }

  /** One encoded ASCII character in front of an encoding that decodes to
      `rest` decodes to that character followed by `rest`. */
  lemma DecodeCharThenRest(c: char, tail: string, rest: string)
    requires c as int < 0x80
    requires DecodeAscii(tail) == Some(rest)
    ensures DecodeAscii(EncodeChar(c) + tail) == Some([c] + rest)
  {
    var e := EncodeChar(c) + tail;
    if IsUnreserved(c) {
      assert e[0] == c && c != '%';
      assert e[1..] == tail;
    } else {
      var b := c as nat;
      assert Utf8(b) == [b];
      assert PercentBytes([b]) == PercentByte(b) + PercentBytes([]);
      assert EncodeChar(c) == PercentByte(b);
      HexRoundTrip(b);
      assert e[0] == '%' && IsUpperHex(e[1]) && IsUpperHex(e[2]);
      assert e[3..] == tail;
      assert (16 * HexValue(e[1]) + HexValue(e[2])) as char == c;
    }
  }

  /** The separators of a magnet list are escaped, so the list travels as a
      single query parameter value. */
  lemma SeparatorsEscaped()
    ensures EncodeChar(',') == "%2C"
    ensures EncodeChar(':') == "%3A"
    ensures EncodeChar('?') == "%3F"
    ensures EncodeChar('=') == "%3D"
    ensures EncodeChar('&') == "%26"
  {
  }

  // ===========================================================================
  // POST
  // ===========================================================================

  const CheckUrl := "https://stremthru.13377001.xyz/v0/store/magnets/check?magnet="

  /** The request body: not JSON, or JSON whose `hashes` may be missing. */
  datatype Request = NotJson | Json(hashes: Option<seq<string>>)

  /** The upstream answer: a response whose text or JSON body may fail to
      read, or a thrown network error. */
  datatype Upstream =
    | Responded(status: int, text: Option<string>, json: Option<string>)
    | NetworkError

  datatype Body = ErrorBody(error: string, details: Option<string>) | DataBody(data: string)

  /** The route's response, and the URL it fetched, if any. */
  datatype Reply = Reply(status: int, body: Body, fetched: Option<string>)

  predicate IsOk(status: int) {
    200 <= status <= 299
  }

  /** `POST`. The thrown error's message is not modelled. */
  function Post(req: Request, upstream: Upstream): (r: Reply)
    ensures req.NotJson? || (req.Json? && req.hashes.None?) ==>
      r == Reply(500, ErrorBody("Server error", None), None)
    ensures req == Json(Some([])) ==> r == Reply(400, ErrorBody("No hashes", None), None)
    ensures req.Json? && req.hashes.Some? && |req.hashes.value| > 0 ==>
      r.fetched == Some(CheckUrl + EncodeUriComponent(MagnetList(req.hashes.value)))
    ensures r.fetched.Some? && upstream.Responded? && !IsOk(upstream.status) ==>
      r.status == 502
      && r.body == ErrorBody("StremThru " + IntToString(upstream.status), Some(upstream.text.GetOr("")))
    ensures r.fetched.Some? && upstream.Responded? && IsOk(upstream.status) && upstream.json.Some? ==>
      r == Reply(200, DataBody(upstream.json.value), r.fetched)
    ensures r.fetched.Some? && (upstream.NetworkError? || (IsOk(upstream.status) && upstream.json.None?)) ==>
      r.status == 500
    ensures r.status == 400 <==> req == Json(Some([]))
  {
    match req
    case NotJson => Reply(500, ErrorBody("Server error", None), None)
    case Json(None) => Reply(500, ErrorBody("Server error", None), None)
    case Json(Some(hashes)) =>
      if |hashes| == 0 then Reply(400, ErrorBody("No hashes", None), None)
      else
        var url := Some(CheckUrl + EncodeUriComponent(MagnetList(hashes)));
        match upstream
        case NetworkError => Reply(500, ErrorBody("Server error", None), url)
        case Responded(status, text, json) =>
          if !IsOk(status) then
            Reply(502, ErrorBody("StremThru " + IntToString(status), Some(text.GetOr(""))), url)
          else if json.None? then Reply(500, ErrorBody("Server error", None), url)
          else Reply(200, DataBody(json.value), url)
  }
}

=== FILE: text.dfy ===
/** The handful of JavaScript string and number primitives the modelled code
    relies on: `trim`, ASCII case folding as done by a case-insensitive
    regular expression without the `u` flag, `indexOf`/`lastIndexOf`,
    `split`/`join` on one separator character, `String(n)`, `padStart(2, "0")`
    and the truncating remainder operator `%`. */
module Text {

  // ---------------------------------------------------------------------------
  // Whitespace and trim
  // ---------------------------------------------------------------------------

  /** ECMAScript WhiteSpace and LineTerminator code points, the set removed by
      `String.prototype.trim`. */
  predicate IsSpace(c: char) {
    c == '\t' || c == '\n' || c == '\U{000B}' || c == '\U{000C}' || c == '\r'
    || c == ' ' || c == '\U{00A0}' || c == '\U{1680}'
    || ('\U{2000}' <= c <= '\U{200A}')
    || c == '\U{2028}' || c == '\U{2029}' || c == '\U{202F}' || c == '\U{205F}'
    || c == '\U{3000}' || c == '\U{FEFF}'
  }

  function TrimStart(s: string): (r: string)
    ensures |r| <= |s| && r == s[|s| - |r|..]
    ensures |r| > 0 ==> !IsSpace(r[0])
    ensures forall k :: 0 <= k < |s| - |r| ==> IsSpace(s[k])
  {
    if |s| > 0 && IsSpace(s[0]) then TrimStart(s[1..]) else s
  }

  function TrimEnd(s: string): (r: string)
    ensures |r| <= |s| && r == s[..|r|]
    ensures |r| > 0 ==> !IsSpace(r[|r| - 1])
    ensures forall k :: |r| <= k < |s| ==> IsSpace(s[k])
  {
    if |s| > 0 && IsSpace(s[|s| - 1]) then TrimEnd(s[..|s| - 1]) else s
  }

  /** `r` is `s[i..]` cut short, with only whitespace dropped on either side. */
  predicate TrimmedAt(s: string, i: int, r: string) {
    0 <= i <= |s| - |r| && r == s[i..i + |r|]
    && (forall k :: 0 <= k < i ==> IsSpace(s[k]))
    && (forall k :: i + |r| <= k < |s| ==> IsSpace(s[k]))
  }

  /** `s.trim()`: the slice of `s` that neither starts nor ends with
      whitespace, obtained by removing only whitespace. */
  function Trim(s: string): (r: string)
    ensures exists i :: TrimmedAt(s, i, r)
    ensures |r| > 0 ==> !IsSpace(r[0]) && !IsSpace(r[|r| - 1])
  {
    var a := TrimStart(s);
    var r := TrimEnd(a);
    var i := |s| - |a|;
    assert TrimmedAt(s, i, r);
    r
  }

  /** A string with no whitespace at either end is its own trim. */
  lemma {:induction false} TrimOfTrimmed(s: string)
    requires |s| > 0 ==> !IsSpace(s[0]) && !IsSpace(s[|s| - 1])
    ensures Trim(s) == s
  {
  }

  // ---------------------------------------------------------------------------
  // ASCII case folding
  // ---------------------------------------------------------------------------

  function AsciiLower(c: char): (r: char)
    ensures 'A' <= c <= 'Z' ==> r as int == c as int + 32
    ensures !('A' <= c <= 'Z') ==> r == c
  {
    if 'A' <= c <= 'Z' then (c as int + 32) as char else c
  }

  /** Lower-cases the ASCII letters of `s` and keeps every other character. */
  function Lower(s: string): (r: string)
    ensures |r| == |s|
    ensures forall k :: 0 <= k < |s| ==> r[k] == AsciiLower(s[k])
  {
    if |s| == 0 then [] else [AsciiLower(s[0])] + Lower(s[1..])
  }

  lemma LowerAppend(a: string, b: string)
    ensures Lower(a + b) == Lower(a) + Lower(b)
  {
  }

  /** Two characters that a case-insensitive, non-Unicode regular expression
      treats as equal: only ASCII letters fold. */
  predicate CiEq(a: char, b: char) {
    AsciiLower(a) == AsciiLower(b)
  }

  /** `pat` occurs at index `i` of `s`, ignoring ASCII case. */
  predicate CiAt(s: string, i: int, pat: string) {
    0 <= i && i + |pat| <= |s| && forall k :: 0 <= k < |pat| ==> CiEq(s[i + k], pat[k])
  }

  /** `/pat$/i`: `s` ends with `pat`, ignoring ASCII case. */
  predicate CiEndsWith(s: string, pat: string) {
    |pat| <= |s| && CiAt(s, |s| - |pat|, pat)
  }

  /** `/pat/i`: `pat` occurs somewhere in `s`, ignoring ASCII case. */
  predicate CiContains(s: string, pat: string) {
    exists i :: 0 <= i <= |s| - |pat| && CiAt(s, i, pat)
  }

  predicate IsAsciiAlnum(c: char) {
    ('a' <= c <= 'z') || ('A' <= c <= 'Z') || ('0' <= c <= '9')
  }

  /** A non-empty run of ASCII letters and digits. */
  predicate IsAlnumWord(s: string) {
    |s| > 0 && forall k :: 0 <= k < |s| ==> IsAsciiAlnum(s[k])
  }

  // ---------------------------------------------------------------------------
  // indexOf, lastIndexOf, split, join
  // ---------------------------------------------------------------------------

  /** `s.indexOf(c)`. */
  function IndexOf(s: string, c: char): (r: int)
    ensures -1 <= r < |s|
    ensures r == -1 <==> c !in s
    ensures r >= 0 ==> s[r] == c && c !in s[..r]
  {
    if |s| == 0 then -1
    else if s[0] == c then 0
    else
      var t := IndexOf(s[1..], c);
      assert s[1..][..if t < 0 then 0 else t] == s[1..1 + if t < 0 then 0 else t];
      if t < 0 then -1 else t + 1
  }

  /** `s.lastIndexOf(c)`. */
  function LastIndexOf(s: string, c: char): (r: int)
    ensures -1 <= r < |s|
    ensures r == -1 <==> c !in s
    ensures r >= 0 ==> s[r] == c && c !in s[r + 1..]
  {
    if |s| == 0 then -1
    else if s[|s| - 1] == c then |s| - 1
    else
      var t := LastIndexOf(s[..|s| - 1], c);
      assert t >= 0 ==> s[t + 1..] == s[..|s| - 1][t + 1..] + [s[|s| - 1]];
      t
  }

  /** Concatenation regroups freely. */
  lemma AppendAssoc(a: string, b: string, c: string)
    ensures a + (b + c) == a + b + c
  {
  }

  /** `parts.join(sep)`. */
  function Join(parts: seq<string>, sep: string): string {
    if |parts| == 0 then ""
    else if |parts| == 1 then parts[0]
    else parts[0] + sep + Join(parts[1..], sep)
  }

  /** `s.split(sep)` for a one-character separator: the pieces between the
      separators, at least one, none containing the separator, and joining
      them back gives `s`. */
  function Split(s: string, sep: char): (r: seq<string>)
    ensures |r| >= 1
    ensures forall k :: 0 <= k < |r| ==> sep !in r[k]
    ensures Join(r, [sep]) == s
    decreases |s|
  {
    var i := IndexOf(s, sep);
    if i < 0 then [s]
    else
      var rest := Split(s[i + 1..], sep);
      assert s == s[..i] + [sep] + s[i + 1..];
      [s[..i]] + rest
  }

  /** The first piece of `s.split(sep)` is the text before the first separator. */
  lemma {:induction false} SplitHead(s: string, sep: char)
    ensures sep !in s ==> Split(s, sep)[0] == s
    ensures sep in s ==> Split(s, sep)[0] == s[..IndexOf(s, sep)]
  {
  }

  /** Splitting a join on a separator that no part contains gives the parts
      back. */
  lemma {:induction false} SplitJoin(parts: seq<string>, sep: char)
    requires |parts| >= 1
    requires forall k :: 0 <= k < |parts| ==> sep !in parts[k]
    ensures Split(Join(parts, [sep]), sep) == parts
    decreases |parts|
  {
    if |parts| == 1 {
      assert IndexOf(parts[0], sep) == -1;
    } else {
      var s := Join(parts, [sep]);
      var tail := Join(parts[1..], [sep]);
      assert s == parts[0] + [sep] + tail;
      assert s[..|parts[0]|] == parts[0];
      assert s[|parts[0]|] == sep;
      assert IndexOf(s, sep) == |parts[0]|;
      assert s[|parts[0]| + 1..] == tail;
      SplitJoin(parts[1..], sep);
      assert Split(s, sep) == [parts[0]] + parts[1..];
    }
  }

  // ---------------------------------------------------------------------------
  // Numbers as text
  // ---------------------------------------------------------------------------

  predicate IsDigit(c: char) {
    '0' <= c <= '9'
  }

  function DigitChar(d: nat): (c: char)
    requires d < 10
    ensures IsDigit(c)
  {
    ('0' as int + d) as char
  }

  /** Decimal digits of `n`, without leading zeros (`String(n)` for n >= 0). */
  function NatToString(n: nat): (r: string)
    ensures |r| >= 1
    ensures forall k :: 0 <= k < |r| ==> IsDigit(r[k])
    ensures |r| > 1 ==> r[0] != '0'
  {
    if n < 10 then [DigitChar(n)] else NatToString(n / 10) + [DigitChar(n % 10)]
  }

  function DigitValue(c: char): (d: nat)
    requires IsDigit(c)
    ensures d < 10
  {
    c as int - '0' as int
  }

  /** The value of a string of decimal digits. */
  function ParseDigits(s: string): nat
    requires forall k :: 0 <= k < |s| ==> IsDigit(s[k])
  {
    if |s| == 0 then 0 else 10 * ParseDigits(s[..|s| - 1]) + DigitValue(s[|s| - 1])
  }

  /** Reading back the decimal text of `n` gives `n`. */
  lemma {:induction false} ParseNatToString(n: nat)
    ensures ParseDigits(NatToString(n)) == n
  {
    if n >= 10 {
      var s := NatToString(n);
      assert s[..|s| - 1] == NatToString(n / 10);
      ParseNatToString(n / 10);
    }
  }

  /** The number of digits of `n`: one below 10, two below 100, more above. */
  lemma {:induction false} NatToStringLength(n: nat)
    ensures n < 10 ==> |NatToString(n)| == 1
    ensures 10 <= n < 100 ==> |NatToString(n)| == 2
    ensures n >= 100 ==> |NatToString(n)| >= 3
  {
    if n >= 10 {
      NatToStringLength(n / 10);
    }
  }

  /** `String(n)` for an integer. */
  function IntToString(n: int): (r: string)
    ensures n >= 0 ==> r == NatToString(n)
    ensures n < 0 ==> r == "-" + NatToString(-n)
  {
    if n >= 0 then NatToString(n) else "-" + NatToString(-n)
  }

  /** `s.padStart(2, "0")`. */
  function PadStart2(s: string): (r: string)
    ensures |r| == if |s| >= 2 then |s| else 2
    ensures r[|r| - |s|..] == s
    ensures forall k :: 0 <= k < |r| - |s| ==> r[k] == '0'
  {
    if |s| >= 2 then s else seq(2 - |s|, _ => '0') + s
  }

  // ---------------------------------------------------------------------------
  // Arithmetic
  // ---------------------------------------------------------------------------

  /** JavaScript's `a % b` on integers: truncating, so the result takes the sign
      of `a`, unlike Dafny's Euclidean `%`. */
  function JsRem(a: int, b: int): (r: int)
    requires b != 0
    ensures a >= 0 ==> 0 <= r < (if b > 0 then b else -b)
    ensures a < 0 ==> -(if b > 0 then b else -b) < r <= 0
    ensures a >= 0 && b > 0 ==> r == a % b
  {
    var m := if b > 0 then b else -b;
    if a >= 0 then a % m else -((-a) % m)
  }

  function Max(a: int, b: int): (r: int)
    ensures r >= a && r >= b && (r == a || r == b)
  {
    if a >= b then a else b
  }

  function Min(a: int, b: int): (r: int)
    ensures r <= a && r <= b && (r == a || r == b)
  {
    if a <= b then a else b
  }

  lemma MulAtLeast(d: int, n: int)
    requires d >= 1 && n > 0
    ensures d * n >= n
  {
  }

  /** Euclidean division is unique: any quotient and in-range remainder are
      the ones `/` and `%` give. */
  lemma ModUnique(a: int, q: int, r: int, n: int)
    requires n > 0 && 0 <= r < n && a == q * n + r
    ensures a % n == r && a / n == q
  {
    var q', r' := a / n, a % n;
    assert (q - q') * n == r' - r;
    if q > q' {
      MulAtLeast(q - q', n);
    } else if q < q' {
      MulAtLeast(q' - q, n);
    }
  }
}

=== FILE: time_markers.dfy ===
/** The time ruler above the guide: the current time floored to the minute,
    then half-hour marks, as many as the scroll index needs, of which four are
    shown. Times are milliseconds since the epoch; the local time-zone offset
    is a parameter, and the formatted label text is not modelled. */
module TimeMarkers {
  import opened Text

  const MinuteMs := 60000
  const HalfHourMs := 30 * MinuteMs

  /** `floorNowToMinute`: `Math.floor(t / MIN) * MIN`. */
  function FloorToMinute(t: int): (r: int)
    ensures r % MinuteMs == 0
    ensures r <= t < r + MinuteMs
  {
    (t / MinuteMs) * MinuteMs
  }

  /** The floor is the only minute boundary in the minute up to `t`, so
      flooring twice changes nothing. */
  lemma FloorIsUniqueBoundary(t: int, m: int)
    requires m % MinuteMs == 0 && m <= t < m + MinuteMs
    ensures FloorToMinute(t) == m
    ensures FloorToMinute(FloorToMinute(t)) == FloorToMinute(t)
  {
    ModUnique(m, m / MinuteMs, 0, MinuteMs);
    ModUnique(t, m / MinuteMs, t - m, MinuteMs);
    var f := FloorToMinute(t);
    ModUnique(f, t / MinuteMs, 0, MinuteMs);
  }

  /** `MIN - (Date.now() % MIN)`, with JavaScript's remainder. */
  function MsUntilNextMinute(t: int): (r: int)
    ensures t >= 0 ==> 0 < r <= MinuteMs
    ensures t < 0 ==> MinuteMs <= r < 2 * MinuteMs
  {
    MinuteMs - JsRem(t, MinuteMs)
  }

  /** The first sync lands on a minute boundary: for a time after the epoch,
      the next one (a full minute later when already on a boundary); before
      the epoch the remainder's sign makes it wait one boundary longer. */
  lemma NextMinuteBoundary(t: int)
    ensures (t + MsUntilNextMinute(t)) % MinuteMs == 0
    ensures t >= 0 ==> t + MsUntilNextMinute(t) == FloorToMinute(t) + MinuteMs
    ensures t < 0 && t % MinuteMs != 0 ==> t + MsUntilNextMinute(t) == FloorToMinute(t) + 2 * MinuteMs
  {
    var q := t / MinuteMs;
    if t >= 0 {
      ModUnique(t + MsUntilNextMinute(t), q + 1, 0, MinuteMs);
    } else {
      var p := (-t) / MinuteMs;
      var s := (-t) % MinuteMs;
      assert t + MsUntilNextMinute(t) == (1 - p) * MinuteMs;
      ModUnique((1 - p) * MinuteMs, 1 - p, 0, MinuteMs);
      if s != 0 {
        ModUnique(t, -p - 1, MinuteMs - s, MinuteMs);
        ModUnique(t, q, t % MinuteMs, MinuteMs);
        assert t % MinuteMs != 0;
      }
    }
  }

  /** `now.getMinutes()`: the minute of the hour in local time. */
  function MinuteOfHour(t: int, offsetMs: int): (m: int)
    ensures 0 <= m < 60
  {
    ((t + offsetMs) / MinuteMs) % 60
  }

  /** Minutes to the next :00 or :30. */
  function MinutesToNext30(m: int): (r: int)
    requires 0 <= m < 60
    ensures 1 <= r <= 30
    ensures m + r == 30 || m + r == 60
    ensures m < 30 <==> m + r == 30
  {
    (if m < 30 then 30 else 60) - m
  }

  /** The time of marker `k`: now, then the next half hour, then every half
      hour after it. */
  function MarkerAt(now: int, offsetMs: int, k: nat): int {
    if k == 0 then now
    else now + MinutesToNext30(MinuteOfHour(now, offsetMs)) * MinuteMs + (k - 1) * HalfHourMs
  }

  /** The `timeMarkers` memo: the first two markers, then one more half hour
      at a time while there are fewer than `index + 4`. Each marker's key is
      its time. */
  method Markers(now: int, offsetMs: int, index: nat) returns (keys: seq<int>)
    ensures |keys| == index + 4
    ensures forall k :: 0 <= k < |keys| ==> keys[k] == MarkerAt(now, offsetMs, k)
    ensures forall j, k :: 0 <= j < k < |keys| ==> keys[j] < keys[k]
  {
    var toNext := MinutesToNext30(MinuteOfHour(now, offsetMs));
    keys := [now, now + toNext * MinuteMs];
    var needed := index + 4;
    while |keys| < needed
      invariant 2 <= |keys| <= needed
      invariant forall k :: 0 <= k < |keys| ==> keys[k] == MarkerAt(now, offsetMs, k)
      decreases needed - |keys|
    {
      keys := keys + [keys[|keys| - 1] + HalfHourMs];
    }
  }

  /** Shifting a time by whole minutes shifts its minute of the hour by as
      many, modulo 60. */
  lemma ShiftMinuteOfHour(t: int, offsetMs: int, j: int)
    ensures MinuteOfHour(t + j * MinuteMs, offsetMs) == (MinuteOfHour(t, offsetMs) + j) % 60
  {
    var x := t + offsetMs;
    var q := x / MinuteMs;
    ModUnique(x + j * MinuteMs, q + j, x % MinuteMs, MinuteMs);
    var s := q % 60 + j;
    ModUnique(q + j, q / 60 + s / 60, s % 60, 60);
  }

  /** Every marker after the first falls on a half hour of local time. */
  lemma MarkersOnHalfHours(now: int, offsetMs: int, k: nat)
    requires k >= 1
    ensures MinuteOfHour(MarkerAt(now, offsetMs, k), offsetMs) in {0, 30}
  {
    var m := MinuteOfHour(now, offsetMs);
    var d := MinutesToNext30(m);
    var j := d + 30 * (k - 1);
    assert MarkerAt(now, offsetMs, k) == now + j * MinuteMs;
    ShiftMinuteOfHour(now, offsetMs, j);
    var c := if m < 30 then k else k + 1;
    assert m + j == 30 * c;
    ModUnique(30 * c, c / 2, 30 * (c % 2), 60);
  }

  /** The four markers on screen: the slice starting at the scroll index. */
  function Window(keys: seq<int>, index: nat): (r: seq<int>)
    requires |keys| == index + 4
    ensures |r| == 4
    ensures forall k :: 0 <= k < 4 ==> r[k] == keys[index + k]
  {
    keys[index..index + 4]
  }

  /** The window always holds exactly four markers with distinct keys, half
      an hour apart after the first. */
  method VisibleMarkers(now: int, offsetMs: int, index: nat) returns (window: seq<int>)
    ensures |window| == 4
    ensures forall j, k :: 0 <= j < k < 4 ==> window[j] < window[k]
    ensures index >= 1 ==> forall k :: 0 <= k < 3 ==> window[k + 1] - window[k] == HalfHourMs
    ensures forall k :: 0 <= k < 4 ==> window[k] == MarkerAt(now, offsetMs, index + k)
  {
    var keys := Markers(now, offsetMs, index);
    window := Window(keys, index);
  }

  // ===========================================================================
  // The key handler
  // ===========================================================================

  datatype Key = ArrowLeft | ArrowRight | OtherKey

  /** ArrowLeft moves the window back one marker but not before the first;
      ArrowRight moves it forward without bound. */
  function MoveIndex(prev: int, key: Key): (r: int)
    ensures prev >= 0 ==> r >= 0
    ensures key == ArrowRight ==> r == prev + 1
    ensures key == ArrowLeft && prev >= 1 ==> r == prev - 1
    ensures key == ArrowLeft && prev < 1 ==> r == 0
    ensures key == OtherKey ==> r == prev
  {
    match key
    case ArrowLeft => if prev - 1 < 0 then 0 else prev - 1
    case ArrowRight => prev + 1
    case OtherKey => prev
  }

  function MoveIndexAll(prev: int, keys: seq<Key>): int
    decreases |keys|
  {
    if |keys| == 0 then prev else MoveIndexAll(MoveIndex(prev, keys[0]), keys[1..])
  }

  /** The index starts at 0 and no key sequence makes it negative, so the
      marker list is never shorter than four. */
  lemma {:induction false} IndexNeverNegative(prev: int, keys: seq<Key>)
    requires prev >= 0
    ensures MoveIndexAll(prev, keys) >= 0
    decreases |keys|
  {
    if |keys| > 0 {
      IndexNeverNegative(MoveIndex(prev, keys[0]), keys[1..]);
    }
  }

  /** Right then Left is the identity; Left then Right is too, except at the
      first marker. */
  lemma LeftRightInverse(prev: int)
    requires prev >= 0
    ensures MoveIndex(MoveIndex(prev, ArrowRight), ArrowLeft) == prev
    ensures prev >= 1 ==> MoveIndex(MoveIndex(prev, ArrowLeft), ArrowRight) == prev
    ensures prev == 0 ==> MoveIndex(MoveIndex(prev, ArrowLeft), ArrowRight) == 1
  {
  }
}

=== FILE: tmdb_route.dfy ===
/** The TMDB proxy route: query validation, the upstream path, and how the
    upstream answer is passed on. The API key is a parameter and the
    upstream fetch is its answer. */
module TmdbRoute {
  import opened Wrappers
  import opened Text

  /** The query-string parameters; absent ones are `None`. */
  datatype Query = Query(id: Option<string>, kind: Option<string>, season: Option<string>, episode: Option<string>)

  /** What the upstream fetch produced: a response (whose text or JSON body
      may fail to read) or a thrown network error. */
  datatype Upstream =
    | Responded(status: int, text: Option<string>, json: Option<string>)
    | NetworkError

  datatype Body =
    | ErrorBody(error: string, details: Option<string>, upstreamStatus: Option<int>)
    | DataBody(data: string)

  /** The route's response, and the URL it fetched, if any. */
  datatype Reply = Reply(status: int, body: Body, cacheControl: Option<string>, fetched: Option<string>)

  const ApiBase := "https://api.themoviedb.org/3/"
  const CacheControl := "public, max-age=3600"

  predicate Truthy(s: Option<string>) {
    s.Some? && s.value != ""
  }

  predicate IsOk(status: int) {
    200 <= status <= 299
  }

  /** The query the route accepts: id and type present, type "movie" or
      "tv". */
  predicate Valid(q: Query) {
    Truthy(q.id) && Truthy(q.kind) && (q.kind.value == "movie" || q.kind.value == "tv")
  }

  /** `${type}/${id}`, then `/season/${season}` when season is given, and
      `/episode/${episode}` only inside that. */
  function Path(q: Query): string
    requires Valid(q)
  {
    var p := ApiBase + q.kind.value + "/" + q.id.value;
    if Truthy(q.season) then
      var p := p + "/season/" + q.season.value;
      if Truthy(q.episode) then p + "/episode/" + q.episode.value else p
    else p
  }

  /** `GET`. */
  function Get(q: Query, apiKey: string, upstream: Upstream): (r: Reply)
    ensures !Truthy(q.id) || !Truthy(q.kind) ==>
      r == Reply(400, ErrorBody("Missing TMDB id or type", None, None), None, None)
    ensures Truthy(q.id) && Truthy(q.kind) && !Valid(q) ==>
      r == Reply(400, ErrorBody("Type must be 'movie' or 'tv'", None, None), None, None)
    ensures Valid(q) ==> r.fetched == Some(Path(q) + "?api_key=" + apiKey)
    ensures Valid(q) && upstream.Responded? && !IsOk(upstream.status) ==>
      && r.status == upstream.status
      && r.body == ErrorBody("TMDB API error", Some(upstream.text.GetOr("Unknown error")), Some(upstream.status))
    ensures Valid(q) && upstream.Responded? && IsOk(upstream.status) && upstream.json.Some? ==>
      r.status == 200 && r.body == DataBody(upstream.json.value) && r.cacheControl == Some(CacheControl)
    ensures Valid(q) && (upstream.NetworkError? || (IsOk(upstream.status) && upstream.json.None?)) ==>
      r.status == 500 && r.body == ErrorBody("Failed to retrieve TMDB data", None, None)
    ensures r.cacheControl.Some? <==> r.status == 200
  {
    if !Truthy(q.id) || !Truthy(q.kind) then
      Reply(400, ErrorBody("Missing TMDB id or type", None, None), None, None)
    else if !(q.kind.value == "movie" || q.kind.value == "tv") then
      Reply(400, ErrorBody("Type must be 'movie' or 'tv'", None, None), None, None)
    else
      var url := Some(Path(q) + "?api_key=" + apiKey);
      match upstream
      case NetworkError => Reply(500, ErrorBody("Failed to retrieve TMDB data", None, None), None, url)
      case Responded(status, text, json) =>
        if !IsOk(status) then
          Reply(status, ErrorBody("TMDB API error", Some(text.GetOr("Unknown error")), Some(status)), None, url)
        else if json.None? then
          Reply(500, ErrorBody("Failed to retrieve TMDB data", None, None), None, url)
        else Reply(200, DataBody(json.value), Some(CacheControl), url)
  }

  /** The path after the API base, as a '/'-joined list of segments. */
  function Segments(q: Query): seq<string>
    requires Valid(q)
  {
    var head := [q.kind.value, q.id.value];
    if !Truthy(q.season) then head
    else if !Truthy(q.episode) then head + ["season", q.season.value]
    else head + ["season", q.season.value, "episode", q.episode.value]
  }

  lemma PairJoin(xs: seq<string>, name: string, v: string)
    requires |xs| >= 1
    ensures Join(xs + [name, v], "/") == Join(xs, "/") + "/" + name + "/" + v
  {
    JoinSnoc(xs, name, "/");
    assert xs + [name] + [v] == xs + [name, v];
    JoinSnoc(xs + [name], v, "/");
  }

  /** Appending `/name/v` to a path built from joined segments is joining
      two more segments. */
  lemma ExtendPath(base: string, xs: seq<string>, name: string, v: string)
    requires |xs| >= 1
    ensures base + Join(xs + [name, v], "/") == base + Join(xs, "/") + ("/" + name + "/") + v
  {
    var j := Join(xs, "/");
    PairJoin(xs, name, v);
    AppendAssoc(j + "/", name, "/");
    AppendAssoc(j, "/", name + "/");
    AppendAssoc("/", name, "/");
    AppendAssoc(base, j + ("/" + name + "/"), v);
    AppendAssoc(base, j, "/" + name + "/");
  }

  /** The API base followed by the segments joined with '/' is the path. */
  lemma SegmentsJoin(q: Query)
    requires Valid(q)
    ensures ApiBase + Join(Segments(q), "/") == Path(q)
  {
    var head := [q.kind.value, q.id.value];
    assert ApiBase + Join(head, "/") == ApiBase + q.kind.value + "/" + q.id.value;
    if Truthy(q.season) {
      var s := q.season.value;
      assert "/" + "season" + "/" == "/season/";
      ExtendPath(ApiBase, head, "season", s);
      if Truthy(q.episode) {
        var e := q.episode.value;
        assert "/" + "episode" + "/" == "/episode/";
        ExtendPath(ApiBase, head + ["season", s], "episode", e);
        assert head + ["season", s] + ["episode", e] == head + ["season", s, "episode", e];
      }
    }
  }

  /** The path read back: it starts with the API base, and the rest split on
      '/' is the type and the id, then "season" and the season only when one
      was given, then "episode" and the episode only when both were. */
  lemma PathSegments(q: Query)
    requires Valid(q)
    requires '/' !in q.id.value && '/' !in q.kind.value
    requires q.season.Some? ==> '/' !in q.season.value
    requires q.episode.Some? ==> '/' !in q.episode.value
    ensures |ApiBase| <= |Path(q)| && Path(q)[..|ApiBase|] == ApiBase
    ensures var head := [q.kind.value, q.id.value];
      Split(Path(q)[|ApiBase|..], '/') ==
        if !Truthy(q.season) then head
        else if !Truthy(q.episode) then head + ["season", q.season.value]
        else head + ["season", q.season.value, "episode", q.episode.value]
  {
    SegmentsJoin(q);
    var parts := Segments(q);
    var tail := Join(parts, "/");
    assert Path(q)[..|ApiBase|] == ApiBase && Path(q)[|ApiBase|..] == tail;
    assert '/' !in "season" && '/' !in "episode";
    assert forall k :: 0 <= k < |parts| ==> '/' !in parts[k];
    SplitJoin(parts, '/');
  }

  /** Appending one part to a non-empty list adds the separator and the
      part. */
  lemma {:induction false} JoinSnoc(xs: seq<string>, x: string, sep: string)
    requires |xs| >= 1
    ensures Join(xs + [x], sep) == Join(xs, sep) + sep + x
    decreases |xs|
  {
    if |xs| == 1 {
      assert (xs + [x])[1..] == [x];
    } else {
      assert (xs + [x])[1..] == xs[1..] + [x];
      JoinSnoc(xs[1..], x, sep);
    }
  }
}

=== FILE: trakt_start.dfy ===
/** The start of the Trakt OAuth flow: a PKCE verifier from 32 random bytes,
    its S256 challenge, the verifier saved in the session, and the authorize
    URL. Randomness, SHA-256, the environment and the clock are parameters. */
module TraktStart {
  import opened Wrappers
  import opened Text
  import StremThruRoute
  import SessionStore

  type Byte = b: nat | b < 256

  // ===========================================================================
  // Base64 (section 4 of RFC 4648) and base64url (section 5 of RFC 4648)
  // ===========================================================================

  /** Three bytes as four 6-bit values. */
  function Group(b0: Byte, b1: Byte, b2: Byte): (r: seq<nat>)
    ensures |r| == 4 && forall k :: 0 <= k < 4 ==> r[k] < 64
  {
    [b0 / 4, (b0 % 4) * 16 + b1 / 16, (b1 % 16) * 4 + b2 / 64, b2 % 64]
  }

  /** The 6-bit values of the encoding of `bs`, before padding: every three
      bytes give four values; a trailing one or two bytes are completed with
      zero bits and give two or three. */
  function Sextets(bs: seq<Byte>): (r: seq<nat>)
    ensures |r| == (4 * |bs| + 2) / 3
    ensures forall k :: 0 <= k < |r| ==> r[k] < 64
    decreases |bs|
  {
    if |bs| == 0 then []
    else if |bs| == 1 then Group(bs[0], 0, 0)[..2]
    else if |bs| == 2 then Group(bs[0], bs[1], 0)[..3]
    else Group(bs[0], bs[1], bs[2]) + Sextets(bs[3..])
  }

  /** The alphabet of section 5 of RFC 4648. */
  predicate IsUrlChar(c: char) {
    ('A' <= c <= 'Z') || ('a' <= c <= 'z') || ('0' <= c <= '9') || c == '-' || c == '_'
  }

  function UrlChar(v: nat): (c: char)
    requires v < 64
    ensures IsUrlChar(c)
  {
    if v < 26 then ('A' as int + v) as char
    else if v < 52 then ('a' as int + v - 26) as char
    else if v < 62 then ('0' as int + v - 52) as char
    else if v == 62 then '-'
    else '_'
  }

  /** The alphabet of section 4 of RFC 4648: the same but for '+' and '/'. */
  function StdChar(v: nat): char
    requires v < 64
  {
    if v == 62 then '+' else if v == 63 then '/' else UrlChar(v)
  }

  /** The '=' padding that completes the last group of four. */
  function Padding(n: nat): string {
    if n % 3 == 1 then "==" else if n % 3 == 2 then "=" else ""
  }

  /** `Buffer.toString("base64")`. */
  function Base64(bs: seq<Byte>): string {
    var vs := Sextets(bs);
    seq(|vs|, k requires 0 <= k < |vs| => StdChar(vs[k])) + Padding(|bs|)
  }

  /** Unpadded base64url, written directly. */
  function UrlNoPad(bs: seq<Byte>): (r: string)
    ensures |r| == (4 * |bs| + 2) / 3
    ensures forall k :: 0 <= k < |r| ==> IsUrlChar(r[k])
  {
    var vs := Sextets(bs);
    seq(|vs|, k requires 0 <= k < |vs| => UrlChar(vs[k]))
  }

  /** `.replace(/a/g, b)` for a single character. */
  function ReplaceAll(s: string, a: char, b: char): (r: string)
    ensures |r| == |s|
    ensures forall k :: 0 <= k < |s| ==> r[k] == (if s[k] == a then b else s[k])
  {
    seq(|s|, k requires 0 <= k < |s| => if s[k] == a then b else s[k])
  }

  /** `.replace(/c+$/g, "")`: removes the trailing run of `c`. */
  function StripTrailing(s: string, c: char): (r: string)
    ensures |r| <= |s| && r == s[..|r|]
    ensures |r| == 0 || r[|r| - 1] != c
    ensures forall k :: |r| <= k < |s| ==> s[k] == c
    decreases |s|
  {
    if |s| > 0 && s[|s| - 1] == c then StripTrailing(s[..|s| - 1], c) else s
  }

  /** `b64URL`. */
  function B64Url(bs: seq<Byte>): string {
    StripTrailing(ReplaceAll(ReplaceAll(Base64(bs), '+', '-'), '/', '_'), '=')
  }

  /** Removing a run of '=' from a text that does not itself end in '='
      gives the text back. */
  lemma {:induction false} StripPadding(x: string, pad: string)
    requires |x| == 0 || x[|x| - 1] != '='
    requires forall k :: 0 <= k < |pad| ==> pad[k] == '='
    ensures StripTrailing(x + pad, '=') == x
    decreases |pad|
  {
    if |pad| > 0 {
      var p := pad[..|pad| - 1];
      assert (x + pad)[..|x + pad| - 1] == x + p;
      StripPadding(x, p);
    } else {
      assert x + pad == x;
    }
  }

  /** `b64URL` is unpadded base64url: the two replacements turn the alphabet
      of section 4 of RFC 4648 into that of its section 5, and the final
      replacement removes exactly the padding. */
  lemma B64UrlIsUnpadded(bs: seq<Byte>)
    ensures B64Url(bs) == UrlNoPad(bs)
  {
    var vs := Sextets(bs);
    var x := UrlNoPad(bs);
    var pad := Padding(|bs|);
    var swapped := ReplaceAll(ReplaceAll(Base64(bs), '+', '-'), '/', '_');
    assert swapped == x + pad by {
      assert |swapped| == |x + pad|;
      forall k | 0 <= k < |swapped| ensures swapped[k] == (x + pad)[k] {
        if k < |vs| {
          assert Base64(bs)[k] == StdChar(vs[k]);
        } else {
          assert Base64(bs)[k] == pad[k - |vs|];
        }
      }
    }
    assert forall k :: 0 <= k < |pad| ==> pad[k] == '=';
    StripPadding(x, pad);
  }

  /** The `b64URL` output uses only the alphabet of section 5 of RFC 4648,
      so it has no '+', '/' or '=', and it is ceil(4n/3) characters long. */
  lemma B64UrlShape(bs: seq<Byte>)
    ensures var r := B64Url(bs);
      && |r| == (4 * |bs| + 2) / 3
      && (forall k :: 0 <= k < |r| ==> IsUrlChar(r[k]))
      && '+' !in r && '/' !in r && '=' !in r
  {
    B64UrlIsUnpadded(bs);
  }

  // ===========================================================================
  // The decoder, as the authorization server reads the values back
  // ===========================================================================

  function UrlIndex(c: char): (r: Option<nat>)
    ensures r.Some? <==> IsUrlChar(c)
    ensures r.Some? ==> r.value < 64 && UrlChar(r.value) == c
  {
    if 'A' <= c <= 'Z' then Some(c as nat - 'A' as nat)
    else if 'a' <= c <= 'z' then Some(c as nat - 'a' as nat + 26)
    else if '0' <= c <= '9' then Some(c as nat - '0' as nat + 52)
    else if c == '-' then Some(62)
    else if c == '_' then Some(63)
    else None
  }

  /** The 6-bit values of a base64url text; `None` on a character outside the
      alphabet. */
  function Indices(s: string): (r: Option<seq<nat>>)
    ensures r.Some? ==> |r.value| == |s| && forall k :: 0 <= k < |s| ==> r.value[k] < 64
  {
    if |s| == 0 then Some([])
    else
      var v :- UrlIndex(s[0]);
      var rest :- Indices(s[1..]);
      Some([v] + rest)
  }

  /** Four 6-bit values as three bytes. */
  function Ungroup(vs: seq<nat>): (r: seq<Byte>)
    requires |vs| == 4 && forall k :: 0 <= k < 4 ==> vs[k] < 64
    ensures |r| == 3
  {
    [vs[0] * 4 + vs[1] / 16, (vs[1] % 16) * 16 + vs[2] / 4, (vs[2] % 4) * 64 + vs[3]]
  }

  /** Groups of four values back to three bytes; a final two or three values
      are completed with zeros and give one or two bytes, and a single one is
      malformed. */
  function Unsextets(vs: seq<nat>): Option<seq<Byte>>
    requires forall k :: 0 <= k < |vs| ==> vs[k] < 64
    decreases |vs|
  {
    if |vs| == 0 then Some([])
    else if |vs| == 1 then None
    else if |vs| == 2 then Some(Ungroup(vs + [0, 0])[..1])
    else if |vs| == 3 then Some(Ungroup(vs + [0])[..2])
    else
      var rest :- Unsextets(vs[4..]);
      Some(Ungroup(vs[..4]) + rest)
  }

  function DecodeUrl(s: string): Option<seq<Byte>> {
    var vs :- Indices(s);
    Unsextets(vs)
  }

  lemma {:induction false} IndicesOfUrlChars(vs: seq<nat>)
    requires forall k :: 0 <= k < |vs| ==> vs[k] < 64
    ensures Indices(seq(|vs|, k requires 0 <= k < |vs| => UrlChar(vs[k]))) == Some(vs)
    decreases |vs|
  {
    var s := seq(|vs|, k requires 0 <= k < |vs| => UrlChar(vs[k]));
    if |vs| > 0 {
      var tail := vs[1..];
      var st := seq(|tail|, k requires 0 <= k < |tail| => UrlChar(tail[k]));
      assert s[1..] == st;
      IndicesOfUrlChars(tail);
      assert vs == [vs[0]] + tail;
    }
  }

  /** One group: three bytes to four values and back. */
  lemma GroupRoundTrip(b0: Byte, b1: Byte, b2: Byte)
    ensures Ungroup(Group(b0, b1, b2)) == [b0, b1, b2]
  {
  }

  lemma {:induction false} UnsextetsOfSextets(bs: seq<Byte>)
    ensures Unsextets(Sextets(bs)) == Some(bs)
    decreases |bs|
  {
    if |bs| >= 3 {
      var g := Group(bs[0], bs[1], bs[2]);
      var vs := Sextets(bs);
      assert vs == g + Sextets(bs[3..]);
      assert vs[..4] == g && vs[4..] == Sextets(bs[3..]);
      UnsextetsOfSextets(bs[3..]);
      GroupRoundTrip(bs[0], bs[1], bs[2]);
      assert bs == [bs[0], bs[1], bs[2]] + bs[3..];
    } else if |bs| == 2 {
      var g := Group(bs[0], bs[1], 0);
      assert Sextets(bs) + [0] == g;
      GroupRoundTrip(bs[0], bs[1], 0);
      assert Ungroup(g)[..2] == [bs[0], bs[1]];
      assert bs == [bs[0], bs[1]];
    } else if |bs| == 1 {
      var g := Group(bs[0], 0, 0);
      assert Sextets(bs) + [0, 0] == g;
      GroupRoundTrip(bs[0], 0, 0);
      assert Ungroup(g)[..1] == [bs[0]];
      assert bs == [bs[0]];
    }
  }

  /** Decoding the `b64URL` encoding of any bytes gives them back. */
  lemma B64UrlRoundTrip(bs: seq<Byte>)
    ensures DecodeUrl(B64Url(bs)) == Some(bs)
  {
    B64UrlIsUnpadded(bs);
    IndicesOfUrlChars(Sextets(bs));
    UnsextetsOfSextets(bs);
  }

  // ===========================================================================
  // PKCE (RFC 7636)
  // ===========================================================================

  /** The verifier: `b64URL` of 32 random bytes. */
  function Verifier(random: seq<Byte>): string
    requires |random| == 32
  {
    B64Url(random)
  }

  /** The verifier is 43 characters, each an unreserved character of section
      4.1 of RFC 7636, whose length rule is 43 to 128. */
  lemma VerifierShape(random: seq<Byte>)
    requires |random| == 32
    ensures var v := Verifier(random);
      && |v| == 43
      && forall k :: 0 <= k < |v| ==> IsUrlChar(v[k])
  {
    B64UrlShape(random);
  }

  /** `new TextEncoder().encode(s)`: the UTF-8 bytes of each character in
      turn. */
  function Utf8Bytes(s: string): (r: seq<Byte>)
    ensures (forall k :: 0 <= k < |s| ==> s[k] as int < 0x80) ==>
      |r| == |s| && forall k :: 0 <= k < |s| ==> r[k] == s[k] as nat
  {
    if |s| == 0 then []
    else
      var u := StremThruRoute.Utf8(s[0] as nat);
      seq(|u|, k requires 0 <= k < |u| => u[k]) + Utf8Bytes(s[1..])
  }

  /** The S256 challenge of section 4.2 of RFC 7636, with the digest as a
      parameter. */
  function Challenge(verifier: string, sha256: seq<Byte> -> seq<Byte>): string {
    B64Url(sha256(Utf8Bytes(verifier)))
  }

  // ===========================================================================
  // The authorize URL
  // ===========================================================================

  const AuthorizeBase := "https://trakt.tv/oauth/authorize?"

  /** An unset environment variable becomes the text "undefined". */
  function EnvText(v: Option<string>): string {
    v.GetOr("undefined")
  }

  /** The characters `application/x-www-form-urlencoded` leaves alone. */
  predicate IsFormSafe(c: char) {
    IsAsciiAlnum(c) || c == '*' || c == '-' || c == '.' || c == '_'
  }

  function FormChar(c: char): string {
    if c == ' ' then "+"
    else if IsFormSafe(c) then [c]
    else StremThruRoute.PercentBytes(StremThruRoute.Utf8(c as nat))
  }

  /** A name or value as `URLSearchParams` serializes it. */
  function FormEncode(s: string): string {
    if |s| == 0 then "" else FormChar(s[0]) + FormEncode(s[1..])
  }

  /** `name=value` pairs joined with '&'. */
  function Serialize(params: seq<(string, string)>): string {
    Join(seq(|params|, k requires 0 <= k < |params| => FormEncode(params[k].0) + "=" + FormEncode(params[k].1)), "&")
  }

  datatype Started = Started(
    params: seq<(string, string)>,
    url: string,
    store: SessionStore.Store)

  /** The `URLSearchParams` record, in the order the source lists it: the
      client id (the text "undefined" when unset), the challenge, the method
      S256, the redirect URI and the response type "code". */
  function Params(clientId: Option<string>, challenge: string, redirectUri: Option<string>): (r: seq<(string, string)>)
    ensures |r| == 5
    ensures r[0] == ("client_id", EnvText(clientId))
    ensures r[1] == ("code_challenge", challenge)
    ensures r[2] == ("code_challenge_method", "S256")
    ensures r[3] == ("redirect_uri", EnvText(redirectUri))
    ensures r[4] == ("response_type", "code")
  {
    [("client_id", EnvText(clientId)),
     ("code_challenge", challenge),
     ("code_challenge_method", "S256"),
     ("redirect_uri", EnvText(redirectUri)),
     ("response_type", "code")]
  }

  /** `GET`: the verifier and challenge from the random bytes, the verifier
      saved in the session, and the authorize URL. */
  function Start(
    sessionId: string, random: seq<Byte>, sha256: seq<Byte> -> seq<Byte>,
    clientId: Option<string>, redirectUri: Option<string>,
    store: SessionStore.Store, now: int): (r: Started)
    requires |random| == 32
    ensures var s := SessionStore.GetSession(r.store, sessionId);
      var prev := SessionStore.GetSession(store, sessionId);
      && s.Some? && s.value.pkceVerifier == Some(Verifier(random)) && s.value.updatedAt == now
      && s.value.trakt == (if prev.Some? then prev.value.trakt else None)
      && s.value.rd == (if prev.Some? then prev.value.rd else None)
    ensures r.params == Params(clientId, Challenge(Verifier(random), sha256), redirectUri)
    ensures |r.params| == 5 && r.params[1] == ("code_challenge", Challenge(Verifier(random), sha256))
    ensures r.url == AuthorizeBase + Serialize(r.params)
  {
    var verifier := Verifier(random);
    SessionStore.SetThenGet(store, sessionId, SessionStore.Patch(None, None, Some(verifier), None), now);
    var store' := SessionStore.SetSession(store, sessionId,
      SessionStore.Patch(None, None, Some(verifier), None), now);
    var params := Params(clientId, Challenge(verifier, sha256), redirectUri);
    Started(params, AuthorizeBase + Serialize(params), store')
  }

  /** Characters of the base64url alphabet pass through form encoding. */
  lemma {:induction false} FormEncodeUrlChars(s: string)
    requires forall k :: 0 <= k < |s| ==> IsUrlChar(s[k])
    ensures FormEncode(s) == s
    decreases |s|
  {
    if |s| > 0 {
      FormEncodeUrlChars(s[1..]);
      assert s == [s[0]] + s[1..];
    }
  }

  /** What the authorization server gets to check: the session now holds a
      verifier of 32 bytes, the URL carries its S256 challenge unchanged, and
      decoding the challenge gives the digest of the verifier back. */
  lemma StartPairsVerifierAndChallenge(
    sessionId: string, random: seq<Byte>, sha256: seq<Byte> -> seq<Byte>,
    clientId: Option<string>, redirectUri: Option<string>,
    store: SessionStore.Store, now: int)
    requires |random| == 32
    ensures var r := Start(sessionId, random, sha256, clientId, redirectUri, store, now);
      var s := SessionStore.GetSession(r.store, sessionId);
      && s.Some? && s.value.pkceVerifier.Some?
      && DecodeUrl(s.value.pkceVerifier.value) == Some(random)
      && |s.value.pkceVerifier.value| == 43
      && r.params[1].0 == "code_challenge"
      && FormEncode(r.params[1].1) == r.params[1].1
      && DecodeUrl(r.params[1].1) == Some(sha256(Utf8Bytes(s.value.pkceVerifier.value)))
  {
    var r := Start(sessionId, random, sha256, clientId, redirectUri, store, now);
    VerifierShape(random);
    var verifier := Verifier(random);
    SessionStore.SetThenGet(store, sessionId, SessionStore.Patch(None, None, Some(verifier), None), now);
    B64UrlRoundTrip(random);
    var digest := sha256(Utf8Bytes(verifier));
    B64UrlRoundTrip(digest);
    B64UrlShape(digest);
    FormEncodeUrlChars(B64Url(digest));
  }

  /** Every other session is untouched by the start of the flow. */
  lemma StartTouchesOnlyItsSession(
    sessionId: string, other: string, random: seq<Byte>, sha256: seq<Byte> -> seq<Byte>,
    clientId: Option<string>, redirectUri: Option<string>,
    store: SessionStore.Store, now: int)
    requires |random| == 32
    requires other != sessionId
    ensures var r := Start(sessionId, random, sha256, clientId, redirectUri, store, now);
      SessionStore.GetSession(r.store, other) == SessionStore.GetSession(store, other)
  {
    VerifierShape(random);
    SessionStore.SessionsIsolated(store, sessionId, other,
      SessionStore.Patch(None, None, Some(Verifier(random)), None), now);
  }
}

=== FILE: video_pane.dfy ===
/** The player's MIME guess from a stream URL: three case-insensitive
    regular expressions `\.(ext)(\?|$)`, tried in a fixed order. */
module VideoPane {
  import opened Wrappers
  import opened Text

  /** `.ext` occurs at index `i` of `url`, ignoring ASCII case, and is
      followed by '?' or by the end of the URL. */
  predicate ExtAt(url: string, i: int, ext: string) {
    0 <= i < |url| && url[i] == '.' && CiAt(url, i + 1, ext)
    && (i + 1 + |ext| == |url| || url[i + 1 + |ext|] == '?')
  }

  /** The regular expression `/\.(ext)(\?|$)/i` matches somewhere in `url`. */
  ghost predicate HasExt(url: string, ext: string) {
    exists i :: ExtAt(url, i, ext)
  }

  /** Scans `url` from index `i` for a match, the way the regular expression
      engine tries each start position in turn. */
  function ScanFrom(url: string, ext: string, i: nat): (r: bool)
    requires i <= |url|
    ensures r <==> exists j :: i <= j && ExtAt(url, j, ext)
    decreases |url| - i
  {
    if i == |url| then false
    else ExtAt(url, i, ext) || ScanFrom(url, ext, i + 1)
  }

  function Scan(url: string, ext: string): (r: bool)
    ensures r <==> HasExt(url, ext)
  {
    ScanFrom(url, ext, 0)
  }

  const Mp4Type := "video/mp4"
  const QuickTimeType := "video/quicktime"
  const MatroskaType := "video/x-matroska"

  /** `guessMime`: nothing for a missing or empty URL; otherwise mp4/m4v,
      then mov, then mkv, each only before '?' or the end of the URL. */
  function GuessMime(url: Option<string>): (r: Option<string>)
    ensures url.None? || url == Some("") ==> r.None?
    ensures r == Some(Mp4Type) <==>
      url.Some? && (HasExt(url.value, "mp4") || HasExt(url.value, "m4v"))
    ensures r == Some(QuickTimeType) <==>
      url.Some? && !HasExt(url.value, "mp4") && !HasExt(url.value, "m4v") && HasExt(url.value, "mov")
    ensures r == Some(MatroskaType) <==>
      url.Some? && !HasExt(url.value, "mp4") && !HasExt(url.value, "m4v") && !HasExt(url.value, "mov")
      && HasExt(url.value, "mkv")
    ensures r.None? <==>
      url.None? || (!HasExt(url.value, "mp4") && !HasExt(url.value, "m4v")
                    && !HasExt(url.value, "mov") && !HasExt(url.value, "mkv"))
  {
    match url
    case None => None
    case Some(u) =>
      if u == "" then None
      else if Scan(u, "mp4") || Scan(u, "m4v") then Some(Mp4Type)
      else if Scan(u, "mov") then Some(QuickTimeType)
      else if Scan(u, "mkv") then Some(MatroskaType)
      else None
  }

  /** A URL whose path ends in `.ext`, optionally followed by a query string,
      matches `ext` whatever comes before it. */
  lemma SuffixMatches(stem: string, ext: string, query: string)
    requires query == "" || query[0] == '?'
    ensures HasExt(stem + "." + ext + query, ext)
  {
    var u := stem + "." + ext + query;
    var i := |stem|;
    assert u[i] == '.';
    forall k | 0 <= k < |ext| ensures CiEq(u[i + 1 + k], ext[k]) {
      assert u[i + 1 + k] == ext[k];
    }
    assert ExtAt(u, i, ext);
  }

  /** Any `.mp4` or `.m4v` URL, with or without a query string, is played as
      MP4, even when `.mov` or `.mkv` also appears in it. */
  lemma Mp4Wins(stem: string, ext: string, query: string)
    requires ext == "mp4" || ext == "m4v"
    requires query == "" || query[0] == '?'
    ensures GuessMime(Some(stem + "." + ext + query)) == Some(Mp4Type)
  {
    SuffixMatches(stem, ext, query);
  }

  /** An extension followed by '/' does not count: a URL with only such
      occurrences and no other '.' gets no type. */
  lemma SlashAfterExtensionGivesNothing(host: string, ext: string, rest: string)
    requires '.' !in host && '.' !in rest
    requires |ext| == 3 && '.' !in ext
    ensures GuessMime(Some(host + "." + ext + "/" + rest)).None?
  {
    var u := host + "." + ext + "/" + rest;
    forall e: string, i | |e| == 3 ensures !ExtAt(u, i, e) {
      if 0 <= i < |u| && i != |host| {
        if i < |host| {
          assert u[i] == host[i];
        } else if i <= |host| + 3 {
          assert u[i] == ext[i - |host| - 1];
        } else if i > |host| + 4 {
          assert u[i] == rest[i - |host| - 5];
        }
      }
      assert u[|host| + 4] == '/';
    }
  }
}

=== FILE: wrappers.dfy ===
/** Failure-compatible optional value, standing in for JavaScript's
    `undefined`/`null` wherever the source reads a field that may be absent. */
module Wrappers {

  datatype Option<+T> = None | Some(value: T) {

    predicate IsFailure() {
      None?
    }

    function PropagateFailure<U>(): Option<U>
      requires None?
    {
      None
    }

    function Extract(): T
      requires Some?
    {
      value
    }

    /** JavaScript's `x ?? d`. */
    function GetOr(default: T): T {
      match this
      case Some(v) => v
      case None => default
    }
  }

  /** Looks a key up in a map, as `Map.prototype.get` does. */
  function Get<K, V>(m: map<K, V>, k: K): (r: Option<V>)
    ensures r.Some? <==> k in m
    ensures r.Some? ==> r.value == m[k]
  {
    if k in m then Some(m[k]) else None
  }
}
